=== FILE: README.md ===
# Market sentiment: a verified model of the scoring core

The system collects market sentiment for a stock symbol and rates it on a
2-to-5 scale. It has three sources:

- news articles, scored with VADER and TextBlob;
- social posts, scored with VADER and weighted by their up-votes;
- five FRED economic indicators, each rated on whether its trend is favourable.

An optional pair of trained classifiers, a TF-IDF logistic regression and a
random forest averaged as an ensemble, can re-score the collected texts. A Flask
API turns these scores into the figures the dashboard shows:

- the current sentiment, cached for a minute and falling back to the bundled CSV;
- a 0-to-100 trend series;
- the latest news;
- a word cloud;
- a buy/hold/sell recommendation.

The React dashboard applies real-time events to its state. Three Mongoose
schemas define which instruments, messages and aggregated sentiments the
database accepts.

The Dafny model has one module per component:

| module | file | models |
|---|---|---|
| `Numeric` | numeric.dfy | Python `round(x, 2)` and `round(x)`, clamping, `random.uniform`, means |
| `Text` | text.dfy | character classes, `lower`/`upper`, Python `strip` and JavaScript `trim`, subsequences |
| `Preprocessing` | preprocessing.dfy | `label_sentiment` and both `clean_text` pipelines |
| `ModelSelection` | model_selection.dfy | the best-model loop of the stand-alone training script |
| `LiveData` | live_data.dfy | `LiveDataCollector`: news, social and economic scores and the comprehensive result |
| `MlPredictor` | ml_predictor.dfy | `MarketSentimentPredictor`: training state, prediction, batch scoring, live analysis |
| `Recommendation` | recommendation.dfy | the decision table, confidence and explanation of `get_recommendation` |
| `WordCloud` | word_cloud.dfy | word extraction and `Counter.most_common` |
| `SentimentApi` | sentiment_api.dfy | `MarketSentimentAPI`, the live-sentiment cache and `clear_cache` |
| `Dashboard` | dashboard.dfy | the dashboard state and `handleRealtime` |
| `Mongoose`, `InstrumentSchema`, `MessageSchema`, `AggregatedSentimentSchema` | schemas.dfy | casting (trim and uppercase setters, defaults) and validation of the three schemas |

The model treats several things as inputs or as rules of its own:

- **Random draws.** Each `random.uniform(lo, hi)` is a parameter `u` in [0, 1], mapped to `lo + (hi - lo) * u`. The Gaussian jitter of the trend series is an arbitrary real per point.
- **External scorers.** VADER's compound score and TextBlob's polarity are functions into [-1, 1].
- **Pipeline calls.** A call that may raise becomes a `Fetch` value: `Fetched(v)` or `Raised`.
- **Mongoose fields.** A document field is `Absent`, `Null` or a value.
- **Rounding.** `round(x)` to an integer rounds ties to even, as Python does. `round(x, 2)` is modelled half-up on exact reals.
- **Clock.** Times are microsecond counts.

## Model

| member | source | states |
|---|---|---|
| Numeric.Clamp | backend/app.py:91 | the result lies in [lo, hi]; it equals x inside the range and the nearer bound outside |
| Numeric.Round2 | backend/app.py:94 | rounding to two decimals moves a value by at most half a hundredth, and the result is a whole number of hundredths |
| Numeric.RoundHalfEven | backend/app.py:310 | `round(x)` is within half a unit of x, and an exact tie goes to the even neighbour |
| Numeric.Round2Within | backend/live_data_collector.py:174 | rounding to cents keeps a value between two cent-valued bounds, so a rounded uniform draw stays in its range |
| Numeric.Uniform | backend/live_data_collector.py:165 | a uniform draw lies between its bounds |
| Numeric.MeanBounds | backend/ml_sentiment_predictor.py:151 | the mean of values in [lo, hi] lies in [lo, hi] |
| Preprocessing.LabelSentiment | backend/ml_sentiment_predictor.py:21-28 | a score is neutral exactly when strictly between -0.2 and 0.2 (the other two bands are `LabelPartition`) |
| Preprocessing.LabelPartition | Market_Sentiment_Prediction_ML_Model.py:20-26 | a score is negative exactly when <= -0.2, positive exactly when >= 0.2, and neutral strictly between |
| Preprocessing.LabelMonotone | backend/ml_sentiment_predictor.py:21-28 | a higher score never gets a lower label (negative < neutral < positive) |
| Preprocessing.RemoveUrls | backend/ml_sentiment_predictor.py:35 | removing URLs never lengthens the text (deletion only is `RemoveUrlsSubseq`, the removed tokens are `UrlTokenRemoved`) |
| Preprocessing.RemoveUrlsSubseq | backend/ml_sentiment_predictor.py:35 | removing `http\S+` matches only deletes characters: the result is a subsequence of the input |
| Preprocessing.UrlTokenRemoved | backend/ml_sentiment_predictor.py:35 | a whitespace-delimited token starting with "http" and followed by a non-space vanishes, and the text on both sides is cleaned independently |
| Preprocessing.PrefixWithoutHKept | backend/ml_sentiment_predictor.py:35 | text without the letter h cannot start a match, so it is kept before whatever follows is cleaned |
| Preprocessing.UrlInsideWordRemoved | backend/ml_sentiment_predictor.py:35 | `http\S+` also matches inside a word: "http" after a prefix without an "h" is deleted with the rest of its token, and the prefix is kept |
| Preprocessing.BareHttpSurvives | backend/ml_sentiment_predictor.py:35 | "http" directly followed by whitespace is not a match and is kept |
| Preprocessing.RemovePunctuation | backend/ml_sentiment_predictor.py:36 | no ASCII punctuation remains and only characters are deleted |
| Preprocessing.RemovePunctuationKeeps | backend/ml_sentiment_predictor.py:36 | every non-punctuation character is kept as often as it occurs and every punctuation character occurs 0 times |
| Preprocessing.RemoveDigits | backend/ml_sentiment_predictor.py:37 | no digit remains and only characters are deleted |
| Preprocessing.RemoveDigitsKeeps | backend/ml_sentiment_predictor.py:37 | every non-digit is kept as often as it occurs and every digit occurs 0 times |
| Preprocessing.CleanTextScript | Market_Sentiment_Prediction_ML_Model.py:28-33 | the cleaned text has no upper-case letters, punctuation or digits and is a subsequence of the lower-cased input |
| Preprocessing.CleanText | backend/ml_sentiment_predictor.py:30-38 | the cleaned text has no upper-case letters, punctuation or digits, no leading or trailing whitespace, and is a subsequence of the lower-cased input |
| Preprocessing.CleanTextIsStrippedScriptClean | backend/ml_sentiment_predictor.py:30-38 | the predictor's cleaner equals the script's cleaner followed by `strip` (Market_Sentiment_Prediction_ML_Model.py:28-33) |
| Preprocessing.CleanTextNotIdempotent | backend/ml_sentiment_predictor.py:30-38 | cleaning is not idempotent: "h.ttpabc" cleans to "httpabc", which cleans to "" because punctuation removal creates a URL token |
| ModelSelection.FirstBestUnique | Market_Sentiment_Prediction_ML_Model.py:82-85 | the candidate the loop keeps is unique: ties go to the earlier candidate |
| ModelSelection.SelectBestModel | Market_Sentiment_Prediction_ML_Model.py:62-87 | results hold every evaluation in order; a best model exists exactly when some accuracy is positive, and it is the first with the highest accuracy |
| LiveData.ToFiveScale | backend/live_data_collector.py:157-161 | the mean polarity maps into [2, 5] |
| LiveData.ToFiveScaleSpec | backend/live_data_collector.py:240-244 | the mapping is monotone, sends -1, 0, 1 to 2, 3.5, 5, and is linear (3.5 + 1.5x) on [-1, 1] |
| LiveData.DomainScore | backend/live_data_collector.py:157-174 | a source score is on the 2-to-5 scale; with scores it is within half a hundredth of the 2-to-5 image of their mean, and with none it is the rounded draw from the fallback band |
| LiveData.FallbackWithinBand | backend/live_data_collector.py:170-174 | a rounded uniform draw with cent-valued bounds stays within those bounds |
| LiveData.Take30 | backend/live_data_collector.py:126 | exactly the first 30 items are kept, and shorter lists are kept whole |
| LiveData.ArticleScore | backend/live_data_collector.py:134-141 | an article's combined VADER/TextBlob score lies in [-1, 1] |
| LiveData.NewsScores | backend/live_data_collector.py:126-155 | at most one score per article, each in [-1, 1] |
| LiveData.ArticleRecord | backend/live_data_collector.py:141-149 | an article yields a record exactly when its source is a dictionary or absent (a non-dictionary source raises), and the record keeps the article's score |
| LiveData.ArticleScored | backend/live_data_collector.py:132-149 | an article with non-blank title+description appends its VADER/TextBlob average to the scores and its record to the stored articles, after those of the earlier articles |
| LiveData.NewsRecords | backend/live_data_collector.py:141-149 | at most one stored record per score |
| LiveData.BlankArticleSkipped | backend/live_data_collector.py:132 | an article whose title+description is blank adds neither a score nor a record |
| LiveData.NewsRecordScores | backend/live_data_collector.py:141-149 | every stored article's sentiment score lies in [-1, 1] |
| LiveData.Weight | backend/live_data_collector.py:223 | the up-vote weight is the post score clamped to [1, 10]: a missing score or one at most 1 weighs 1, one of 10 or more weighs 10, and one in between weighs itself |
| LiveData.WeightedScore | backend/live_data_collector.py:223-224 | a post with 10 or more upvotes keeps its full compound score and one with none recorded or at most 1 keeps a tenth of it |
| LiveData.WeightedScoreSpec | backend/live_data_collector.py:223-224 | weighting shrinks a compound score toward 0 without changing its sign |
| LiveData.SocialScores | backend/live_data_collector.py:214-238 | at most one weighted score per post, each in [-1, 1] |
| LiveData.PostRecord | backend/live_data_collector.py:228-234 | a post yields a record exactly when its self text is not `None` (whose length raises), and the record keeps the weighted score |
| LiveData.PostScored | backend/live_data_collector.py:218-234 | a post with non-blank title+text appends its up-vote-weighted compound score to the scores and its record to the stored posts, after those of the earlier posts |
| LiveData.SocialRecords | backend/live_data_collector.py:228-234 | at most one stored record per score |
| LiveData.BlankPostSkipped | backend/live_data_collector.py:218 | a post with blank title+text adds neither a score nor a record |
| LiveData.IndicatorFromSeries | backend/live_data_collector.py:281-286 | an indicator's current value is the last observation |
| LiveData.IndicatorTrendSpec | backend/live_data_collector.py:281-286 | the trend is "up" exactly when there are two observations and the last exceeds the previous, otherwise "down"; previous is the second to last, or the last for a single observation |
| LiveData.FredIndicators | backend/live_data_collector.py:270-289 | only configured indicator names appear, and no name appears twice |
| LiveData.FredIndicatorPresent | backend/live_data_collector.py:278-289 | an indicator is reported exactly when its series was fetched without error and is non-empty |
| LiveData.FredNamesDistinct | backend/live_data_collector.py:270-276 | the five configured indicator names are distinct |
| LiveData.IndicatorWeight | backend/live_data_collector.py:305-312 | one indicator contributes between 0 and 1 (the exact table is `IndicatorWeightSpec`) |
| LiveData.IndicatorWeightSpec | backend/live_data_collector.py:305-312 | an indicator counts 1 exactly when GDP or consumer confidence is up or unemployment or inflation is down, 0.5 for the interest rate, else 0 |
| LiveData.FavourableCount | backend/live_data_collector.py:297-313 | the favourable count is between 0 and the number of indicators |
| LiveData.EconomicRatioOnScale | backend/live_data_collector.py:316-317 | the favourable ratio maps into [2, 5] |
| LiveData.EconomicScore | backend/live_data_collector.py:297-333 | the economic score is on the 2-to-5 scale; with indicators it is within 0.205 of 2 + 3 times the favourable ratio (jitter of at most 0.2 plus rounding), and with none it is the rounded draw from [2.5, 3.5] |
| LiveData.MockEconomic | backend/live_data_collector.py:451-459 | the mock data holds five indicators |
| LiveData.MockEconomicScore | backend/live_data_collector.py:451-459 | the mock indicators score between 4.5 and 4.9 whatever the jitter |
| LiveData.Overall | backend/live_data_collector.py:471-477 | the overall score is the rounded mean of the three source scores and stays on the 2-to-5 scale |
| LiveData.ScoreArticles | backend/live_data_collector.py:123-155 | the article loop yields exactly the scores and records of the specification functions |
| LiveData.ScorePosts | backend/live_data_collector.py:211-238 | the post loop yields exactly the weighted scores and records of the specification functions |
| LiveData.CollectFredIndicators | backend/live_data_collector.py:278-289 | the indicator loop yields the specification's indicator list, at most five entries |
| LiveData.LiveDataCollector.constructor | backend/live_data_collector.py:39-42 | a new collector holds no news, social or economic data |
| LiveData.LiveDataCollector.FetchNews | backend/live_data_collector.py:93-174 | on success the stored news are the records of the first 30 articles and the score is their domain score; on error the stored news are unchanged and the score is a rounded draw in [2.5, 3.5]; the other data are untouched |
| LiveData.LiveDataCollector.FetchSocial | backend/live_data_collector.py:176-257 | the same for posts, with the [2.7, 3.3] empty band and the [2.6, 3.4] error band |
| LiveData.LiveDataCollector.FetchEconomic | backend/live_data_collector.py:259-333 | on success the stored indicators are the collected ones and the score is their economic score; on error the data are kept and the score is a rounded draw in [2.4, 3.6] |
| LiveData.LiveDataCollector.GetComprehensiveSentiment | backend/live_data_collector.py:461-482 | each source score is the domain score of the first 30 fetched items (or the economic score of the fetched indicators), or the error band's draw when the fetch raised; the stored data are the fetched records, and a failed source keeps its old data; overall is the rounded mean; all on the 2-to-5 scale |
| MlPredictor.Lookup | backend/ml_sentiment_predictor.py:112 | a model is found exactly when one is stored under that name, and the one returned is the classifier of the first stored pair with that name |
| MlPredictor.EnsemblePredict | backend/ml_sentiment_predictor.py:99-117 | a successful ensemble prediction needs a stored logistic-regression model and its label is one of that model's classes (the full argmax statement is `EnsemblePredictSpec`) |
| MlPredictor.FirstArgMax | backend/ml_sentiment_predictor.py:114 | `np.argmax` returns the first index holding the maximum |
| MlPredictor.AverageRows | backend/ml_sentiment_predictor.py:111 | the column mean of the probability rows has one entry per class |
| MlPredictor.EnsemblePredictSpec | backend/ml_sentiment_predictor.py:99-117 | the ensemble label is the logistic model's class at the first maximum of the averaged probabilities, its confidence is that maximum, and it lies in [0, 1] when the probabilities do |
| MlPredictor.LabelScore | backend/ml_sentiment_predictor.py:140-148 | a label and confidence map into [2, 5] |
| MlPredictor.LabelScoreSpec | backend/ml_sentiment_predictor.py:140-148 | positive maps to 3.5 + 1.5c, negative to 3.5 - 1.5c, neutral to 3 |
| MlPredictor.FromCollector | backend/ml_sentiment_predictor.py:183-184 | every collector indicator becomes one economic entry |
| MlPredictor.TrendCountBounds | backend/ml_sentiment_predictor.py:179-198 | the positive-trend count is between 0 and the number of entries |
| MlPredictor.TrendlessEntryIgnored | backend/ml_sentiment_predictor.py:184 | an entry that is not a dict with a trend adds nothing to the count but still counts toward the total |
| MlPredictor.TrendCountMatchesCollector | backend/ml_sentiment_predictor.py:183-193 | on the collector's indicators, the predictor counts favourable trends exactly as the collector does (backend/live_data_collector.py:301-312) |
| MlPredictor.MlEconomicScore | backend/ml_sentiment_predictor.py:177-198 | the economic score is on the 2-to-5 scale, and without indicators it is exactly the draw from [2.7, 3.3] |
| MlPredictor.MlEconomicMatchesCollector | backend/ml_sentiment_predictor.py:177-198 | with indicators from the collector, the score is exactly 2 + 3 times the favourable ratio, and the collector's jittered economic score stays within 0.205 of it |
| MlPredictor.NewsTexts | backend/ml_sentiment_predictor.py:157-162 | one text per article |
| MlPredictor.SocialTexts | backend/ml_sentiment_predictor.py:168-173 | one text per post |
| MlPredictor.CollectNewsTexts | backend/ml_sentiment_predictor.py:157-162 | the loop builds the title+description text of every article |
| MlPredictor.CollectSocialTexts | backend/ml_sentiment_predictor.py:168-173 | the loop builds the title+text of every post |
| MlPredictor.MarketSentimentPredictor.constructor | backend/ml_sentiment_predictor.py:15-19 | a new predictor has no models, no vectorizer and is untrained |
| MlPredictor.MarketSentimentPredictor.Predict | backend/ml_sentiment_predictor.py:92-128 | missing or empty text is neutral with confidence 0, and without both models the confidence is in [0, 1] (the full case split is `PredictSpec`) |
| MlPredictor.MarketSentimentPredictor.PredictSpec | backend/ml_sentiment_predictor.py:92-128 | missing or empty text is neutral with 0 confidence; without both models the VADER label and its magnitude are used; with them the ensemble result on the cleaned text, falling back to VADER |
| MlPredictor.MarketSentimentPredictor.BatchScores | backend/ml_sentiment_predictor.py:136-149 | one score per text, each on the 2-to-5 scale |
| MlPredictor.MarketSentimentPredictor.ScoreBatch | backend/ml_sentiment_predictor.py:130-151 | a non-empty batch scores the rounded mean of its per-text scores; an empty batch a rounded draw in [2.8, 3.2]; always on the 2-to-5 scale |
| MlPredictor.MarketSentimentPredictor.AnalyzeLiveData | backend/ml_sentiment_predictor.py:153-208 | news and social scores are batch scores of their texts or draws in their bands when empty, the economic score is the trend-based score, overall is the rounded mean of the three unrounded scores, and all four results are on the 2-to-5 scale |
| MlPredictor.MarketSentimentPredictor.Train | backend/ml_sentiment_predictor.py:40-90 | the predictor is trained exactly when the run completes; a failure leaves the state reached before it (vectorizer set or not, models stored or not) |
| MlPredictor.MarketSentimentPredictor.LoadModel | backend/ml_sentiment_predictor.py:222-235 | the predictor is trained exactly when the file unpickles with models, vectorizer and a true flag; otherwise the state reached before the failing key is kept |
| Recommendation.TrendDirection | backend/app.py:235-238 | the trend is -1, 0 or 1 |
| Recommendation.TrendDirectionSpec | backend/app.py:235-238 | fewer than five points is flat; otherwise up exactly when the last score exceeds the fifth from last, down otherwise |
| Recommendation.DecisionConfidence | backend/app.py:244-286 | the raw confidence lies in [45, 95] |
| Recommendation.DecisionAction | backend/app.py:244-286 | the action is STRONG_BUY exactly when the rating is at least 4 and the trend not falling, and SELL exactly when the rating is under 2.5 and the trend not rising (each band is `ActionTable`) |
| Recommendation.ActionTable | backend/app.py:244-286 | the action for each rating band and trend sign, as in the decision table |
| Recommendation.ActionMonotoneInRating | backend/app.py:244-286 | a higher rating never gives a weaker action |
| Recommendation.ActionMonotoneInTrend | backend/app.py:244-286 | a better trend never gives a weaker action |
| Recommendation.ConfidenceWithinBranchCaps | backend/app.py:247-285 | each branch's confidence lies between its base and its cap |
| Recommendation.CapsUnreachableOnScale | backend/app.py:247-285 | on the 2-to-5 rating scale several caps are never reached (for example StrongBuy stays at or below 90) |
| Recommendation.CallOuts | backend/app.py:289-306 | at most three key factors are named |
| Recommendation.CallOutsSpec | backend/app.py:289-306 | each phrase appears exactly when its component is below 2.3 or above 3.7, and none appears exactly when all three are in [2.3, 3.7] |
| Recommendation.CallOutsOrdered | backend/app.py:289-306 | phrases appear in news, social, economic order |
| Recommendation.Recommend | backend/app.py:229-318 | the recommendation carries the rating and components, the table's action, the confidence rounded to the nearest integer (ties to even) in [45, 95], and an explanation that extends the guidance exactly when some factor is called out |
| Recommendation.RecommendExamples | backend/app.py:244-286 | rating 4.5 rising gives STRONG BUY at 85, rating 2.1 falling SELL at 71, rating 2.0 falling SELL at 72 (a tie at 72.5 rounds to even), rating 3.0 flat HOLD at 45 |
| WordCloud.Words | backend/app.py:72 | every extracted word is non-empty |
| WordCloud.WordsKeep | backend/app.py:72 | extracted words consist of word characters of the text, so a property of every character carries over |
| WordCloud.FilterCloudWords | backend/app.py:73 | kept words come from the input and pass the length and stop-word filter, and every word that passes is kept as often as it occurs |
| WordCloud.FilterCloudWordsSingle | backend/app.py:73 | one word is kept exactly when it passes the filter |
| WordCloud.FilterCloudWordsAppend | backend/app.py:73 | filtering a concatenation concatenates the filtered parts, so the kept words stay in input order |
| WordCloud.CloudWords | backend/app.py:69-73 | every cloud candidate passes the filter, and every word of the lower-cased text that passes is a candidate as often as it occurs |
| WordCloud.CloudWordsLowercase | backend/app.py:69-73 | every candidate is at least four lower-case letters and not a stop word |
| WordCloud.FirstIndex | backend/app.py:76 | the first occurrence of a word |
| WordCloud.RanksBeforeTotal | backend/app.py:76-77 | the `most_common` order (count descending, first occurrence on ties) is a strict total order |
| WordCloud.MostCommon | backend/app.py:76-77 | at most n words, all from the input, in rank order, and any word left out ranks below all n kept ones |
| SentimentApi.Tail | backend/app.py:84 | `tail(n)` is the last min(n, len) rows and, for negative n, all but the first abs(n) |
| SentimentApi.SliceTo | backend/app.py:190 | `[:n]` is a prefix of min(n, len) items, or all but the last abs(n) for negative n |
| SentimentApi.TrendScore | backend/app.py:91-94 | on [-1, 1] the trend score is within half a hundredth of (sentiment + 1) * 50; below -1 it is 0 and above 1 it is 100 |
| SentimentApi.TrendScoreSpec | backend/app.py:91-94 | it is monotone and sends -1, 0, 1 to 0, 50, 100 |
| SentimentApi.TrendSeries | backend/app.py:79-108 | one point per row of the tail |
| SentimentApi.TrendSeriesSpec | backend/app.py:79-108 | the points keep the dates of the last rows in order and stay in [0, 100]; between 8 and 364 days the score is exactly the converted daily mean |
| SentimentApi.Scores | backend/app.py:235 | the scores of a trend series, point by point |
| SentimentApi.TimedeltaSeconds | backend/app.py:118 | `timedelta.seconds` lies in [0, 86400) |
| SentimentApi.TimedeltaUnderMinute | backend/app.py:118 | `timedelta.seconds` is under 60 exactly when the difference modulo whole days is under a minute |
| SentimentApi.Fresh | backend/app.py:114-118 | a cached entry is fresh exactly when there is data and a timestamp and the time since it, modulo whole days, is under a minute |
| SentimentApi.FreshWithinMinute | backend/app.py:114-121 | data stored less than a minute ago is fresh |
| SentimentApi.FreshnessIgnoresDays | backend/app.py:116-118 | an entry a whole number of days earlier or later plus under a minute counts as fresh, including one stamped between 86340 and 86400 seconds in the future, while one stamped a microsecond in the future is stale |
| SentimentApi.CsvFallback | backend/app.py:159-183 | the fallback economic score lies in [1, 5] |
| SentimentApi.CsvFallbackSpec | backend/app.py:164-183 | with means in [-1, 1] all fallback scores lie in [0, 5]; a CPI of 280 gives economic 3; all-negative means give overall 0 |
| SentimentApi.FromLive | backend/app.py:127-151 | with a trained predictor all four scores are its scores, otherwise the collector's; `economic` is reported as `econ` |
| SentimentApi.CurrentSentiment | backend/app.py:110-183 | a fresh cached value is returned; otherwise the live pipeline's sentiment, or the CSV fallback when the pipeline raises |
| SentimentApi.SentimentCache.constructor | backend/app.py:26-30 | the cache starts empty |
| SentimentApi.SentimentCache.Clear | backend/app.py:371-377 | clearing empties the cache, so it is fresh at no time |
| SentimentApi.NewsLabel | backend/app.py:194 | POS exactly for a positive score, NEG otherwise |
| SentimentApi.LiveNewsItems | backend/app.py:189-206 | one item per stored article |
| SentimentApi.LiveNewsItem | backend/app.py:189-206 | an item keeps its number and its article's score and is POS exactly when that score is positive; it is missing exactly when the publication time or the description is `None` |
| SentimentApi.LiveNewsItemsSpec | backend/app.py:189-206 | items are numbered from 0, carry the article's score, and are POS exactly when it is positive |
| SentimentApi.NewsRows | backend/app.py:212 | the selection holds only news rows and every news row of the input, and no more rows than the input |
| SentimentApi.NewsRowsSingle | backend/app.py:212 | a single row is kept exactly when its type is news |
| SentimentApi.NewsRowsAppend | backend/app.py:212 | the selection of a concatenation is the concatenation of the selections, so news rows keep their order |
| SentimentApi.NewsRowsAllNews | backend/app.py:212 | a list of news rows is kept whole |
| SentimentApi.NewsTitles | backend/app.py:66 | one title per news row, and a title occurs exactly when some news row carries it |
| SentimentApi.CsvNewsItems | backend/app.py:214-225 | one item per news row |
| SentimentApi.LatestNews | backend/app.py:185-227 | at most `count` items, numbered from 0, POS exactly when the score is positive |
| SentimentApi.MarketSentimentApi.constructor | backend/app.py:33-61 | the API keeps its data, and its word cloud is the up to 20 most common filtered title words, in rank order, with every word left out ranking below them |
| SentimentApi.MarketSentimentApi.GenerateWordCloud | backend/app.py:63-77 | the cloud is the up to 20 most common filtered title words, in rank order, and every word left out ranks below them |
| SentimentApi.MarketSentimentApi.GetSentimentTrend | backend/app.py:79-108 | the trend is the trend series of the daily rows |
| SentimentApi.MarketSentimentApi.GetCurrentSentiment | backend/app.py:110-183 | a fresh cache is served and kept; otherwise the live pipeline's sentiment is returned and cached with the current time, and on error the CSV fallback is returned and the cache is unchanged |
| SentimentApi.MarketSentimentApi.GetRecommendation | backend/app.py:229-318 | the recommendation is built from the current sentiment and the direction of the 7-day trend, and the cache changes exactly as a current-sentiment request changes it |
| SentimentApi.CacheServesRepeatRequests | backend/app.py:114-157 | a repeat request within the minute returns the cached value even when the pipeline would now give another, and clearing the cache forces a fresh value |
| Dashboard.AppendBoundedSpec | frontend/src/App.jsx:49-54 | a new time-series point is last, the length is capped at the bound, and the kept points are the newest old ones |
| Dashboard.PrependBoundedSpec | frontend/src/App.jsx:66-68 | a new news item is first, followed by the oldest-kept prefix of the previous list, capped at the bound |
| Dashboard.KpisFrom | frontend/src/App.jsx:55-62 | the four KPI cards, titled in fixed order, carry the payload's four values and no deltas |
| Dashboard.Override | frontend/src/App.jsx:81-84 | a snapshot field replaces its slice when present and leaves it otherwise |
| Dashboard.DashboardState.constructor | frontend/src/App.jsx:14-45 | every slice holds its seeded contents (four KPI cards, three points, two categories, three words, one news item, two table rows), within the point and news bounds |
| Dashboard.DashboardState.Handle | frontend/src/App.jsx:47-89 | each event changes only the slice it names (a snapshot the slices it carries); unknown events change nothing; category data never changes |
| Dashboard.DashboardState.HandleAll | frontend/src/App.jsx:47-89 | over any stream of events the category data is unchanged, and after a point or news event that slice is within its bound and holds the item at its newest end |
| Mongoose.MapText | backend/src/models/instrument.model.js:4 | a setter applies to a string value and leaves a missing or null value as it is |
| Mongoose.NullPassesCustomRange | backend/src/models/aggregatedSentiment.model.js:16-18 | null passes a custom range check that contains 0, because it compares as 0 |
| InstrumentSchema.Cast | backend/src/models/instrument.model.js:4-25 | name and sector are trimmed, the ticker upper-cased then trimmed, the ISIN trimmed then upper-cased |
| InstrumentSchema.Errors | backend/src/models/instrument.model.js:4-25 | errors are reported only on the four paths |
| InstrumentSchema.ErrorPaths | backend/src/models/instrument.model.js:4-25 | each path fails exactly by its own rule: required and length for name and ticker, the ISIN pattern, the sector length |
| InstrumentSchema.NameSpec | backend/src/models/instrument.model.js:4 | the name is accepted exactly when it is a string whose trimmed form has 1 to 200 characters |
| InstrumentSchema.TickerSpec | backend/src/models/instrument.model.js:5-12 | the ticker is accepted exactly when it is a string whose upper-cased, trimmed form has 1 to 20 characters |
| InstrumentSchema.IsinSpec | backend/src/models/instrument.model.js:13-24 | the ISIN is accepted exactly when it is missing, null, blank after trimming, or 12 upper-case letters and digits after trimming and upper-casing |
| InstrumentSchema.SectorSpec | backend/src/models/instrument.model.js:25 | the sector is accepted exactly when it is not a string or has at most 100 characters after trimming |
| InstrumentSchema.AcceptedShape | backend/src/models/instrument.model.js:5-24 | an accepted instrument has a 1-to-20-character ticker with no surrounding space and no lower-case letter, and an empty or well-formed ISIN |
| InstrumentSchema.IsinPaddedAnyCase | backend/src/models/instrument.model.js:13-24 | twelve letters and digits of either case, padded with whitespace, pass the ISIN check |
| MessageSchema.CastSentiment | backend/src/models/message.model.js:6-24 | tags default to [], weight to 1, the channel is trimmed, score and confidence are kept |
| MessageSchema.Cast | backend/src/models/message.model.js:54 | sentiments default to [] and each one is cast as a subdocument |
| MessageSchema.SentimentErrors | backend/src/models/message.model.js:6-22 | a sentiment's errors are reported only on its channel, score and confidence paths |
| MessageSchema.SentimentSpec | backend/src/models/message.model.js:6-22 | the score is accepted exactly when it is a number in [-1, 1]; the confidence when it is not a number or lies in [0, 1]; the channel when it is a string that is not blank |
| MessageSchema.SubdocumentErrorsReported | backend/src/models/message.model.js:54 | an error in any sentiment is reported under that element's path |
| MessageSchema.TitleSpec | backend/src/models/message.model.js:42 | the title is accepted exactly when it is not a string or has at most 500 characters after trimming |
| MessageSchema.AcceptedScores | backend/src/models/message.model.js:7-22 | every sentiment of an accepted message has a score in [-1, 1] and any confidence in [0, 1] |
| MessageSchema.DefaultsAndRequired | backend/src/models/message.model.js:30-54 | without sentiments the array defaults to empty, and the message is accepted exactly when instrument, source and timestamp are given |
| AggregatedSentimentSchema.Cast | backend/src/models/aggregatedSentiment.model.js:12 | scores default to an empty map; the score and rating are kept |
| AggregatedSentimentSchema.ValidateSpec | backend/src/models/aggregatedSentiment.model.js:4-23 | the aggregated score fails exactly when it is a number outside [-1, 1]; the rating exactly when it is a number outside [1, 5]; the document is accepted exactly when instrument and both period ends are given and both numbers are in range |

## Left out

- Flask routes, the `/api/companies` and `/api/health` endpoints, the start-up threads, logging and JSON serialisation are not modelled. The API is modelled through its methods.
- The HTTP clients for NewsAPI, Reddit and FRED are not modelled. Their results are `Fetch` inputs, so a call that raises is `Raised`. The request and query building is also left out: the company map, the search terms and the subreddit loop.
- The mock news and social generators are left out. They only feed the fetchers, and their output is arbitrary text. The mock economic data is modelled.
- VADER, TextBlob, scikit-learn (fitting, TF-IDF, `predict_proba`, the metrics, the confusion matrix) and pickle are left out. They enter as functions and values.
- `save_model` and the training script's Streamlit page are not modelled.
- pandas CSV loading, sorting, group-by and daily means are left out. The API receives the daily rows, the news rows and the fallback statistics (`CsvStats`) as inputs, and the per-source means are not kept.
- The filter of the training data and the train/test split are left out. Training is modelled by its outcome (`TrainingRun`).
- Floating point is not modelled. Arithmetic is on exact reals, and a NaN mean of an empty CSV selection is not represented.
- Numeric.Round2: ties are rounded up rather than to the nearest binary double, so a value such as 2.675, which Python stores just below the tie and rounds to 2.67, rounds to 2.68 here.
- The live pipeline of `get_current_sentiment` enters as a `LiveOutcome` value: the predictor's scores come with the collector's result rather than being computed by `AnalyzeLiveData` inside the request, and the collector's stored state is not threaded through the API.
- Case mapping and `\w`, `\S` and `\d` cover ASCII only. Unicode case mapping and non-ASCII word characters are not modelled. JavaScript string lengths count characters, not UTF-16 code units.
- In `fetch_economic_sentiment`, the `total_indicators == 0` branch inside the non-empty-indicators branch can never run and is not modelled.
- Timestamps are formatted and sliced outside the model: the ISO time and the CSV `strftime` are inputs.
- Recommendation.Guidance: has no contract of its own. Its text is fixed per action and is constrained only through `Recommend`.
- SentimentApi.TrendSeries: the Gaussian jitter is any real per point, so for 7 or fewer days and for 365 or more days the contract states only the clamp to [0, 100].
- Dashboard payloads are typed values rather than arbitrary JSON, and the console log of unknown events is left out.
- MessageSchema.Cast: the `url` validator (`isURL`), `raw_json`, `embedding`, `content` and the `created_at` defaults of all three schemas are not modelled. Casting a string to an ObjectId, a Date or a Number is assumed to succeed, so cast errors are not modelled.
- AggregatedSentimentSchema.ValidateSpec: null passes the aggregated-score validator. The validator compares null as 0 (aggregatedSentiment.model.js:17), so the contract accepts null, as the code does, although the check appears meant for numbers only.

=== FILE: common.dfy ===
/**
 * Vocabulary shared by the backend services: optional values, the outcome
 * of a call that may raise, and the range-restricted scorers supplied by
 * the sentiment libraries.
 */
module Common {

  datatype Option<T> = None | Some(value: T)

  /** The outcome of a call that either returns a value or raises. */
  datatype Fetch<T> = Fetched(value: T) | Raised

  /**
   * A lexical polarity scorer such as VADER's compound score or TextBlob's
   * polarity: any function of the text whose value lies in [-1, 1].
   */
  type Polarity = f: string -> real | forall t :: -1.0 <= f(t) <= 1.0
    witness (t: string) => 0.0

  /** A Python dictionary value looked up with `get`: missing, `None`, or a string. */
  datatype Field = Absent | Null | Text(s: string)

  /** `d.get(key, default)`: a missing key yields the default. */
  function GetOr(f: Field, default: string): (r: Field)
    ensures r != Absent
    ensures f != Absent ==> r == f
  {
    if f == Absent then Text(default) else f
  }

  /** The text an f-string interpolates for a looked-up value (`None` prints as "None"). */
  function Show(f: Field): string
  {
    match f
    case Absent => ""
    case Null => "None"
    case Text(s) => s
  }
}

=== FILE: dashboard.dfy ===
/**
 * The dashboard's real-time state: six slices of React state and the
 * handler that applies one pushed event to them. Lists pushed one item at
 * a time are kept bounded (the last 30 time-series points, the first 12
 * news items); whole-slice updates and snapshots replace slices outright.
 */
module Dashboard {
  import opened Common

  /** A JSON value shown on a KPI card; reading a missing payload field gives `Undefined`. */
  datatype Datum = Undefined | Str(s: string) | Num(n: real)

  datatype Kpi = Kpi(title: string, value: Datum, delta: Option<string>)
  datatype TimePoint = TimePoint(time: string, score: real)
  datatype Category = Category(category: string, count: int)
  datatype WordWeight = WordWeight(text: string, value: int)
  datatype NewsEntry = NewsEntry(title: string, source: string, time: string)
  datatype TableRow = TableRow(symbol: string, price: string, sentiment: string)

  /** The fields a KPI payload carries. */
  datatype KpiPayload = KpiPayload(overall: Datum, articles24h: Datum, positive: Datum, negative: Datum)

  /**
   * A pushed event with its payload. In a snapshot a slice is `Some`
   * exactly when its field is truthy; any array, even an empty one, is.
   */
  datatype Event =
    | TimeseriesNew(point: TimePoint)
    | KpisUpdate(kpis: KpiPayload)
    | WordcloudUpdate(words: seq<WordWeight>)
    | NewsNew(item: NewsEntry)
    | TableUpdate(rows: seq<TableRow>)
    | Snapshot(
        snapKpis: Option<KpiPayload>, snapTimeseries: Option<seq<TimePoint>>,
        snapWords: Option<seq<WordWeight>>, snapNews: Option<seq<NewsEntry>>,
        snapTable: Option<seq<TableRow>>)
    | Unhandled(name: string)

  const MaxTimeseries: nat := 30
  const MaxNews: nat := 12

  /** `[...s, x].slice(-n)`: append, then keep the last `n`. */
  function AppendBounded<T>(s: seq<T>, x: T, n: nat): (r: seq<T>)
  {
    var t := s + [x];
    if |t| <= n then t else t[|t| - n..]
  }

  /**
   * For a positive bound the appended item is last, the length is capped,
   * and what is kept is the newest part of the old list.
   */
  lemma AppendBoundedSpec<T>(s: seq<T>, x: T, n: nat)
    requires n > 0
    ensures var r := AppendBounded(s, x, n);
      && |r| == (if |s| + 1 <= n then |s| + 1 else n)
      && r[|r| - 1] == x
      && r[..|r| - 1] == s[|s| + 1 - |r|..]
  {
    var t := s + [x];
    if |t| > n {
      assert t[|t| - n..][..n - 1] == s[|s| + 1 - n..];
    }
  }

  /** `[x, ...s].slice(0, n)`: prepend, then keep the first `n`. */
  function PrependBounded<T>(x: T, s: seq<T>, n: nat): (r: seq<T>)
  {
    var t := [x] + s;
    if |t| <= n then t else t[..n]
  }

  /** For a positive bound the new item is first, followed by the oldest-kept prefix of the list. */
  lemma PrependBoundedSpec<T>(x: T, s: seq<T>, n: nat)
    requires n > 0
    ensures var r := PrependBounded(x, s, n);
      && |r| == (if |s| + 1 <= n then |s| + 1 else n)
      && r[0] == x
      && r[1..] == s[..|r| - 1]
  {
    var t := [x] + s;
    if |t| > n {
      assert t[..n][1..] == s[..n - 1];
    } else {
      assert t[1..] == s;
    }
  }

  /** The four KPI cards built from a payload, in fixed order and without deltas. */
  function KpisFrom(p: KpiPayload): (r: seq<Kpi>)
    ensures |r| == 4
    ensures forall i :: 0 <= i < 4 ==> r[i].delta.None?
    ensures r[0].title == "Overall Sentiment" && r[0].value == p.overall
    ensures r[1].title == "Articles (24h)" && r[1].value == p.articles24h
    ensures r[2].title == "Positive Mentions" && r[2].value == p.positive
    ensures r[3].title == "Negative Mentions" && r[3].value == p.negative
  {
    [Kpi("Overall Sentiment", p.overall, None),
     Kpi("Articles (24h)", p.articles24h, None),
     Kpi("Positive Mentions", p.positive, None),
     Kpi("Negative Mentions", p.negative, None)]
  }

  /** A snapshot field replaces its slice when present and leaves it otherwise. */
  function Override<T>(current: T, field: Option<T>): (r: T)
    ensures field.None? ==> r == current
    ensures field.Some? ==> r == field.value
  {
    if field.Some? then field.value else current
  }

  class DashboardState {
    var kpis: seq<Kpi>
    var timeseries: seq<TimePoint>
    var categoryData: seq<Category>
    var wordCloudData: seq<WordWeight>
    var news: seq<NewsEntry>
    var tableRows: seq<TableRow>

    /** The initial state of every slice. */
    constructor()
      ensures kpis == [
        Kpi("Overall Sentiment", Str("0.72"), Some("+4.5%")),
        Kpi("Articles (24h)", Num(134.0), Some("+8%")),
        Kpi("Positive Mentions", Num(87.0), None),
        Kpi("Negative Mentions", Num(47.0), None)]
      ensures timeseries == [TimePoint("09:00", 0.4), TimePoint("10:00", 0.5), TimePoint("11:00", 0.65)]
      ensures categoryData == [Category("Tech", 45), Category("Finance", 32)]
      ensures wordCloudData == [WordWeight("Market", 8), WordWeight("AI", 7), WordWeight("Earnings", 4)]
      ensures news == [NewsEntry("Stocks rally on positive earnings", "Reuters", "1h ago")]
      ensures tableRows == [TableRow("AAPL", "$188.22", "Positive"), TableRow("TSLA", "$273.90", "Neutral")]
      ensures |timeseries| <= MaxTimeseries && |news| <= MaxNews
    {
      kpis := [
        Kpi("Overall Sentiment", Str("0.72"), Some("+4.5%")),
        Kpi("Articles (24h)", Num(134.0), Some("+8%")),
        Kpi("Positive Mentions", Num(87.0), None),
        Kpi("Negative Mentions", Num(47.0), None)];
      timeseries := [TimePoint("09:00", 0.4), TimePoint("10:00", 0.5), TimePoint("11:00", 0.65)];
      categoryData := [Category("Tech", 45), Category("Finance", 32)];
      wordCloudData := [WordWeight("Market", 8), WordWeight("AI", 7), WordWeight("Earnings", 4)];
      news := [NewsEntry("Stocks rally on positive earnings", "Reuters", "1h ago")];
      tableRows := [TableRow("AAPL", "$188.22", "Positive"), TableRow("TSLA", "$273.90", "Neutral")];
    }

    /**
     * `handleRealtime`: applies one event. Only the slice the event names
     * changes (a snapshot changes the slices it carries), an unknown event
     * changes nothing, and no event touches the category data.
     */
    method Handle(e: Event)
      modifies this
      ensures categoryData == old(categoryData)
      ensures kpis == (match e
        case KpisUpdate(p) => KpisFrom(p)
        case Snapshot(k, _, _, _, _) => if k.Some? then KpisFrom(k.value) else old(kpis)
        case _ => old(kpis))
      ensures timeseries == (match e
        case TimeseriesNew(p) => AppendBounded(old(timeseries), p, MaxTimeseries)
        case Snapshot(_, t, _, _, _) => Override(old(timeseries), t)
        case _ => old(timeseries))
      ensures wordCloudData == (match e
        case WordcloudUpdate(w) => w
        case Snapshot(_, _, w, _, _) => Override(old(wordCloudData), w)
        case _ => old(wordCloudData))
      ensures news == (match e
        case NewsNew(item) => PrependBounded(item, old(news), MaxNews)
        case Snapshot(_, _, _, n, _) => Override(old(news), n)
        case _ => old(news))
      ensures tableRows == (match e
        case TableUpdate(rows) => rows
        case Snapshot(_, _, _, _, t) => Override(old(tableRows), t)
        case _ => old(tableRows))
    {
      match e
      case TimeseriesNew(p) =>
        timeseries := AppendBounded(timeseries, p, MaxTimeseries);
      case KpisUpdate(p) =>
        kpis := KpisFrom(p);
      case WordcloudUpdate(w) =>
        wordCloudData := w;
      case NewsNew(item) =>
        news := PrependBounded(item, news, MaxNews);
      case TableUpdate(rows) =>
        tableRows := rows;
      case Snapshot(k, t, w, n, rows) =>
        if k.Some? {
          kpis := KpisFrom(k.value);
        }
        if t.Some? {
          timeseries := t.value;
        }
        if w.Some? {
          wordCloudData := w.value;
        }
        if n.Some? {
          news := n.value;
        }
        if rows.Some? {
          tableRows := rows.value;
        }
      case Unhandled(_) =>
    }

    /**
     * A stream of events: the category data never changes, and when the
     * last event pushed a time-series point or a news item, that slice is
     * within its bound and holds the item at its newest end.
     */
    method HandleAll(events: seq<Event>)
      modifies this
      ensures categoryData == old(categoryData)
      ensures |events| > 0 && events[|events| - 1].TimeseriesNew? ==>
        0 < |timeseries| <= MaxTimeseries && timeseries[|timeseries| - 1] == events[|events| - 1].point
      ensures |events| > 0 && events[|events| - 1].NewsNew? ==>
        0 < |news| <= MaxNews && news[0] == events[|events| - 1].item
    {
      for i := 0 to |events|
        invariant categoryData == old(categoryData)
        invariant i > 0 && events[i - 1].TimeseriesNew? ==>
          0 < |timeseries| <= MaxTimeseries && timeseries[|timeseries| - 1] == events[i - 1].point
        invariant i > 0 && events[i - 1].NewsNew? ==>
          0 < |news| <= MaxNews && news[0] == events[i - 1].item
      {
        var before, beforeNews := timeseries, news;
        Handle(events[i]);
        if events[i].TimeseriesNew? {
          AppendBoundedSpec(before, events[i].point, MaxTimeseries);
        }
        if events[i].NewsNew? {
          PrependBoundedSpec(events[i].item, beforeNews, MaxNews);
        }
      }
    }
  }
}

=== FILE: live_data.dfy ===
/**
 * The live data collector: news articles, social posts and economic
 * indicators are scored, rescaled to the 2-5 sentiment scale and combined
 * into one overall score. The external clients (news API, Reddit, FRED) are
 * represented by the items they return or by `Raised` when they fail; every
 * `random.uniform` draw is a unit parameter `u` in [0, 1].
 */
module LiveData {
  import opened Numeric
  import opened Text
  import opened Common

  // ---------------------------------------------------------------------
  // The 2-5 scale
  // ---------------------------------------------------------------------

  /** `max(2, min(5, ((avg + 1) / 2) * 3 + 2))`: a [-1, 1] average on the 2-5 scale. */
  function ToFiveScale(avg: real): (r: real)
    ensures 2.0 <= r <= 5.0
  {
    Clamp(((avg + 1.0) / 2.0) * 3.0 + 2.0, 2.0, 5.0)
  }

  /**
   * The rescaling is monotone, maps a neutral average to 3.5 and the ends
   * of [-1, 1] to 2 and 5, and never needs its clamp on [-1, 1].
   */
  lemma ToFiveScaleSpec(a: real, b: real)
    ensures a <= b ==> ToFiveScale(a) <= ToFiveScale(b)
    ensures ToFiveScale(0.0) == 3.5
    ensures ToFiveScale(-1.0) == 2.0 && ToFiveScale(1.0) == 5.0
    ensures -1.0 <= a <= 1.0 ==> ToFiveScale(a) == 3.5 + 1.5 * a
  {
    if a <= b {
      ClampMonotone(((a + 1.0) / 2.0) * 3.0 + 2.0, ((b + 1.0) / 2.0) * 3.0 + 2.0, 2.0, 5.0);
    }
  }

  /**
   * A domain score: the rescaled mean of the item scores to within half a
   * hundredth, or, with no scores, the rounded draw from the fallback band.
   */
  function DomainScore(scores: seq<real>, lo: real, hi: real, u: real): (r: real)
    requires 2.0 <= lo <= hi <= 5.0 && 0.0 <= u <= 1.0
    ensures 2.0 <= r <= 5.0
    ensures scores != [] ==> ToFiveScale(Mean(scores)) - 0.005 < r <= ToFiveScale(Mean(scores)) + 0.005
    ensures scores == [] ==> r == Round2(Uniform(lo, hi, u)) && lo - 0.005 < r <= hi + 0.005
  {
    var raw := if scores != [] then ToFiveScale(Mean(scores)) else Uniform(lo, hi, u);
    Round2Within(raw, 200, 500);
    Round2(raw)
  }

  /** A fallback band whose ends are whole hundredths survives the rounding. */
  lemma FallbackWithinBand(lo: int, hi: int, u: real)
    requires 200 <= lo <= hi <= 500 && 0.0 <= u <= 1.0
    ensures var r := Round2(Uniform(lo as real / 100.0, hi as real / 100.0, u));
      lo as real / 100.0 <= r <= hi as real / 100.0
  {
    Round2Within(Uniform(lo as real / 100.0, hi as real / 100.0, u), lo, hi);
  }

  /** Only the first 30 items of a batch are considered (`items[:30]`). */
  function Take30<T>(items: seq<T>): (r: seq<T>)
    ensures |r| <= 30 && r <= items
    ensures |items| <= 30 ==> r == items
    ensures |items| > 30 ==> r == items[..30]
  {
    if |items| <= 30 then items else items[..30]
  }

  // ---------------------------------------------------------------------
  // News
  // ---------------------------------------------------------------------

  /** The article's `source` entry: missing, a dictionary, or a value without `get` such as `None`. */
  datatype ArticleSource = NoSource | SourceDict(name: Field) | NotADict

  datatype Article = Article(
    title: Field, description: Field, source: ArticleSource, publishedAt: Field, url: Field)

  datatype ProcessedArticle = ProcessedArticle(
    title: Field, description: Field, source: Field, publishedAt: Field,
    sentimentScore: real, url: Field)

  /** `f"{title} {description}"`, with missing keys read as "". */
  function NewsContent(a: Article): string
  {
    Show(a.title) + " " + Show(a.description)
  }

  /** The mean of the two polarity scores of an article's text. */
  function ArticleScore(content: string, compound: Polarity, polarity: Polarity): (r: real)
    ensures -1.0 <= r <= 1.0
  {
    (compound(content) + polarity(content)) / 2.0
  }

  /**
   * The stored record of a scored article; an article whose `source` has no
   * `get` raises while the record is built, after its score was kept.
   */
  function ArticleRecord(a: Article, score: real): (r: Option<ProcessedArticle>)
    ensures r.Some? <==> !a.source.NotADict?
    ensures r.Some? ==> r.value.sentimentScore == score
  {
    var source := match a.source
      case NoSource => Some(Text("Unknown"))
      case SourceDict(name) => Some(GetOr(name, "Unknown"))
      case NotADict => None;
    if source.None? then None
    else Some(ProcessedArticle(GetOr(a.title, ""), GetOr(a.description, ""), source.value,
      GetOr(a.publishedAt, ""), score, GetOr(a.url, "")))
  }

  /** The scores of the articles whose content is not blank, in order. */
  function NewsScores(arts: seq<Article>, compound: Polarity, polarity: Polarity): (r: seq<real>)
    ensures |r| <= |arts|
    ensures forall i :: 0 <= i < |r| ==> -1.0 <= r[i] <= 1.0
  {
    if arts == [] then []
    else
      var init := NewsScores(arts[..|arts| - 1], compound, polarity);
      var c := NewsContent(arts[|arts| - 1]);
      if Strip(c) == [] then init else init + [ArticleScore(c, compound, polarity)]
  }

  /** The records of the scored articles whose record could be built, in order. */
  function NewsRecords(arts: seq<Article>, compound: Polarity, polarity: Polarity): (r: seq<ProcessedArticle>)
    ensures |r| <= |NewsScores(arts, compound, polarity)|
  {
    if arts == [] then []
    else
      var init := NewsRecords(arts[..|arts| - 1], compound, polarity);
      var a := arts[|arts| - 1];
      var c := NewsContent(a);
      if Strip(c) == [] then init
      else match ArticleRecord(a, ArticleScore(c, compound, polarity))
        case None => init
        case Some(rec) => init + [rec]
  }

  /** A blank article adds neither a score nor a record. */
  lemma BlankArticleSkipped(arts: seq<Article>, a: Article, compound: Polarity, polarity: Polarity)
    requires Strip(NewsContent(a)) == []
    ensures NewsScores(arts + [a], compound, polarity) == NewsScores(arts, compound, polarity)
    ensures NewsRecords(arts + [a], compound, polarity) == NewsRecords(arts, compound, polarity)
  {
    assert (arts + [a])[..|arts|] == arts;
  }

  /** A non-blank article appends its score, and its record when one can be built. */
  lemma ArticleScored(arts: seq<Article>, a: Article, compound: Polarity, polarity: Polarity)
    requires Strip(NewsContent(a)) != []
    ensures var score := ArticleScore(NewsContent(a), compound, polarity);
      && NewsScores(arts + [a], compound, polarity) == NewsScores(arts, compound, polarity) + [score]
      && NewsRecords(arts + [a], compound, polarity) == NewsRecords(arts, compound, polarity) +
           (match ArticleRecord(a, score) case None => [] case Some(rec) => [rec])
  {
    assert (arts + [a])[..|arts|] == arts;
  }

  /** Every stored article score is the mean of two polarities, so within [-1, 1]. */
  lemma {:induction false} NewsRecordScores(arts: seq<Article>, compound: Polarity, polarity: Polarity)
    ensures forall i :: 0 <= i < |NewsRecords(arts, compound, polarity)| ==>
      -1.0 <= NewsRecords(arts, compound, polarity)[i].sentimentScore <= 1.0
  {
    if arts != [] {
      NewsRecordScores(arts[..|arts| - 1], compound, polarity);
    }
  }

  // ---------------------------------------------------------------------
  // Social
  // ---------------------------------------------------------------------

  datatype Post = Post(title: Field, selftext: Field, score: Option<int>, subreddit: Field)

  datatype ProcessedPost = ProcessedPost(
    title: Field, content: Field, score: int, subreddit: Field, sentimentScore: real)

  /** `f"{title} {selftext}"`, with missing keys read as "". */
  function PostContent(p: Post): string
  {
    Show(p.title) + " " + Show(p.selftext)
  }

  /** `max(1, min(10, post.get('score', 1)))`. */
  function Weight(score: Option<int>): (w: int)
    ensures 1 <= w <= 10
    ensures score.None? || score.value <= 1 ==> w == 1
    ensures score.Some? && score.value >= 10 ==> w == 10
    ensures score.Some? && 1 <= score.value <= 10 ==> w == score.value
  {
    var s := if score.None? then 1 else score.value;
    if s < 1 then 1 else if s > 10 then 10 else s
  }

  /**
   * The compound score scaled by a tenth of the post's weight: a post with
   * 10 or more upvotes keeps its full compound score, and one with none
   * recorded or at most 1 keeps a tenth of it.
   */
  function WeightedScore(compound: real, score: Option<int>): (r: real)
    ensures score.Some? && score.value >= 10 ==> r == compound
    ensures score.None? || score.value <= 1 ==> r == compound / 10.0
  {
    compound * (Weight(score) as real / 10.0)
  }

  /**
   * Weighting never amplifies: the weighted score has the compound's sign
   * and at most its magnitude.
   */
  lemma WeightedScoreSpec(compound: real, score: Option<int>)
    ensures compound >= 0.0 ==> 0.0 <= WeightedScore(compound, score) <= compound
    ensures compound <= 0.0 ==> compound <= WeightedScore(compound, score) <= 0.0
  {
    var w := Weight(score) as real / 10.0;
    assert 0.1 <= w <= 1.0;
    assert WeightedScore(compound, score) == compound * w;
    if compound >= 0.0 {
      ScaleUnit(compound, w);
    } else {
      ScaleUnit(-compound, w);
      assert (-compound) * w == -(compound * w);
    }
  }

  /**
   * The stored record of a scored post: the self text is cut to 200
   * characters plus "..." when longer; a `None` self text has no length, so
   * building the record raises after the score was kept.
   */
  function PostRecord(p: Post, weighted: real): (r: Option<ProcessedPost>)
    ensures r.Some? <==> !p.selftext.Null?
    ensures r.Some? ==> r.value.sentimentScore == weighted
  {
    var content := match p.selftext
      case Absent => Some(Text(""))
      case Null => None
      case Text(s) => Some(Text(if |s| > 200 then s[..200] + "..." else s));
    if content.None? then None
    else Some(ProcessedPost(GetOr(p.title, ""), content.value,
      if p.score.None? then 0 else p.score.value, GetOr(p.subreddit, "Unknown"), weighted))
  }

  function SocialScores(posts: seq<Post>, compound: Polarity): (r: seq<real>)
    ensures |r| <= |posts|
    ensures forall i :: 0 <= i < |r| ==> -1.0 <= r[i] <= 1.0
  {
    if posts == [] then []
    else
      var init := SocialScores(posts[..|posts| - 1], compound);
      var p := posts[|posts| - 1];
      var c := PostContent(p);
      if Strip(c) == [] then init
      else
        WeightedScoreSpec(compound(c), p.score);
        init + [WeightedScore(compound(c), p.score)]
  }

  function SocialRecords(posts: seq<Post>, compound: Polarity): (r: seq<ProcessedPost>)
    ensures |r| <= |SocialScores(posts, compound)|
  {
    if posts == [] then []
    else
      var init := SocialRecords(posts[..|posts| - 1], compound);
      var p := posts[|posts| - 1];
      var c := PostContent(p);
      if Strip(c) == [] then init
      else match PostRecord(p, WeightedScore(compound(c), p.score))
        case None => init
        case Some(rec) => init + [rec]
  }

  /** A non-blank post appends its weighted score, and its record when one can be built. */
  lemma PostScored(posts: seq<Post>, p: Post, compound: Polarity)
    requires Strip(PostContent(p)) != []
    ensures var score := WeightedScore(compound(PostContent(p)), p.score);
      && SocialScores(posts + [p], compound) == SocialScores(posts, compound) + [score]
      && SocialRecords(posts + [p], compound) == SocialRecords(posts, compound) +
           (match PostRecord(p, score) case None => [] case Some(rec) => [rec])
  {
    assert (posts + [p])[..|posts|] == posts;
  }

  /** A blank post adds neither a score nor a record. */
  lemma BlankPostSkipped(posts: seq<Post>, p: Post, compound: Polarity)
    requires Strip(PostContent(p)) == []
    ensures SocialScores(posts + [p], compound) == SocialScores(posts, compound)
    ensures SocialRecords(posts + [p], compound) == SocialRecords(posts, compound)
  {
    assert (posts + [p])[..|posts|] == posts;
  }

  // ---------------------------------------------------------------------
  // Economy
  // ---------------------------------------------------------------------

  datatype Indicator = Indicator(current: real, previous: real, trend: string)

  /** The FRED series read by the collector, by indicator name and series id, in order. */
  const FredSeries: seq<(string, string)> := [
    ("GDP", "GDP"), ("UNEMPLOYMENT", "UNRATE"), ("INFLATION", "CPIAUCSL"),
    ("INTEREST_RATE", "FEDFUNDS"), ("CONSUMER_CONFIDENCE", "UMCSENT")]

  /** An indicator built from the observations of one series (oldest first). */
  function IndicatorFromSeries(data: seq<real>): (ind: Indicator)
    requires |data| > 0
    ensures ind.current == data[|data| - 1]
  {
    var last := data[|data| - 1];
    Indicator(
      last,
      if |data| > 1 then data[|data| - 2] else last,
      if |data| > 1 && last > data[|data| - 2] then "up" else "down")
  }

  /**
   * The trend is "up" exactly when there are two observations and the
   * latest is strictly higher; equal values or a single observation give
   * "down", and a single observation is its own previous value.
   */
  lemma IndicatorTrendSpec(data: seq<real>)
    requires |data| > 0
    ensures IndicatorFromSeries(data).trend == "up" || IndicatorFromSeries(data).trend == "down"
    ensures IndicatorFromSeries(data).trend == "up" <==>
      |data| >= 2 && data[|data| - 1] > data[|data| - 2]
    ensures |data| == 1 ==> IndicatorFromSeries(data).previous == IndicatorFromSeries(data).current
    ensures |data| >= 2 ==> IndicatorFromSeries(data).previous == data[|data| - 2]
  {
  }

  /**
   * The indicators built from the first `k` series, in order: a failing or
   * empty series is skipped, and no name appears twice (a dict keyed by name).
   */
  function FredIndicators(fetch: string -> Fetch<seq<real>>, k: nat): (r: seq<(string, Indicator)>)
    requires k <= |FredSeries|
    ensures |r| <= k
    ensures forall i :: 0 <= i < |r| ==> r[i].0 in FredNames(k)
    ensures forall i, j :: 0 <= i < j < |r| ==> r[i].0 != r[j].0
  {
    if k == 0 then []
    else
      var init := FredIndicators(fetch, k - 1);
      var (name, id) := FredSeries[k - 1];
      FredNamesDistinct();
      assert name !in FredNames(k - 1);
      match fetch(id)
      case Raised => init
      case Fetched(data) => if data == [] then init else init + [(name, IndicatorFromSeries(data))]
  }

  function FredNames(k: nat): set<string>
    requires k <= |FredSeries|
  {
    set i | 0 <= i < k :: FredSeries[i].0
  }

  /** Some indicator in `r` carries the name `n`. */
  predicate Named(r: seq<(string, Indicator)>, n: string)
  {
    exists i :: 0 <= i < |r| && r[i].0 == n
  }

  lemma NamedAppend(r: seq<(string, Indicator)>, x: (string, Indicator), n: string)
    ensures Named(r + [x], n) <==> Named(r, n) || x.0 == n
  {
    if Named(r, n) {
      var i :| 0 <= i < |r| && r[i].0 == n;
      assert (r + [x])[i] == r[i];
    }
    if x.0 == n {
      assert (r + [x])[|r|] == x;
    }
  }

  /**
   * A series yields an indicator under its name exactly when it was
   * fetched with at least one observation.
   */
  lemma {:induction false} FredIndicatorPresent(fetch: string -> Fetch<seq<real>>, k: nat, j: nat)
    requires j < k <= |FredSeries|
    ensures Named(FredIndicators(fetch, k), FredSeries[j].0)
      <==> (fetch(FredSeries[j].1).Fetched? && fetch(FredSeries[j].1).value != [])
  {
    var init := FredIndicators(fetch, k - 1);
    var (name, id) := FredSeries[k - 1];
    var added := fetch(id).Fetched? && fetch(id).value != [];
    assert added ==> FredIndicators(fetch, k) == init + [(name, IndicatorFromSeries(fetch(id).value))];
    assert !added ==> FredIndicators(fetch, k) == init;
    if added {
      NamedAppend(init, (name, IndicatorFromSeries(fetch(id).value)), FredSeries[j].0);
    }
    FredNamesDistinct();
    if j < k - 1 {
      FredIndicatorPresent(fetch, k - 1, j);
      assert FredSeries[j].0 != name;
    } else {
      assert forall i :: 0 <= i < |init| ==> init[i].0 in FredNames(k - 1);
      assert name !in FredNames(k - 1);
      assert !Named(init, name);
    }
  }

  lemma FredNamesDistinct()
    ensures forall i, j :: 0 <= i < j < |FredSeries| ==> FredSeries[i].0 != FredSeries[j].0
  {
  }

  /** What one indicator contributes to the favourable count. */
  function IndicatorWeight(name: string, trend: string): (r: real)
    ensures 0.0 <= r <= 1.0
  {
    if (name == "GDP" || name == "CONSUMER_CONFIDENCE") && trend == "up" then 1.0
    else if (name == "UNEMPLOYMENT" || name == "INFLATION") && trend == "down" then 1.0
    else if name == "INTEREST_RATE" then 0.5
    else 0.0
  }

  /**
   * Rising GDP or consumer confidence and falling unemployment or
   * inflation count fully, the interest rate counts half whatever its
   * trend, and anything else counts nothing.
   */
  lemma IndicatorWeightSpec(name: string, trend: string)
    ensures IndicatorWeight(name, trend) == 1.0 <==>
      ((name == "GDP" || name == "CONSUMER_CONFIDENCE") && trend == "up")
      || ((name == "UNEMPLOYMENT" || name == "INFLATION") && trend == "down")
    ensures IndicatorWeight(name, trend) == 0.5 <==> name == "INTEREST_RATE"
    ensures 0.0 <= IndicatorWeight(name, trend) <= 1.0
  {
  }

  /**
   * The favourable count of the indicators in order: the sum of their
   * weights, so at least 0 and at most one per indicator.
   */
  function FavourableCount(inds: seq<(string, Indicator)>): (r: real)
    ensures 0.0 <= r <= |inds| as real
  {
    if inds == [] then 0.0
    else FavourableCount(inds[..|inds| - 1]) + IndicatorWeight(inds[|inds| - 1].0, inds[|inds| - 1].1.trend)
  }

  /**
   * The economic score: the favourable ratio on the 2-5 scale plus a
   * jitter drawn from [-0.2, 0.2], clamped; no indicators draw from
   * [2.5, 3.5].
   */
  function EconomicScore(inds: seq<(string, Indicator)>, u: real): (r: real)
    requires 0.0 <= u <= 1.0
    ensures 2.0 <= r <= 5.0
    ensures inds == [] ==> r == Round2(Uniform(2.5, 3.5, u))
    ensures inds != [] ==>
      var base := FavourableCount(inds) / |inds| as real * 3.0 + 2.0;
      base - 0.205 < r <= base + 0.205
  {
    var raw :=
      if inds != [] then
        Clamp(FavourableCount(inds) / |inds| as real * 3.0 + 2.0 + Uniform(-0.2, 0.2, u), 2.0, 5.0)
      else Uniform(2.5, 3.5, u);
    assert inds != [] ==> 2.0 <= FavourableCount(inds) / |inds| as real * 3.0 + 2.0 <= 5.0 by {
      if inds != [] {
        EconomicRatioOnScale(inds);
      }
    }
    Round2Within(raw, 200, 500);
    Round2(raw)
  }

  /** Before the jitter, the ratio places the score in [2, 5]. */
  lemma EconomicRatioOnScale(inds: seq<(string, Indicator)>)
    requires inds != []
    ensures 2.0 <= FavourableCount(inds) / |inds| as real * 3.0 + 2.0 <= 5.0
  {
    RatioUnit(FavourableCount(inds), |inds| as real);
  }

  /** The fixed indicators used when FRED is not configured. */
  function MockEconomic(): (r: seq<(string, Indicator)>)
    ensures |r| == 5
  {
    [ ("GDP", Indicator(2.1, 2.0, "up")),
      ("UNEMPLOYMENT", Indicator(3.8, 4.0, "down")),
      ("INFLATION", Indicator(2.3, 2.5, "down")),
      ("INTEREST_RATE", Indicator(5.25, 5.0, "up")),
      ("CONSUMER_CONFIDENCE", Indicator(102.3, 101.8, "up")) ]
  }

  /** The mock indicators count 4.5 of 5 favourable, so the score is 4.7 +/- 0.2. */
  lemma MockEconomicScore(u: real)
    requires 0.0 <= u <= 1.0
    ensures 4.5 <= EconomicScore(MockEconomic(), u) <= 4.9
  {
    var m := MockEconomic();
    assert FavourableCount(m[..1]) == 1.0 by { assert m[..1][..0] == []; }
    assert FavourableCount(m[..2]) == 2.0 by { assert m[..2][..1] == m[..1]; }
    assert FavourableCount(m[..3]) == 3.0 by { assert m[..3][..2] == m[..2]; }
    assert FavourableCount(m[..4]) == 3.5 by { assert m[..4][..3] == m[..3]; }
    assert FavourableCount(m) == 4.5 by { assert m[..4] == m[..|m| - 1]; }
    var raw := Clamp(4.5 / 5.0 * 3.0 + 2.0 + Uniform(-0.2, 0.2, u), 2.0, 5.0);
    assert 4.5 <= raw <= 4.9;
    Round2Within(raw, 450, 490);
  }

  // ---------------------------------------------------------------------
  // The collector
  // ---------------------------------------------------------------------

  /** The overall score: the rounded mean of the three (already rounded) domain scores. */
  function Overall(news: real, social: real, economic: real): (r: real)
    requires 2.0 <= news <= 5.0 && 2.0 <= social <= 5.0 && 2.0 <= economic <= 5.0
    ensures 2.0 <= r <= 5.0
    ensures var mean := (news + social + economic) / 3.0; mean - 0.005 < r <= mean + 0.005
  {
    Round2Within((news + social + economic) / 3.0, 200, 500);
    Round2((news + social + economic) / 3.0)
  }

  datatype Comprehensive = Comprehensive(
    news: real, social: real, economic: real, overall: real,
    articles: seq<ProcessedArticle>, posts: seq<ProcessedPost>,
    indicators: seq<(string, Indicator)>)

  /** The loop of `fetch_news_sentiment`: scores the non-blank articles and keeps their records. */
  method ScoreArticles(batch: seq<Article>, compound: Polarity, polarity: Polarity)
    returns (scores: seq<real>, records: seq<ProcessedArticle>)
    ensures scores == NewsScores(batch, compound, polarity)
    ensures records == NewsRecords(batch, compound, polarity)
  {
    scores, records := [], [];
    for i := 0 to |batch|
      invariant scores == NewsScores(batch[..i], compound, polarity)
      invariant records == NewsRecords(batch[..i], compound, polarity)
    {
      assert batch[..i + 1][..i] == batch[..i];
      var a := batch[i];
      var content := NewsContent(a);
      if Strip(content) != [] {
        var avg := ArticleScore(content, compound, polarity);
        scores := scores + [avg];
        var rec := ArticleRecord(a, avg);
        if rec.Some? {
          records := records + [rec.value];
        }
      }
    }
    assert batch[..|batch|] == batch;
  }

  /** The loop of `fetch_social_sentiment`: weights the non-blank posts and keeps their records. */
  method ScorePosts(batch: seq<Post>, compound: Polarity)
    returns (scores: seq<real>, records: seq<ProcessedPost>)
    ensures scores == SocialScores(batch, compound)
    ensures records == SocialRecords(batch, compound)
  {
    scores, records := [], [];
    for i := 0 to |batch|
      invariant scores == SocialScores(batch[..i], compound)
      invariant records == SocialRecords(batch[..i], compound)
    {
      assert batch[..i + 1][..i] == batch[..i];
      var p := batch[i];
      var content := PostContent(p);
      if Strip(content) != [] {
        var weighted := WeightedScore(compound(content), p.score);
        scores := scores + [weighted];
        var rec := PostRecord(p, weighted);
        if rec.Some? {
          records := records + [rec.value];
        }
      }
    }
    assert batch[..|batch|] == batch;
  }

  class LiveDataCollector {
    /** VADER's compound score. */
    const compound: Polarity
    /** TextBlob's polarity. */
    const polarity: Polarity

    var newsData: seq<ProcessedArticle>
    var socialData: seq<ProcessedPost>
    var economicData: seq<(string, Indicator)>

    constructor(compound: Polarity, polarity: Polarity)
      ensures this.compound == compound && this.polarity == polarity
      ensures newsData == [] && socialData == [] && economicData == []
    {
      this.compound := compound;
      this.polarity := polarity;
      newsData := [];
      socialData := [];
      economicData := [];
    }

    /**
     * `fetch_news_sentiment`: scores the first 30 articles, stores the
     * records of the scored ones and returns the rounded 2-5 score; when
     * the article source raises, the stored articles are kept and the score
     * is drawn from [2.5, 3.5].
     */
    method FetchNews(articles: Fetch<seq<Article>>, u: real) returns (score: real)
      requires 0.0 <= u <= 1.0
      modifies this
      ensures 2.0 <= score <= 5.0
      ensures articles.Raised? ==> newsData == old(newsData) && score == Round2(Uniform(2.5, 3.5, u))
      ensures articles.Fetched? ==>
        && newsData == NewsRecords(Take30(articles.value), compound, polarity)
        && score == DomainScore(NewsScores(Take30(articles.value), compound, polarity), 2.5, 3.5, u)
      ensures socialData == old(socialData) && economicData == old(economicData)
    {
      if articles.Raised? {
        FallbackWithinBand(250, 350, u);
        return Round2(Uniform(2.5, 3.5, u));
      }
      var scores, records := ScoreArticles(Take30(articles.value), compound, polarity);
      newsData := records;
      score := DomainScore(scores, 2.5, 3.5, u);
    }

    /**
     * `fetch_social_sentiment`: as for news, with upvote-weighted compound
     * scores; no scored post draws from [2.7, 3.3] and a failing source
     * from [2.6, 3.4].
     */
    method FetchSocial(posts: Fetch<seq<Post>>, u: real) returns (score: real)
      requires 0.0 <= u <= 1.0
      modifies this
      ensures 2.0 <= score <= 5.0
      ensures posts.Raised? ==> socialData == old(socialData) && score == Round2(Uniform(2.6, 3.4, u))
      ensures posts.Fetched? ==>
        && socialData == SocialRecords(Take30(posts.value), compound)
        && score == DomainScore(SocialScores(Take30(posts.value), compound), 2.7, 3.3, u)
      ensures newsData == old(newsData) && economicData == old(economicData)
    {
      if posts.Raised? {
        FallbackWithinBand(260, 340, u);
        return Round2(Uniform(2.6, 3.4, u));
      }
      var scores, records := ScorePosts(Take30(posts.value), compound);
      socialData := records;
      score := DomainScore(scores, 2.7, 3.3, u);
    }

    /**
     * `fetch_economic_sentiment`: counts the favourable indicators and
     * stores them; a failure while collecting them draws from [2.4, 3.6]
     * and keeps the stored indicators.
     */
    method FetchEconomic(collected: Fetch<seq<(string, Indicator)>>, u: real) returns (score: real)
      requires 0.0 <= u <= 1.0
      modifies this
      ensures 2.0 <= score <= 5.0
      ensures collected.Raised? ==> economicData == old(economicData) && score == Round2(Uniform(2.4, 3.6, u))
      ensures collected.Fetched? ==> economicData == collected.value && score == EconomicScore(collected.value, u)
      ensures newsData == old(newsData) && socialData == old(socialData)
    {
      if collected.Raised? {
        FallbackWithinBand(240, 360, u);
        return Round2(Uniform(2.4, 3.6, u));
      }
      var inds := collected.value;
      var positive := 0.0;
      var total := 0;
      while total < |inds|
        invariant 0 <= total <= |inds|
        invariant positive == FavourableCount(inds[..total])
      {
        assert inds[..total + 1][..total] == inds[..total];
        var (name, data) := inds[total];
        positive := positive + IndicatorWeight(name, data.trend);
        total := total + 1;
      }
      assert inds[..total] == inds;
      economicData := inds;
      var raw :=
        if total > 0 then Clamp(positive / total as real * 3.0 + 2.0 + Uniform(-0.2, 0.2, u), 2.0, 5.0)
        else Uniform(2.5, 3.5, u);
      score := Round2(raw);
    }

    /**
     * `get_comprehensive_sentiment`: the three domain scores, their rounded
     * mean and the items stored by the fetches (which are the previous
     * ones for a domain whose source raised).
     */
    method GetComprehensiveSentiment(
      articles: Fetch<seq<Article>>, uNews: real,
      posts: Fetch<seq<Post>>, uSocial: real,
      indicators: Fetch<seq<(string, Indicator)>>, uEconomic: real)
      returns (c: Comprehensive)
      requires 0.0 <= uNews <= 1.0 && 0.0 <= uSocial <= 1.0 && 0.0 <= uEconomic <= 1.0
      modifies this
      ensures 2.0 <= c.news <= 5.0 && 2.0 <= c.social <= 5.0 && 2.0 <= c.economic <= 5.0
      ensures 2.0 <= c.overall <= 5.0
      ensures c.overall == Overall(c.news, c.social, c.economic)
      ensures c.articles == newsData && c.posts == socialData && c.indicators == economicData
      ensures articles.Raised? ==> newsData == old(newsData)
      ensures posts.Raised? ==> socialData == old(socialData)
      ensures indicators.Raised? ==> economicData == old(economicData)
      ensures articles.Fetched? ==> newsData == NewsRecords(Take30(articles.value), compound, polarity)
      ensures posts.Fetched? ==> socialData == SocialRecords(Take30(posts.value), compound)
      ensures indicators.Fetched? ==> economicData == indicators.value
      ensures c.news == (if articles.Raised? then Round2(Uniform(2.5, 3.5, uNews))
        else DomainScore(NewsScores(Take30(articles.value), compound, polarity), 2.5, 3.5, uNews))
      ensures c.social == (if posts.Raised? then Round2(Uniform(2.6, 3.4, uSocial))
        else DomainScore(SocialScores(Take30(posts.value), compound), 2.7, 3.3, uSocial))
      ensures c.economic == (if indicators.Raised? then Round2(Uniform(2.4, 3.6, uEconomic))
        else EconomicScore(indicators.value, uEconomic))
    {
      var news := FetchNews(articles, uNews);
      var social := FetchSocial(posts, uSocial);
      var economic := FetchEconomic(indicators, uEconomic);
      c := Comprehensive(news, social, economic, Overall(news, social, economic),
        newsData, socialData, economicData);
    }
  }

  /**
   * The indicators read from FRED: each series in turn, skipping one that
   * raises or has no observations.
   */
  method CollectFredIndicators(fetch: string -> Fetch<seq<real>>) returns (inds: seq<(string, Indicator)>)
    ensures inds == FredIndicators(fetch, |FredSeries|)
    ensures |inds| <= 5
  {
    inds := [];
    var k := 0;
    while k < |FredSeries|
      invariant 0 <= k <= |FredSeries|
      invariant inds == FredIndicators(fetch, k)
    {
      var (name, id) := FredSeries[k];
      var data := fetch(id);
      if data.Fetched? && data.value != [] {
        inds := inds + [(name, IndicatorFromSeries(data.value))];
      }
      k := k + 1;
    }
  }
}

=== FILE: ml_predictor.dfy ===
/**
 * The backend's sentiment predictor: a trained/untrained state over an
 * ensemble of classifiers, a lexical fallback when the ensemble is not
 * available, the batch scorer onto the 2-5 scale and the analysis of the
 * collector's live items. Classifiers are represented by their class list
 * and their probability estimate; fitting them is not modelled.
 */
module MlPredictor {
  import opened Numeric
  import opened Common
  import opened Preprocessing
  import LiveData

  /** A classifier: its class labels and its `predict_proba` row for a cleaned text. */
  datatype Classifier = Classifier(classes: seq<Label>, proba: string -> seq<real>)

  /** The TF-IDF vectorizer; only its presence matters to prediction. */
  datatype Vectorizer = Tfidf

  type Models = seq<(string, Classifier)>

  /** The first model stored under `name` (dictionary keys are unique). */
  function Lookup(models: Models, name: string): (r: Option<Classifier>)
    ensures r.Some? <==> exists i :: 0 <= i < |models| && models[i].0 == name
    ensures r.Some? ==>
      exists i :: 0 <= i < |models| && models[i] == (name, r.value) && forall j :: 0 <= j < i ==> models[j].0 != name
  {
    if models == [] then None
    else if models[0].0 == name then Some(models[0].1)
    else Lookup(models[1..], name)
  }

  /** The index of the first maximum (`np.argmax`). */
  function FirstArgMax(v: seq<real>): (k: nat)
    requires |v| > 0
    ensures k < |v|
    ensures forall j :: 0 <= j < |v| ==> v[j] <= v[k]
    ensures forall j :: 0 <= j < k ==> v[j] < v[k]
  {
    if |v| == 1 then 0
    else
      var k := FirstArgMax(v[..|v| - 1]);
      if v[|v| - 1] > v[k] then |v| - 1 else k
  }

  /** Column `k` of a matrix whose rows all have more than `k` entries. */
  function Column(rows: seq<seq<real>>, k: nat): (c: seq<real>)
    requires forall i :: 0 <= i < |rows| ==> k < |rows[i]|
    ensures |c| == |rows|
  {
    seq(|rows|, i requires 0 <= i < |rows| => rows[i][k])
  }

  /** `np.mean(rows, axis=0)` for non-empty rows of one width. */
  function AverageRows(rows: seq<seq<real>>, width: nat): (avg: seq<real>)
    requires |rows| > 0 && forall i :: 0 <= i < |rows| ==> |rows[i]| == width
    ensures |avg| == width
  {
    seq(width, k requires 0 <= k < width => Mean(Column(rows, k)))
  }

  /**
   * The ensemble's prediction for a cleaned text, or `None` where numpy or
   * the class lookup raises: no logistic-regression model, rows of
   * different or zero width, or an argmax beyond its class list.
   */
  function EnsemblePredict(models: Models, cleaned: string): (r: Option<(Label, real)>)
    ensures r.Some? ==> |models| > 0 && Lookup(models, "logistic_regression").Some?
    ensures r.Some? ==> r.value.0 in Lookup(models, "logistic_regression").value.classes
  {
    var rows := seq(|models|, i requires 0 <= i < |models| => models[i].1.proba(cleaned));
    var lr := Lookup(models, "logistic_regression");
    if rows == [] || lr.None? then None
    else
      var width := |rows[0]|;
      if width == 0 || exists i :: 0 <= i < |rows| && |rows[i]| != width then None
      else
        var avg := AverageRows(rows, width);
        var k := FirstArgMax(avg);
        if k >= |lr.value.classes| then None else Some((lr.value.classes[k], avg[k]))
  }

  /**
   * A successful ensemble prediction is the logistic-regression class at
   * the first maximum of the averaged probabilities, with that maximum as
   * its confidence; with probabilities in [0, 1] the confidence is too.
   */
  lemma EnsemblePredictSpec(models: Models, cleaned: string)
    requires EnsemblePredict(models, cleaned).Some?
    ensures var rows := seq(|models|, i requires 0 <= i < |models| => models[i].1.proba(cleaned));
      && |rows| > 0 && |rows[0]| > 0
      && (forall i :: 0 <= i < |rows| ==> |rows[i]| == |rows[0]|)
      && var avg := AverageRows(rows, |rows[0]|);
         var k := FirstArgMax(avg);
         var lr := Lookup(models, "logistic_regression").value;
         && k < |lr.classes|
         && EnsemblePredict(models, cleaned) == Some((lr.classes[k], avg[k]))
         && (forall j :: 0 <= j < |avg| ==> avg[j] <= EnsemblePredict(models, cleaned).value.1)
         && ((forall i, j :: 0 <= i < |rows| && 0 <= j < |rows[i]| ==> 0.0 <= rows[i][j] <= 1.0)
             ==> 0.0 <= EnsemblePredict(models, cleaned).value.1 <= 1.0)
  {
    var rows := seq(|models|, i requires 0 <= i < |models| => models[i].1.proba(cleaned));
    var avg := AverageRows(rows, |rows[0]|);
    var k := FirstArgMax(avg);
    if forall i, j :: 0 <= i < |rows| && 0 <= j < |rows[i]| ==> 0.0 <= rows[i][j] <= 1.0 {
      var col := Column(rows, k);
      assert forall i :: 0 <= i < |col| ==> 0.0 <= col[i] <= 1.0;
      MeanBounds(col, 0.0, 1.0);
    }
  }

  /** Maps a label and a confidence onto the 2-5 scale, clamped. */
  function LabelScore(sentiment: Label, confidence: real): (r: real)
    ensures 2.0 <= r <= 5.0
  {
    var score := match sentiment
      case Positive => 3.5 + confidence * 1.5
      case Negative => 3.5 - confidence * 1.5
      case Neutral => 3.0;
    Clamp(score, 2.0, 5.0)
  }

  /**
   * For a confidence in [0, 1] the clamp is inactive: positive texts land
   * in [3.5, 5], negative ones in [2, 3.5] and neutral ones on 3.
   */
  lemma LabelScoreSpec(sentiment: Label, confidence: real)
    requires 0.0 <= confidence <= 1.0
    ensures sentiment == Positive ==> LabelScore(sentiment, confidence) == 3.5 + 1.5 * confidence
    ensures sentiment == Negative ==> LabelScore(sentiment, confidence) == 3.5 - 1.5 * confidence
    ensures sentiment == Neutral ==> LabelScore(sentiment, confidence) == 3.0
    ensures sentiment == Positive ==> 3.5 <= LabelScore(sentiment, confidence)
    ensures sentiment == Negative ==> LabelScore(sentiment, confidence) <= 3.5
  {
  }

  function Abs(x: real): real { if x < 0.0 then -x else x }

  /** The collector's economic indicator as the predictor receives it. */
  datatype EconValue = IndicatorDict(trend: Option<string>) | NotADict

  type EconEntry = (string, EconValue)

  /** The predictor's view of the collector's indicators: dictionaries that all carry a trend. */
  function FromCollector(inds: seq<(string, LiveData.Indicator)>): (r: seq<EconEntry>)
    ensures |r| == |inds|
  {
    seq(|inds|, i requires 0 <= i < |inds| => (inds[i].0, IndicatorDict(Some(inds[i].1.trend))))
  }

  /** The favourable count of `analyze_live_data`: only dictionaries carrying a trend count. */
  function TrendCount(entries: seq<EconEntry>): real
  {
    if entries == [] then 0.0
    else
      var (name, value) := entries[|entries| - 1];
      TrendCount(entries[..|entries| - 1])
      + (if value.IndicatorDict? && value.trend.Some? then LiveData.IndicatorWeight(name, value.trend.value) else 0.0)
  }

  lemma {:induction false} TrendCountBounds(entries: seq<EconEntry>)
    ensures 0.0 <= TrendCount(entries) <= |entries| as real
  {
    if entries != [] {
      TrendCountBounds(entries[..|entries| - 1]);
      var (name, value) := entries[|entries| - 1];
      if value.IndicatorDict? && value.trend.Some? {
        LiveData.IndicatorWeightSpec(name, value.trend.value);
      }
    }
  }

  /** An entry without a trend adds nothing to the count, although it counts in the denominator. */
  lemma TrendlessEntryIgnored(entries: seq<EconEntry>, name: string, value: EconValue)
    requires value.NotADict? || value.trend.None?
    ensures TrendCount(entries + [(name, value)]) == TrendCount(entries)
    ensures |entries + [(name, value)]| == |entries| + 1
  {
    assert (entries + [(name, value)])[..|entries|] == entries;
  }

  /** On the collector's indicators both services count the same favourable total. */
  lemma {:induction false} TrendCountMatchesCollector(inds: seq<(string, LiveData.Indicator)>)
    ensures TrendCount(FromCollector(inds)) == LiveData.FavourableCount(inds)
  {
    if inds != [] {
      var init := inds[..|inds| - 1];
      assert FromCollector(inds)[..|inds| - 1] == FromCollector(init);
      TrendCountMatchesCollector(init);
    }
  }

  /**
   * The predictor's economic score: the favourable ratio on the 2-5 scale
   * with neither jitter nor clamp, or a draw from [2.7, 3.3] when there are
   * no indicators.
   */
  function MlEconomicScore(entries: seq<EconEntry>, u: real): (r: real)
    requires 0.0 <= u <= 1.0
    ensures 2.0 <= r <= 5.0
    ensures entries == [] ==> r == Uniform(2.7, 3.3, u) && 2.7 <= r <= 3.3
  {
    if entries == [] then Uniform(2.7, 3.3, u)
    else
      TrendCountBounds(entries);
      RatioUnit(TrendCount(entries), |entries| as real);
      TrendCount(entries) / |entries| as real * 3.0 + 2.0
  }

  /**
   * On the collector's indicators the predictor's economic score is the
   * collector's favourable ratio on the 2-5 scale, so the collector's own
   * score (jittered, clamped and rounded) stays within 0.205 of it.
   */
  lemma MlEconomicMatchesCollector(inds: seq<(string, LiveData.Indicator)>, u: real, v: real)
    requires inds != [] && 0.0 <= u <= 1.0 && 0.0 <= v <= 1.0
    ensures MlEconomicScore(FromCollector(inds), u) == LiveData.FavourableCount(inds) / |inds| as real * 3.0 + 2.0
    ensures MlEconomicScore(FromCollector(inds), u) - 0.205 < LiveData.EconomicScore(inds, v)
      <= MlEconomicScore(FromCollector(inds), u) + 0.205
  {
    TrendCountMatchesCollector(inds);
  }

  /** `f"{title} {description}"` for each stored article. */
  function NewsTexts(articles: seq<LiveData.ProcessedArticle>): (r: seq<string>)
    ensures |r| == |articles|
  {
    seq(|articles|, i requires 0 <= i < |articles| => Show(articles[i].title) + " " + Show(articles[i].description))
  }

  /** `f"{title} {content}"` for each stored post. */
  function SocialTexts(posts: seq<LiveData.ProcessedPost>): (r: seq<string>)
    ensures |r| == |posts|
  {
    seq(|posts|, i requires 0 <= i < |posts| => Show(posts[i].title) + " " + Show(posts[i].content))
  }

  /** The loop of `analyze_live_data` that builds one text per stored article. */
  method CollectNewsTexts(articles: seq<LiveData.ProcessedArticle>) returns (texts: seq<string>)
    ensures texts == NewsTexts(articles)
  {
    texts := [];
    for i := 0 to |articles|
      invariant texts == NewsTexts(articles[..i])
    {
      texts := texts + [Show(articles[i].title) + " " + Show(articles[i].description)];
    }
    assert articles[..|articles|] == articles;
  }

  /** The loop of `analyze_live_data` that builds one text per stored post. */
  method CollectSocialTexts(posts: seq<LiveData.ProcessedPost>) returns (texts: seq<string>)
    ensures texts == SocialTexts(posts)
  {
    texts := [];
    for i := 0 to |posts|
      invariant texts == SocialTexts(posts[..i])
    {
      texts := texts + [Show(posts[i].title) + " " + Show(posts[i].content)];
    }
    assert posts[..|posts|] == posts;
  }

  datatype MlScores = MlScores(news: real, social: real, economic: real, overall: real)

  /** What `train_models` reached before it returned or raised. */
  datatype TrainingRun =
    | FailsBeforeVectorizer
    | FailsAfterVectorizer
    | FailsDuringFit(logistic: Classifier, forest: Classifier)
    | Completes(logistic: Classifier, forest: Classifier)

  /** What unpickling a model file yielded; `None` marks a missing key. */
  datatype PickleOutcome =
    | Unreadable
    | Unpickled(models: Option<Models>, vectorizer: Option<Option<Vectorizer>>, isTrained: Option<bool>)

  class MarketSentimentPredictor {
    var models: Models
    var vectorizer: Option<Vectorizer>
    var isTrained: bool
    /** VADER's compound score. */
    const compound: Polarity

    constructor(compound: Polarity)
      ensures models == [] && vectorizer == None && !isTrained
      ensures this.compound == compound
    {
      models := [];
      vectorizer := None;
      isTrained := false;
      this.compound := compound;
    }

    /** The ensemble can be consulted: trained, with a vectorizer. */
    predicate UsesEnsemble()
      reads this
    {
      isTrained && vectorizer.Some?
    }

    /**
     * `predict_sentiment`: the ensemble's answer on the cleaned text when
     * it is usable and does not raise, otherwise the label of the compound
     * score of the raw text with its magnitude as confidence; a missing,
     * non-string or empty text is neutral with confidence 0.
     */
    function Predict(text: Option<string>): (r: (Label, real))
      reads this
      ensures text.None? || text.value == [] ==> r == (Neutral, 0.0)
      ensures !UsesEnsemble() ==> 0.0 <= r.1 <= 1.0
    {
      if text.None? || text.value == [] then (Neutral, 0.0)
      else
        var lexical := (LabelSentiment(compound(text.value)), Abs(compound(text.value)));
        if UsesEnsemble() then
          match EnsemblePredict(models, CleanText(text.value))
          case Some(p) => p
          case None => lexical
        else lexical
    }

    lemma PredictSpec(text: Option<string>)
      ensures text.None? || text.value == [] ==> Predict(text) == (Neutral, 0.0)
      ensures text.Some? && text.value != [] && !UsesEnsemble() ==>
        && Predict(text).0 == LabelSentiment(compound(text.value))
        && Predict(text).1 == Abs(compound(text.value))
        && 0.0 <= Predict(text).1 <= 1.0
      ensures text.Some? && text.value != [] && UsesEnsemble() ==>
        Predict(text) == (match EnsemblePredict(models, CleanText(text.value))
          case Some(p) => p
          case None => (LabelSentiment(compound(text.value)), Abs(compound(text.value))))
    {
    }

    /** The clamped 2-5 score of each text, in order. */
    function BatchScores(texts: seq<string>): (r: seq<real>)
      reads this
      ensures |r| == |texts|
      ensures forall i :: 0 <= i < |r| ==> 2.0 <= r[i] <= 5.0
    {
      if texts == [] then []
      else
        var p := Predict(Some(texts[|texts| - 1]));
        BatchScores(texts[..|texts| - 1]) + [LabelScore(p.0, p.1)]
    }

    /**
     * `score_sentiment_batch`: the rounded mean of the per-text scores, in
     * [2, 5]; an empty batch draws from [2.8, 3.2].
     */
    method ScoreBatch(texts: seq<string>, u: real) returns (score: real)
      requires 0.0 <= u <= 1.0
      ensures texts != [] ==> score == Round2(Mean(BatchScores(texts)))
      ensures texts == [] ==> score == Round2(Uniform(2.8, 3.2, u))
      ensures 2.0 <= score <= 5.0
      ensures texts == [] ==> 2.8 <= score <= 3.2
    {
      if texts == [] {
        Round2Within(Uniform(2.8, 3.2, u), 280, 320);
        return Round2(Uniform(2.8, 3.2, u));
      }
      var scores: seq<real> := [];
      var i := 0;
      while i < |texts|
        invariant 0 <= i <= |texts|
        invariant scores == BatchScores(texts[..i])
      {
        assert texts[..i + 1][..i] == texts[..i];
        var p := Predict(Some(texts[i]));
        scores := scores + [LabelScore(p.0, p.1)];
        i := i + 1;
      }
      assert texts[..i] == texts;
      MeanBounds(scores, 2.0, 5.0);
      Round2Within(Mean(scores), 200, 500);
      score := Round2(Mean(scores));
    }

    /**
     * `analyze_live_data`: batch scores of the news and social texts (or
     * draws from [2.5, 3.5] and [2.6, 3.4] when there are none), the
     * predictor's economic score, and the rounded mean of the three
     * unrounded scores.
     */
    method AnalyzeLiveData(
      articles: seq<LiveData.ProcessedArticle>, posts: seq<LiveData.ProcessedPost>,
      indicators: seq<EconEntry>, uNews: real, uSocial: real, uEconomic: real, uBatch: real)
      returns (r: MlScores)
      requires 0.0 <= uNews <= 1.0 && 0.0 <= uSocial <= 1.0 && 0.0 <= uEconomic <= 1.0 && 0.0 <= uBatch <= 1.0
      ensures articles != [] ==> r.news == Round2(Round2(Mean(BatchScores(NewsTexts(articles)))))
      ensures articles == [] ==> r.news == Round2(Uniform(2.5, 3.5, uNews))
      ensures posts != [] ==> r.social == Round2(Round2(Mean(BatchScores(SocialTexts(posts)))))
      ensures posts == [] ==> r.social == Round2(Uniform(2.6, 3.4, uSocial))
      ensures r.economic == Round2(MlEconomicScore(indicators, uEconomic))
      ensures 2.0 <= r.news <= 5.0 && 2.0 <= r.social <= 5.0 && 2.0 <= r.economic <= 5.0
      ensures 2.0 <= r.overall <= 5.0
      ensures
        var n := if articles != [] then Round2(Mean(BatchScores(NewsTexts(articles)))) else Uniform(2.5, 3.5, uNews);
        var s := if posts != [] then Round2(Mean(BatchScores(SocialTexts(posts)))) else Uniform(2.6, 3.4, uSocial);
        r.overall == Round2((n + s + MlEconomicScore(indicators, uEconomic)) / 3.0)
    {
      var newsTexts := CollectNewsTexts(articles);
      var news: real;
      if newsTexts != [] {
        news := ScoreBatch(newsTexts, uBatch);
      } else {
        news := Uniform(2.5, 3.5, uNews);
      }

      var socialTexts := CollectSocialTexts(posts);
      var social: real;
      if socialTexts != [] {
        social := ScoreBatch(socialTexts, uBatch);
      } else {
        social := Uniform(2.6, 3.4, uSocial);
      }

      var economic := MlEconomicScore(indicators, uEconomic);
      var overall := (news + social + economic) / 3.0;
      Round2Within(news, 200, 500);
      Round2Within(social, 200, 500);
      Round2Within(economic, 200, 500);
      Round2Within(overall, 200, 500);
      r := MlScores(Round2(news), Round2(social), Round2(economic), Round2(overall));
    }

    /**
     * `train_models`: the predictor is trained only when every model was
     * fitted; a failure leaves whatever fields were already replaced.
     */
    method Train(run: TrainingRun)
      modifies this
      ensures isTrained <==> run.Completes?
      ensures run.FailsBeforeVectorizer? ==> vectorizer == old(vectorizer) && models == old(models)
      ensures run.FailsAfterVectorizer? ==> vectorizer == Some(Tfidf) && models == old(models)
      ensures run.FailsDuringFit? || run.Completes? ==>
        && vectorizer == Some(Tfidf)
        && models == [("logistic_regression", run.logistic), ("random_forest", run.forest)]
      ensures UsesEnsemble() <==> run.Completes?
      ensures run.Completes? ==> Lookup(models, "logistic_regression") == Some(run.logistic)
    {
      match run
      case FailsBeforeVectorizer =>
        isTrained := false;
      case FailsAfterVectorizer =>
        vectorizer := Some(Tfidf);
        isTrained := false;
      case FailsDuringFit(logistic, forest) =>
        vectorizer := Some(Tfidf);
        models := [("logistic_regression", logistic), ("random_forest", forest)];
        isTrained := false;
      case Completes(logistic, forest) =>
        vectorizer := Some(Tfidf);
        models := [("logistic_regression", logistic), ("random_forest", forest)];
        isTrained := true;
    }

    /**
     * `load_model`: the fields are read in order (models, vectorizer,
     * trained flag); an unreadable file or a missing key stops there and
     * marks the predictor untrained.
     */
    method LoadModel(file: PickleOutcome)
      modifies this
      ensures isTrained <==>
        file.Unpickled? && file.models.Some? && file.vectorizer.Some? && file.isTrained == Some(true)
      ensures file.Unpickled? && file.models.Some? ==> models == file.models.value
      ensures !(file.Unpickled? && file.models.Some?) ==> models == old(models)
      ensures file.Unpickled? && file.models.Some? && file.vectorizer.Some? ==> vectorizer == file.vectorizer.value
      ensures !(file.Unpickled? && file.models.Some? && file.vectorizer.Some?) ==> vectorizer == old(vectorizer)
    {
      if file.Unreadable? || file.models.None? {
        isTrained := false;
        return;
      }
      models := file.models.value;
      if file.vectorizer.None? {
        isTrained := false;
        return;
      }
      vectorizer := file.vectorizer.value;
      if file.isTrained.None? {
        isTrained := false;
        return;
      }
      isTrained := file.isTrained.value;
    }
  }
}

=== FILE: model_selection.dfy ===
/**
 * The model comparison of the stand-alone training script: every
 * candidate classifier is evaluated in turn, its metrics are recorded, and
 * the one with the best accuracy is kept. The fitting and the metrics
 * themselves come from scikit-learn and are given as inputs.
 */
module ModelSelection {
  import opened Common

  /** The recorded metrics of one fitted candidate. */
  datatype Evaluation = Evaluation(name: string, accuracy: real, precision: real, recall: real, f1: real)

  /** The kept model: its position among the candidates, its name and its accuracy. */
  datatype Selection = Selection(index: nat, name: string, accuracy: real)

  /**
   * Candidate `k` is the one the loop keeps: its accuracy is positive,
   * beats every earlier accuracy strictly and is not beaten later.
   */
  predicate IsFirstBest(evals: seq<Evaluation>, k: int)
  {
    && 0 <= k < |evals|
    && evals[k].accuracy > 0.0
    && (forall j :: 0 <= j < k ==> evals[j].accuracy < evals[k].accuracy)
    && (forall j :: k < j < |evals| ==> evals[j].accuracy <= evals[k].accuracy)
  }

  /** At most one candidate is the first best: ties go to the earlier one. */
  lemma FirstBestUnique(evals: seq<Evaluation>, a: int, b: int)
    requires IsFirstBest(evals, a) && IsFirstBest(evals, b)
    ensures a == b
  {
  }

  /**
   * The selection loop of `train_models`: the results list receives every
   * candidate's metrics in order, and the best model is replaced whenever a
   * candidate's accuracy exceeds the best so far, which starts at 0. When
   * no accuracy exceeds 0 the best name is never bound and returning it
   * raises.
   */
  method SelectBestModel(evals: seq<Evaluation>) returns (results: seq<Evaluation>, best: Fetch<Selection>)
    ensures results == evals
    ensures best.Fetched? <==> exists k :: 0 <= k < |evals| && evals[k].accuracy > 0.0
    ensures best.Fetched? ==>
      && IsFirstBest(evals, best.value.index)
      && best.value.name == evals[best.value.index].name
      && best.value.accuracy == evals[best.value.index].accuracy
  {
    results := [];
    var bestAcc := 0.0;
    var bestIndex: Option<nat> := None;
    for i := 0 to |evals|
      invariant results == evals[..i]
      invariant bestIndex.None? ==> bestAcc == 0.0 && forall j :: 0 <= j < i ==> evals[j].accuracy <= 0.0
      invariant bestIndex.Some? ==>
        && bestIndex.value < i
        && bestAcc == evals[bestIndex.value].accuracy > 0.0
        && (forall j :: 0 <= j < bestIndex.value ==> evals[j].accuracy < bestAcc)
        && (forall j :: bestIndex.value < j < i ==> evals[j].accuracy <= bestAcc)
    {
      results := results + [evals[i]];
      if evals[i].accuracy > bestAcc {
        bestAcc := evals[i].accuracy;
        bestIndex := Some(i);
      }
    }
    if bestIndex.None? {
      best := Raised;
    } else {
      var k := bestIndex.value;
      best := Fetched(Selection(k, evals[k].name, evals[k].accuracy));
    }
  }
}

=== FILE: numeric.dfy ===
/**
 * Numeric helpers shared by the sentiment modules: clamping, the
 * two-decimal rounding the services apply to every score, arithmetic
 * means and the mapping of a unit random draw onto a `uniform(lo, hi)`
 * interval. Scores are modelled as mathematical reals.
 */
module Numeric {

  /** `max(lo, min(hi, x))`, the clamp every aggregator applies. */
  function Clamp(x: real, lo: real, hi: real): (r: real)
    requires lo <= hi
    ensures lo <= r <= hi
    ensures lo <= x <= hi ==> r == x
    ensures x < lo ==> r == lo
    ensures hi < x ==> r == hi
  {
    if x < lo then lo else if hi < x then hi else x
  }

  lemma ClampMonotone(x: real, y: real, lo: real, hi: real)
    requires lo <= hi && x <= y
    ensures Clamp(x, lo, hi) <= Clamp(y, lo, hi)
  {
  }

  /** Rounds half away from zero for non-negative values (half-up). */
  function RoundHalfUp(x: real): (n: int)
    ensures x - 0.5 < n as real <= x + 0.5
  {
    (x + 0.5).Floor
  }

  /** `round(x, 2)`: the nearest multiple of 0.01, ties rounded up. */
  function Round2(x: real): (r: real)
    ensures x - 0.005 < r <= x + 0.005
    ensures (r * 100.0).Floor as real == r * 100.0
  {
    RoundHalfUp(x * 100.0) as real / 100.0
  }

  lemma RoundHalfUpMonotone(x: real, y: real)
    requires x <= y
    ensures RoundHalfUp(x) <= RoundHalfUp(y)
  {
  }

  lemma Round2Monotone(x: real, y: real)
    requires x <= y
    ensures Round2(x) <= Round2(y)
  {
    RoundHalfUpMonotone(x * 100.0, y * 100.0);
  }

  /** Rounding an integer is the identity. */
  lemma RoundHalfUpOfInt(k: int)
    ensures RoundHalfUp(k as real) == k
  {
  }

  /**
   * `round(x)` to an integer: the nearest integer, an exact tie going to
   * the even neighbour (so 72.5 rounds to 72 and 73.5 to 74).
   */
  function RoundHalfEven(x: real): (n: int)
    ensures x - 0.5 <= n as real <= x + 0.5
    ensures n as real == x - 0.5 || n as real == x + 0.5 ==> n % 2 == 0
  {
    var f := x.Floor;
    var d := x - f as real;
    if d < 0.5 then f
    else if d > 0.5 then f + 1
    else if f % 2 == 0 then f
    else f + 1
  }

  lemma RoundHalfEvenMonotone(x: real, y: real)
    requires x <= y
    ensures RoundHalfEven(x) <= RoundHalfEven(y)
  {
  }

  /** Rounding an integer to even is the identity. */
  lemma RoundHalfEvenOfInt(k: int)
    ensures RoundHalfEven(k as real) == k
  {
  }

  /**
   * Rounding keeps a value inside any interval whose ends are whole
   * hundredths (given as `a/100` and `b/100`), such as [2, 5] or [0, 100].
   */
  lemma {:induction false} Round2Within(x: real, a: int, b: int)
    requires a as real / 100.0 <= x <= b as real / 100.0
    ensures a as real / 100.0 <= Round2(x) <= b as real / 100.0
  {
    var lo, hi := a as real / 100.0, b as real / 100.0;
    Round2Monotone(lo, x);
    Round2Monotone(x, hi);
    assert lo * 100.0 == a as real;
    assert hi * 100.0 == b as real;
    RoundHalfUpOfInt(a);
    RoundHalfUpOfInt(b);
  }

  /** `random.uniform(lo, hi)` driven by a unit draw `u`. */
  function Uniform(lo: real, hi: real, u: real): (r: real)
    requires lo <= hi && 0.0 <= u <= 1.0
    ensures lo <= r <= hi
  {
    var w := hi - lo;
    assert 0.0 <= w * u <= w by { ScaleUnit(w, u); }
    lo + w * u
  }

  lemma ScaleUnit(w: real, u: real)
    requires 0.0 <= w && 0.0 <= u <= 1.0
    ensures 0.0 <= w * u <= w
  {
    assert w * u <= w * 1.0;
  }

  /** A part of a positive whole is a fraction in [0, 1]. */
  lemma RatioUnit(x: real, n: real)
    requires 0.0 < n && 0.0 <= x <= n
    ensures 0.0 <= x / n <= 1.0
  {
    assert (x / n) * n == x;
  }

  function Sum(s: seq<real>): real
  {
    if s == [] then 0.0 else Sum(s[..|s| - 1]) + s[|s| - 1]
  }

  lemma {:induction false} SumAppend(s: seq<real>, x: real)
    ensures Sum(s + [x]) == Sum(s) + x
  {
    assert (s + [x])[..|s|] == s;
  }

  lemma {:induction false} SumBounds(s: seq<real>, lo: real, hi: real)
    requires forall i :: 0 <= i < |s| ==> lo <= s[i] <= hi
    ensures |s| as real * lo <= Sum(s) <= |s| as real * hi
  {
    if s != [] {
      SumBounds(s[..|s| - 1], lo, hi);
    }
  }

  /** `np.mean`: the arithmetic mean of a non-empty sequence. */
  function Mean(s: seq<real>): real
    requires |s| > 0
  {
    Sum(s) / |s| as real
  }

  lemma {:induction false} MeanBounds(s: seq<real>, lo: real, hi: real)
    requires |s| > 0
    requires forall i :: 0 <= i < |s| ==> lo <= s[i] <= hi
    ensures lo <= Mean(s) <= hi
  {
    SumBounds(s, lo, hi);
    var n := |s| as real;
    assert n * lo <= Sum(s) <= n * hi;
    assert lo == (n * lo) / n;
    assert hi == (n * hi) / n;
  }
}

=== FILE: preprocessing.dfy ===
/**
 * The text preprocessing and labelling rules that both Python programs
 * define: `label_sentiment` (a three-way threshold on a polarity) and
 * `clean_text` (lower-case, drop URL runs, punctuation and digits; the
 * backend predictor also strips surrounding whitespace).
 */
module Preprocessing {
  import opened Text

  datatype Label = Negative | Neutral | Positive

  /** `label_sentiment`: inclusive thresholds at -0.2 and +0.2. */
  function LabelSentiment(score: real): (l: Label)
    ensures l == Neutral <==> -0.2 < score < 0.2
  {
    if score <= -0.2 then Negative
    else if score >= 0.2 then Positive
    else Neutral
  }

  /** The labeller partitions the reals; both boundaries are non-neutral. */
  lemma LabelPartition(score: real)
    ensures LabelSentiment(score) == Negative <==> score <= -0.2
    ensures LabelSentiment(score) == Positive <==> score >= 0.2
    ensures LabelSentiment(score) == Neutral <==> -0.2 < score < 0.2
  {
  }

  function LabelRank(l: Label): int
  {
    match l
    case Negative => -1
    case Neutral => 0
    case Positive => 1
  }

  /** A higher polarity never gets a lower label. */
  lemma LabelMonotone(s: real, t: real)
    requires s <= t
    ensures LabelRank(LabelSentiment(s)) <= LabelRank(LabelSentiment(t))
  {
  }

  predicate IsNonSpace(c: char) { !IsPySpace(c) }

  predicate NotPunctuation(c: char) { !IsPunctuation(c) }

  predicate NotDigit(c: char) { !IsDigit(c) }

  /** `s` starts with a match of the pattern `http\S+`. */
  predicate StartsUrl(s: string)
  {
    |s| >= 5 && s[0] == 'h' && s[1] == 't' && s[2] == 't' && s[3] == 'p' && IsNonSpace(s[4])
  }

  /**
   * `re.sub(r"http\S+", "", s)`: scanning left to right, every "http"
   * followed by at least one non-whitespace character is deleted together
   * with the whole non-whitespace run after it.
   */
  function RemoveUrls(s: string): (r: string)
    ensures |r| <= |s|
    decreases |s|
  {
    if s == [] then []
    else if StartsUrl(s) then RemoveUrls(s[UrlEnd(s)..])
    else [s[0]] + RemoveUrls(s[1..])
  }

  /** Where a URL match at the start of `s` ends: after the non-space run. */
  function UrlEnd(s: string): (k: nat)
    requires StartsUrl(s)
    ensures 5 <= k <= |s|
    ensures forall i :: 4 <= i < k ==> IsNonSpace(s[i])
    ensures k < |s| ==> IsPySpace(s[k])
  {
    4 + LeadingRun(s[4..], IsNonSpace)
  }

  /** URL removal only deletes characters. */
  lemma {:induction false} RemoveUrlsSubseq(s: string)
    ensures IsSubseq(RemoveUrls(s), s)
    decreases |s|
  {
    if s == [] {
    } else if StartsUrl(s) {
      RemoveUrlsSubseq(s[UrlEnd(s)..]);
      SuffixSubseq(RemoveUrls(s), s, UrlEnd(s));
    } else {
      RemoveUrlsSubseq(s[1..]);
      assert RemoveUrls(s)[1..] == RemoveUrls(s[1..]);
    }
  }

  /** `s.translate(str.maketrans("", "", string.punctuation))`. */
  function RemovePunctuation(s: string): (r: string)
    ensures forall i :: 0 <= i < |r| ==> !IsPunctuation(r[i])
    ensures IsSubseq(r, s)
  {
    Filter(s, NotPunctuation)
  }

  /** Removing punctuation keeps every occurrence of every other character. */
  lemma RemovePunctuationKeeps(s: string)
    ensures forall c :: !IsPunctuation(c) ==> multiset(RemovePunctuation(s))[c] == multiset(s)[c]
    ensures forall c :: IsPunctuation(c) ==> multiset(RemovePunctuation(s))[c] == 0
  {
    FilterCounts(s, NotPunctuation);
  }

  /** `re.sub(r"\d+", "", s)`. */
  function RemoveDigits(s: string): (r: string)
    ensures forall i :: 0 <= i < |r| ==> !IsDigit(r[i])
    ensures IsSubseq(r, s)
  {
    Filter(s, NotDigit)
  }

  /** Removing digits keeps every occurrence of every other character. */
  lemma RemoveDigitsKeeps(s: string)
    ensures forall c :: !IsDigit(c) ==> multiset(RemoveDigits(s))[c] == multiset(s)[c]
    ensures forall c :: IsDigit(c) ==> multiset(RemoveDigits(s))[c] == 0
  {
    FilterCounts(s, NotDigit);
  }

  /**
   * `clean_text` of the training script: no upper-case letters, punctuation
   * or digits, and what is left is a subsequence of the lower-cased input.
   */
  function CleanTextScript(s: string): (r: string)
    ensures forall i :: 0 <= i < |r| ==> !IsAsciiUpper(r[i]) && !IsPunctuation(r[i]) && !IsDigit(r[i])
    ensures IsSubseq(r, Lower(s))
  {
    var lowered := Lower(s);
    var noUrls := RemoveUrls(lowered);
    RemoveUrlsSubseq(lowered);
    var noPunct := RemovePunctuation(noUrls);
    var r := RemoveDigits(noPunct);
    SubseqKeeps(r, noPunct, NotPunctuation);
    SubseqTrans(noPunct, noUrls, lowered);
    SubseqTrans(r, noPunct, lowered);
    SubseqKeeps(r, lowered, (c: char) => !IsAsciiUpper(c));
    r
  }

  /**
   * `clean_text` of the backend predictor: lower-case, drop URLs, drop
   * punctuation, drop digits, strip. The result has no upper-case letters,
   * punctuation or digits, no surrounding whitespace, and is a subsequence
   * of the lower-cased input.
   */
  function CleanText(s: string): (r: string)
    ensures forall i :: 0 <= i < |r| ==> !IsAsciiUpper(r[i]) && !IsPunctuation(r[i]) && !IsDigit(r[i])
    ensures r == [] || (!IsPySpace(r[0]) && !IsPySpace(r[|r| - 1]))
    ensures IsSubseq(r, Lower(s))
  {
    var lowered := Lower(s);
    var noUrls := RemoveUrls(lowered);
    var noPunct := RemovePunctuation(noUrls);
    var noDigits := RemoveDigits(noPunct);
    var r := Strip(noDigits);
    RemoveUrlsSubseq(lowered);
    SubseqTrans(noPunct, noUrls, lowered);
    SubseqTrans(noDigits, noPunct, lowered);
    TrimBySubseq(noDigits, IsPySpace);
    SubseqTrans(r, noDigits, lowered);
    SubseqKeeps(noDigits, noPunct, NotPunctuation);
    SubseqKeeps(r, noDigits, (c: char) => !IsPunctuation(c) && !IsDigit(c));
    SubseqKeeps(r, lowered, (c: char) => !IsAsciiUpper(c));
    r
  }

  /**
   * The two `clean_text` functions, written separately in the backend and
   * in the training script, differ only by the backend's final strip.
   */
  lemma CleanTextIsStrippedScriptClean(s: string)
    ensures CleanText(s) == Strip(CleanTextScript(s))
  {
  }

  lemma {:induction false} LeadingRunStops(x: string, y: string, p: char -> bool, k: nat)
    requires k < |x| && !p(x[k])
    ensures LeadingRun(x + y, p) == LeadingRun(x, p)
  {
    if k > 0 && p(x[0]) {
      assert (x + y)[1..] == x[1..] + y;
      LeadingRunStops(x[1..], y, p, k - 1);
    }
  }

  lemma {:induction false} LeadingRunAll(q: string, r: string, p: char -> bool)
    requires forall i :: 0 <= i < |q| ==> p(q[i])
    requires r == [] || !p(r[0])
    ensures LeadingRun(q + r, p) == |q|
  {
    if q != [] {
      assert (q + r)[1..] == q[1..] + r;
      LeadingRunAll(q[1..], r, p);
    }
  }

  /** A match cannot begin before whitespace that ends `p`. */
  lemma StartsUrlBeforeSpace(p: string, rest: string)
    requires p != [] && IsPySpace(p[|p| - 1])
    ensures StartsUrl(p + rest) == StartsUrl(p)
  {
    var s := p + rest;
    if |p| >= 5 {
      assert s[..5] == p[..5];
      assert s[..4] == p[..4] && s[4] == p[4];
    } else {
      var j := |p| - 1;
      assert s[j] == p[j] && IsPySpace(s[j]);
      if |s| >= 5 {
        assert s[..4][j] == s[j];
        assert s[..4] != "http";
      }
    }
  }

  /** A URL match that begins in `p` and is cut off by `p`'s final whitespace ends inside `p`. */
  lemma UrlMatchInside(p: string, t: string)
    requires p != [] && IsPySpace(p[|p| - 1]) && StartsUrl(p)
    ensures StartsUrl(p + t) && UrlEnd(p + t) == UrlEnd(p)
    ensures (p + t)[UrlEnd(p)..] == p[UrlEnd(p)..] + t
  {
    var s := p + t;
    StartsUrlBeforeSpace(p, t);
    LeadingRunStops(p[4..], t, IsNonSpace, |p| - 5);
    assert s[4..] == p[4..] + t;
  }

  /** A text that starts with a URL token loses exactly that token. */
  lemma UrlTokenAtStart(t: string, q: string, r: string)
    requires StartsUrl(t) && t[4..] == q + r
    requires forall i :: 0 <= i < |q| ==> IsNonSpace(q[i])
    requires r == [] || IsPySpace(r[0])
    ensures RemoveUrls(t) == RemoveUrls(r)
  {
    LeadingRunAll(q, r, IsNonSpace);
    assert UrlEnd(t) == 4 + |q|;
    assert t[4 + |q|..] == r;
  }

  /** Both texts lose the same leading match, so their cleaning continues after it. */
  lemma UrlSkipBoth(p: string, t: string, k: nat)
    requires StartsUrl(p) && StartsUrl(p + t) && UrlEnd(p) == k && UrlEnd(p + t) == k
    requires (p + t)[k..] == p[k..] + t
    ensures RemoveUrls(p + t) == RemoveUrls(p[k..] + t)
    ensures RemoveUrls(p) == RemoveUrls(p[k..])
  {
  }

  /** Both texts keep the same first character, so their cleaning continues after it. */
  lemma KeepFirstBoth(p: string, t: string)
    requires p != [] && !StartsUrl(p) && !StartsUrl(p + t)
    ensures RemoveUrls(p + t) == [p[0]] + RemoveUrls(p[1..] + t)
    ensures RemoveUrls(p) == [p[0]] + RemoveUrls(p[1..])
  {
    assert (p + t)[1..] == p[1..] + t;
  }

  /**
   * A URL token that starts `t` disappears from `p + t` when `p` is empty
   * or ends in whitespace, and `p` is cleaned on its own.
   */
  lemma {:induction false} UrlTokenAfter(p: string, t: string, q: string, r: string)
    requires p == [] || IsPySpace(p[|p| - 1])
    requires StartsUrl(t) && t[4..] == q + r
    requires forall i :: 0 <= i < |q| ==> IsNonSpace(q[i])
    requires r == [] || IsPySpace(r[0])
    ensures RemoveUrls(p + t) == RemoveUrls(p) + RemoveUrls(r)
    decreases |p|, 1
  {
    if p == [] {
      assert p + t == t;
      UrlTokenAtStart(t, q, r);
    } else if StartsUrl(p) {
      UrlTokenAfterMatch(p, t, q, r);
    } else {
      UrlTokenAfterKeep(p, t, q, r);
    }
  }

  /** The case of `UrlTokenAfter` where `p` itself starts with a match. */
  lemma {:induction false} UrlTokenAfterMatch(p: string, t: string, q: string, r: string)
    requires p != [] && IsPySpace(p[|p| - 1]) && StartsUrl(p)
    requires StartsUrl(t) && t[4..] == q + r
    requires forall i :: 0 <= i < |q| ==> IsNonSpace(q[i])
    requires r == [] || IsPySpace(r[0])
    ensures RemoveUrls(p + t) == RemoveUrls(p) + RemoveUrls(r)
    decreases |p|, 0
  {
    var k := UrlEnd(p);
    UrlMatchInside(p, t);
    UrlSkipBoth(p, t, k);
    var rest := p[k..];
    assert rest == [] || IsPySpace(rest[|rest| - 1]) by {
      if rest != [] { assert rest[|rest| - 1] == p[|p| - 1]; }
    }
    UrlTokenAfter(rest, t, q, r);
  }

  /** The case of `UrlTokenAfter` where the first character of `p` is kept. */
  lemma {:induction false} UrlTokenAfterKeep(p: string, t: string, q: string, r: string)
    requires p != [] && IsPySpace(p[|p| - 1]) && !StartsUrl(p)
    requires StartsUrl(t) && t[4..] == q + r
    requires forall i :: 0 <= i < |q| ==> IsNonSpace(q[i])
    requires r == [] || IsPySpace(r[0])
    ensures RemoveUrls(p + t) == RemoveUrls(p) + RemoveUrls(r)
    decreases |p|, 0
  {
    StartsUrlBeforeSpace(p, t);
    KeepFirstBoth(p, t);
    var rest := p[1..];
    assert rest == [] || IsPySpace(rest[|rest| - 1]) by {
      if rest != [] { assert rest[|rest| - 1] == p[|p| - 1]; }
    }
    UrlTokenAfter(rest, t, q, r);
    ConcatAssoc3([p[0]], RemoveUrls(rest), RemoveUrls(r));
  }

  lemma ConcatAssoc3(a: string, b: string, c: string)
    ensures a + (b + c) == a + b + c
  {
  }

  lemma ConcatAssoc(a: string, b: string, c: string, d: string)
    ensures a + b + c + d == a + (b + (c + d))
  {
  }

  /** "http" followed by a non-space starts a match. */
  lemma HttpStartsUrl(rest: string)
    requires rest != [] && IsNonSpace(rest[0])
    ensures StartsUrl("http" + rest) && ("http" + rest)[4..] == rest
  {
    var t := "http" + rest;
    assert t[..4] == "http" && t[4] == rest[0];
  }

  /**
   * A URL token ("http" plus a non-empty run of non-whitespace) that starts
   * the text or follows whitespace, and ends the text or precedes
   * whitespace, disappears without affecting the rest of the text.
   */
  lemma UrlTokenRemoved(p: string, q: string, r: string)
    requires p == [] || IsPySpace(p[|p| - 1])
    requires q != [] && forall i :: 0 <= i < |q| ==> IsNonSpace(q[i])
    requires r == [] || IsPySpace(r[0])
    ensures RemoveUrls(p + "http" + q + r) == RemoveUrls(p) + RemoveUrls(r)
  {
    var t := "http" + (q + r);
    HttpStartsUrl(q + r);
    UrlTokenAfter(p, t, q, r);
    ConcatAssoc(p, "http", q, r);
  }

  /** Text that does not start with 'h' loses nothing at its first character. */
  lemma RemoveUrlsKeepsFirst(s: string)
    requires s != [] && s[0] != 'h'
    ensures RemoveUrls(s) == [s[0]] + RemoveUrls(s[1..])
  {
    assert !StartsUrl(s) by { if |s| >= 5 { assert s[..4][0] == s[0]; } }
  }

  /** No match can start inside text without the letter 'h', so such a prefix is kept. */
  lemma {:induction false} PrefixWithoutHKept(p: string, t: string)
    requires 'h' !in p
    ensures RemoveUrls(p + t) == p + RemoveUrls(t)
    decreases |p|
  {
    if p == [] {
      assert p + t == t;
    } else {
      var s, rest := p + t, p[1..];
      assert s[0] == p[0] && s[1..] == rest + t;
      RemoveUrlsKeepsFirst(s);
      PrefixWithoutHKept(rest, t);
      assert p == [p[0]] + rest;
    }
  }

  /**
   * The pattern is not anchored at word starts: a URL token glued to the
   * end of text without the letter 'h' is removed, and that text is kept.
   */
  lemma {:induction false} UrlInsideWordRemoved(p: string, q: string, r: string)
    requires 'h' !in p
    requires q != [] && forall i :: 0 <= i < |q| ==> IsNonSpace(q[i])
    requires r == [] || IsPySpace(r[0])
    ensures RemoveUrls(p + "http" + q + r) == p + RemoveUrls(r)
  {
    var t := "http" + (q + r);
    HttpStartsUrl(q + r);
    UrlTokenAtStart(t, q, r);
    PrefixWithoutHKept(p, t);
    ConcatAssoc(p, "http", q, r);
  }

  /** Text without the letter 'h' contains no URL match. */
  lemma {:induction false} RemoveUrlsWithoutH(s: string)
    requires forall i :: 0 <= i < |s| ==> s[i] != 'h'
    ensures RemoveUrls(s) == s
  {
    if s != [] {
      assert !StartsUrl(s) by { if |s| >= 4 { assert s[..4][0] == s[0]; } }
      RemoveUrlsWithoutH(s[1..]);
    }
  }

  /** A bare "http" followed by whitespace is not a URL and survives. */
  lemma BareHttpSurvives(c: char, r: string)
    requires IsPySpace(c)
    ensures RemoveUrls("http" + [c] + r) == "http" + [c] + RemoveUrls(r)
  {
    var s := "http" + [c] + r;
    assert s[4] == c && !StartsUrl(s);
    var t := s[1..];
    assert t == "ttp" + [c] + r;
    RemoveUrlsWithoutH(s[1..5]);
    assert t[0] == 't' && t[1] == 't' && t[2] == 'p' && t[3] == c;
    assert !StartsUrl(t) && !StartsUrl(t[1..]) && !StartsUrl(t[2..]) && !StartsUrl(t[3..]);
    assert t[1..][1..] == t[2..] && t[2..][1..] == t[3..] && t[3..][1..] == r;
    calc {
      RemoveUrls(s);
      [s[0]] + RemoveUrls(t);
      [s[0]] + ([t[0]] + RemoveUrls(t[1..]));
      [s[0]] + ([t[0]] + ([t[1]] + RemoveUrls(t[2..])));
      [s[0]] + ([t[0]] + ([t[1]] + ([t[2]] + RemoveUrls(t[3..]))));
      [s[0]] + ([t[0]] + ([t[1]] + ([t[2]] + ([t[3]] + RemoveUrls(r)))));
      "http" + [c] + RemoveUrls(r);
    }
  }

  /** Cleaning a text whose stages are known. */
  lemma CleanTextThrough(s: string, lowered: string, noUrls: string, noPunct: string, r: string)
    requires Lower(s) == lowered && RemoveUrls(lowered) == noUrls
    requires RemovePunctuation(noUrls) == noPunct && Strip(RemoveDigits(noPunct)) == r
    ensures CleanText(s) == r
  {
  }

  lemma LowerOfLowercase(s: string)
    requires forall i :: 0 <= i < |s| ==> !IsAsciiUpper(s[i])
    ensures Lower(s) == s
  {
  }

  lemma StripOfUnspaced(s: string)
    requires s != [] && !IsPySpace(s[0]) && !IsPySpace(s[|s| - 1])
    ensures Strip(s) == s
  {
    assert LeadingRun(s, IsPySpace) == 0;
    assert TrailingRun(s, IsPySpace) == 0;
  }

  lemma FirstExampleUrls(u: string)
    requires u == "h.ttpabc"
    ensures RemoveUrls(u) == u
  {
    assert !StartsUrl(u) by { assert u[..4][1] == '.'; }
    RemoveUrlsWithoutH(u[1..]);
  }

  lemma FirstExamplePunctuation(u: string, w: string)
    requires u == "h.ttpabc" && w == "httpabc"
    ensures RemovePunctuation(u) == w
  {
    assert IsPunctuation(u[1]);
    assert forall i :: 2 <= i < |u| ==> IsAsciiLower(u[i]);
    assert Filter(u[2..], NotPunctuation) == u[2..];
    assert Filter(u[1..], NotPunctuation) == u[2..];
    assert Filter(u, NotPunctuation) == [u[0]] + u[2..];
  }

  lemma FirstExampleDigits(w: string)
    requires w == "httpabc"
    ensures RemoveDigits(w) == w
  {
    assert forall i :: 0 <= i < |w| ==> IsAsciiLower(w[i]);
  }

  /** "h.ttpabc" holds no URL match, so only the dot is removed. */
  lemma CleanFirstExample(u: string, w: string)
    requires u == "h.ttpabc" && w == "httpabc"
    ensures CleanText(u) == w
  {
    LowerOfLowercase(u);
    FirstExampleUrls(u);
    FirstExamplePunctuation(u, w);
    FirstExampleDigits(w);
    StripOfUnspaced(w);
    CleanTextThrough(u, u, u, w, w);
  }

  /** A text that is a single URL token, once lowercased, cleans to nothing. */
  lemma UrlTokenCleansToEmpty(v: string)
    requires StartsUrl(Lower(v))
    requires forall i :: 4 <= i < |v| ==> IsNonSpace(Lower(v)[i])
    ensures CleanText(v) == ""
  {
    var l := Lower(v);
    UrlTokenAtStart(l, l[4..], []);
    assert RemoveUrls(l) == [];
  }

  lemma SecondExampleIsUrlToken(w: string)
    requires w == "httpabc"
    ensures StartsUrl(Lower(w)) && forall i :: 4 <= i < |w| ==> IsNonSpace(Lower(w)[i])
  {
    LowerOfLowercase(w);
    assert w[..4] == "http";
  }

  /**
   * Cleaning is not idempotent: "h.ttpabc" cleans to "httpabc", which
   * cleans to the empty string.
   */
  lemma CleanTextNotIdempotent(u: string)
    requires u == "h.ttpabc"
    ensures CleanText(u) == "httpabc"
    ensures CleanText(CleanText(u)) == ""
  {
    var w := "httpabc";
    CleanFirstExample(u, w);
    SecondExampleIsUrlToken(w);
    UrlTokenCleansToEmpty(w);
  }
}

=== FILE: recommendation.dfy ===
/**
 * The recommendation engine of the backend API: an overall rating on the
 * 2-5 scale, a trend direction and the three component scores are mapped
 * to an action, a capped confidence and an explanation that calls out
 * unusually weak or strong components.
 */
module Recommendation {
  import opened Numeric
  import opened Text

  datatype Action = StrongBuy | Buy | Hold | Sell

  function ActionName(a: Action): string
  {
    match a
    case StrongBuy => "STRONG BUY"
    case Buy => "BUY"
    case Hold => "HOLD"
    case Sell => "SELL"
  }

  /** How bullish an action is: SELL < HOLD < BUY < STRONG BUY. */
  function Strength(a: Action): int
  {
    match a
    case Sell => 0
    case Hold => 1
    case Buy => 2
    case StrongBuy => 3
  }

  /** The sentiment components, on the 2-5 scale. */
  datatype Components = Components(news: real, social: real, economic: real)

  datatype Recommendation = Recommendation(
    action: Action,
    confidence: int,
    explanation: string,
    overallRating: real,
    components: Components)

  /**
   * The trend direction used for recommendations: 0 when the series has
   * fewer than five points, otherwise +1 when the last of the final five
   * scores is strictly above the first of them and -1 otherwise (equality
   * included).
   */
  function TrendDirection(scores: seq<real>): (d: int)
    ensures d == -1 || d == 0 || d == 1
  {
    var recent := if |scores| >= 5 then scores[|scores| - 5..] else [];
    if |recent| > 1 then (if recent[|recent| - 1] > recent[0] then 1 else -1)
    else 0
  }

  lemma TrendDirectionSpec(scores: seq<real>)
    ensures |scores| < 5 ==> TrendDirection(scores) == 0
    ensures |scores| >= 5 ==>
      (TrendDirection(scores) == 1 <==> scores[|scores| - 1] > scores[|scores| - 5])
    ensures |scores| >= 5 ==>
      (TrendDirection(scores) == -1 <==> scores[|scores| - 1] <= scores[|scores| - 5])
  {
  }

  /** The action column of the decision table, checked from the highest rating band down. */
  function DecisionAction(rating: real, trend: int): (a: Action)
    ensures a == StrongBuy <==> rating >= 4.0 && trend >= 0
    ensures a == Sell <==> rating < 2.5 && trend <= 0
  {
    if rating >= 4.0 then (if trend >= 0 then StrongBuy else Buy)
    else if rating >= 3.5 then (if trend > 0 then Buy else Hold)
    else if rating >= 2.5 then Hold
    else if trend > 0 then Hold
    else Sell
  }

  /** The confidence column of the decision table: a base, a slope and a cap per branch. */
  function DecisionConfidence(rating: real, trend: int): (c: real)
    ensures 45.0 <= c <= 95.0
  {
    if rating >= 4.0 then
      if trend >= 0 then Min(95.0, 80.0 + (rating - 4.0) * 10.0)
      else Min(85.0, 70.0 + (rating - 4.0) * 10.0)
    else if rating >= 3.5 then
      if trend > 0 then Min(80.0, 65.0 + (rating - 3.5) * 20.0)
      else if trend == 0 then Min(75.0, 60.0 + (rating - 3.5) * 15.0)
      else Min(70.0, 55.0 + (rating - 3.5) * 10.0)
    else if rating >= 2.5 then
      if trend > 0 then Min(65.0, 50.0 + (rating - 2.5) * 10.0)
      else Min(60.0, 45.0 + Abs(rating - 3.0) * 10.0)
    else
      if trend > 0 then Min(70.0, 55.0 + (2.5 - rating) * 10.0)
      else Min(85.0, 65.0 + (2.5 - rating) * 15.0)
  }

  /** The guidance sentence of each branch, quoting the rating to one decimal. */
  function Guidance(rating: real, trend: int): string
  {
    var r := FormatOneDecimal(rating);
    if rating >= 4.0 then
      if trend >= 0 then
        "Excellent sentiment across all indicators (" + r + "/5). Strong fundamentals with "
        + (if trend > 0 then "positive momentum" else "stable conditions")
        + ". High confidence investment opportunity."
      else
        "Strong positive sentiment (" + r + "/5) despite recent downward trend. "
        + "Fundamentals remain solid - good entry point for long-term investors."
    else if rating >= 3.5 then
      if trend > 0 then
        "Positive sentiment (" + r + "/5) with upward momentum. "
        + "Good growth potential with manageable risk."
      else if trend == 0 then
        "Moderately positive sentiment (" + r + "/5) in consolidation phase. "
        + "Consider holding current positions and monitor for clear directional signals."
      else
        "Mixed signals: positive sentiment (" + r + "/5) but declining trend. "
        + "Wait for trend reversal before increasing position."
    else if rating >= 2.5 then
      if trend > 0 then
        "Neutral sentiment (" + r + "/5) with improving trend. "
        + "Hold positions and monitor for sustained improvement before adding."
      else
        "Neutral sentiment (" + r + "/5) with uncertain direction. "
        + "Maintain defensive positions until clearer signals emerge."
    else
      if trend > 0 then
        "Negative sentiment (" + r + "/5) but showing signs of recovery. "
        + "Wait for sustained improvement before considering purchases."
      else
        "Poor sentiment (" + r + "/5) with continuing decline. "
        + "Consider reducing exposure to limit downside risk."
  }

  function Min(a: real, b: real): real { if a <= b then a else b }

  function Abs(x: real): real { if x < 0.0 then -x else x }

  /** The action is fixed by the rating band and the trend alone. */
  lemma ActionTable(rating: real, trend: int)
    ensures rating >= 4.0 ==> DecisionAction(rating, trend) == (if trend >= 0 then StrongBuy else Buy)
    ensures 3.5 <= rating < 4.0 ==> DecisionAction(rating, trend) == (if trend > 0 then Buy else Hold)
    ensures 2.5 <= rating < 3.5 ==> DecisionAction(rating, trend) == Hold
    ensures rating < 2.5 ==> DecisionAction(rating, trend) == (if trend > 0 then Hold else Sell)
  {
  }

  /** A better rating never yields a less bullish action. */
  lemma ActionMonotoneInRating(r1: real, r2: real, trend: int)
    requires r1 <= r2
    ensures Strength(DecisionAction(r1, trend)) <= Strength(DecisionAction(r2, trend))
  {
  }

  /** A better trend never yields a less bullish action. */
  lemma ActionMonotoneInTrend(rating: real, t1: int, t2: int)
    requires t1 <= t2
    ensures Strength(DecisionAction(rating, t1)) <= Strength(DecisionAction(rating, t2))
  {
  }

  /**
   * Each branch's confidence lies between its base value and its cap:
   * STRONG BUY [80, 95], BUY on a falling trend [70, 85], BUY in the
   * 3.5 band [65, 80], HOLD in the 3.5 band [60, 75] or [55, 70], HOLD in
   * the neutral band [50, 65] or [45, 60], HOLD on a recovery [55, 70] and
   * SELL [65, 85].
   */
  lemma ConfidenceWithinBranchCaps(rating: real, trend: int)
    ensures var d := DecisionConfidence(rating, trend);
      && (rating >= 4.0 && trend >= 0 ==> 80.0 <= d <= 95.0)
      && (rating >= 4.0 && trend < 0 ==> 70.0 <= d <= 85.0)
      && (3.5 <= rating < 4.0 && trend > 0 ==> 65.0 <= d <= 80.0)
      && (3.5 <= rating < 4.0 && trend == 0 ==> 60.0 <= d <= 75.0)
      && (3.5 <= rating < 4.0 && trend < 0 ==> 55.0 <= d <= 70.0)
      && (2.5 <= rating < 3.5 && trend > 0 ==> 50.0 <= d <= 65.0)
      && (2.5 <= rating < 3.5 && trend <= 0 ==> 45.0 <= d <= 60.0)
      && (rating < 2.5 && trend > 0 ==> 55.0 <= d <= 70.0)
      && (rating < 2.5 && trend <= 0 ==> 65.0 <= d <= 85.0)
  {
  }

  /**
   * On the documented 2-5 scale no cap is ever reached below the top band:
   * the confidence is then strictly below the branch's cap.
   */
  lemma CapsUnreachableOnScale(rating: real, trend: int)
    requires 2.0 <= rating <= 5.0
    ensures var d := DecisionConfidence(rating, trend);
      && (rating >= 4.0 && trend >= 0 ==> d <= 90.0)
      && (rating >= 4.0 && trend < 0 ==> d <= 80.0)
      && (3.5 <= rating < 4.0 && trend > 0 ==> d < 75.0)
      && (3.5 <= rating < 4.0 && trend == 0 ==> d < 67.5)
      && (3.5 <= rating < 4.0 && trend < 0 ==> d < 60.0)
      && (2.5 <= rating < 3.5 && trend > 0 ==> d < 60.0)
      && (2.5 <= rating < 3.5 && trend <= 0 ==> d <= 50.0)
      && (rating < 2.5 && trend > 0 ==> d <= 60.0)
      && (rating < 2.5 && trend <= 0 ==> d <= 72.5)
  {
  }

  function NewsCallOut(v: real): seq<string>
  {
    if v < 2.3 then ["negative news coverage"]
    else if v > 3.7 then ["positive news sentiment"]
    else []
  }

  function SocialCallOut(v: real): seq<string>
  {
    if v < 2.3 then ["bearish social sentiment"]
    else if v > 3.7 then ["bullish social sentiment"]
    else []
  }

  function EconomicCallOut(v: real): seq<string>
  {
    if v < 2.3 then ["weak economic indicators"]
    else if v > 3.7 then ["strong economic backdrop"]
    else []
  }

  /** The component phrases, in news, social, economic order. */
  function CallOuts(c: Components): (r: seq<string>)
    ensures |r| <= 3
  {
    NewsCallOut(c.news) + SocialCallOut(c.social) + EconomicCallOut(c.economic)
  }

  /** Which component a call-out phrase speaks about (0 news, 1 social, 2 economy). */
  function PhraseComponent(p: string): int
  {
    if p == "negative news coverage" || p == "positive news sentiment" then 0
    else if p == "bearish social sentiment" || p == "bullish social sentiment" then 1
    else 2
  }

  /**
   * Each component is called out negatively below 2.3, positively above
   * 3.7 and not at all in between.
   */
  lemma CallOutsSpec(c: Components)
    ensures "negative news coverage" in CallOuts(c) <==> c.news < 2.3
    ensures "positive news sentiment" in CallOuts(c) <==> c.news > 3.7
    ensures "bearish social sentiment" in CallOuts(c) <==> c.social < 2.3
    ensures "bullish social sentiment" in CallOuts(c) <==> c.social > 3.7
    ensures "weak economic indicators" in CallOuts(c) <==> c.economic < 2.3
    ensures "strong economic backdrop" in CallOuts(c) <==> c.economic > 3.7
    ensures CallOuts(c) == [] <==>
      (2.3 <= c.news <= 3.7 && 2.3 <= c.social <= 3.7 && 2.3 <= c.economic <= 3.7)
  {
    var n, s, e := NewsCallOut(c.news), SocialCallOut(c.social), EconomicCallOut(c.economic);
    assert CallOuts(c) == n + s + e;
    assert forall p :: p in CallOuts(c) <==> p in n || p in s || p in e;
  }

  /** Call-outs come in component order: news, then social, then economy. */
  lemma CallOutsOrdered(c: Components)
    ensures forall i, j :: 0 <= i < j < |CallOuts(c)| ==>
      PhraseComponent(CallOuts(c)[i]) < PhraseComponent(CallOuts(c)[j])
  {
    var n, s, e := NewsCallOut(c.news), SocialCallOut(c.social), EconomicCallOut(c.economic);
    assert CallOuts(c) == n + s + e;
    assert forall p :: p in n ==> PhraseComponent(p) == 0;
    assert forall p :: p in s ==> PhraseComponent(p) == 1;
    assert forall p :: p in e ==> PhraseComponent(p) == 2;
  }

  /** `" Key factors: a, b."`, present only when there is a call-out. */
  function KeyFactors(c: Components): string
  {
    var phrases := CallOuts(c);
    if phrases != [] then " Key factors: " + Join(phrases, ", ") + "." else ""
  }

  /**
   * `get_recommendation` once the sentiment and trend direction are known:
   * the table's action, the rounded confidence and the explanation with its
   * call-outs; rating and components are passed through unchanged.
   */
  function Recommend(rating: real, trend: int, c: Components): (rec: Recommendation)
    ensures rec.overallRating == rating && rec.components == c
    ensures rec.action == DecisionAction(rating, trend)
    ensures 45 <= rec.confidence <= 95
    ensures DecisionConfidence(rating, trend) - 0.5 <= rec.confidence as real <= DecisionConfidence(rating, trend) + 0.5
    ensures rec.confidence as real - DecisionConfidence(rating, trend) in {-0.5, 0.5} ==> rec.confidence % 2 == 0
    ensures Guidance(rating, trend) <= rec.explanation
    ensures |rec.explanation| > |Guidance(rating, trend)| <==> CallOuts(c) != []
  {
    var conf := DecisionConfidence(rating, trend);
    RoundHalfEvenMonotone(45.0, conf);
    RoundHalfEvenMonotone(conf, 95.0);
    RoundHalfEvenOfInt(45);
    RoundHalfEvenOfInt(95);
    Recommendation(DecisionAction(rating, trend), RoundHalfEven(conf),
      Guidance(rating, trend) + KeyFactors(c), rating, c)
  }

  /**
   * Worked examples: 4.5 rising, 2.1 and 2.0 falling and 3.0 flat; the
   * confidence 72.5 of a 2.0 falling is a tie and rounds to the even 72.
   */
  lemma RecommendExamples(c: Components)
    ensures Recommend(4.5, 1, c).action == StrongBuy && Recommend(4.5, 1, c).confidence == 85
    ensures Recommend(2.1, -1, c).action == Sell && Recommend(2.1, -1, c).confidence == 71
    ensures Recommend(2.0, -1, c).action == Sell && Recommend(2.0, -1, c).confidence == 72
    ensures Recommend(3.0, 0, c).action == Hold && Recommend(3.0, 0, c).confidence == 45
  {
    assert DecisionConfidence(4.5, 1) == 85.0;
    assert DecisionConfidence(2.1, -1) == 71.0;
    assert DecisionConfidence(2.0, -1) == 72.5;
    assert DecisionConfidence(3.0, 0) == 45.0;
    RoundHalfEvenOfInt(85);
    RoundHalfEvenOfInt(71);
    RoundHalfEvenOfInt(45);
    assert RoundHalfEven(72.5) == 72;
  }
}

=== FILE: schemas.dfy ===
/**
 * Validation as Mongoose performs it for the three document schemas of
 * the store: declared string setters run first (in the order the options
 * are declared), defaults fill in undefined paths, and then each path's
 * validators run. A document is accepted when no path reports an error.
 */
module Mongoose {
  import opened Common

  /** A number path: undefined, null or a number. */
  datatype NumField = NumAbsent | NumNull | Num(v: real)

  /** A string setter runs on string values only. */
  function MapText(f: Field, g: string -> string): (r: Field)
    ensures f.Text? ==> r == Text(g(f.s))
    ensures !f.Text? ==> r == f
  {
    if f.Text? then Text(g(f.s)) else f
  }

  /** The `required` validator of a string path: undefined, null and the empty string fail. */
  predicate RequiredStringFails(f: Field)
  {
    !f.Text? || f.s == []
  }

  /** The `required` validator of a number, id or date path: undefined and null fail. */
  predicate RequiredFails(f: Field)
  {
    !f.Text?
  }

  predicate RequiredNumFails(f: NumField)
  {
    !f.Num?
  }

  /** `maxlength`: only a string longer than the bound fails. */
  predicate MaxLengthFails(f: Field, n: nat)
  {
    f.Text? && |f.s| > n
  }

  /** `min` and `max` together: only a number outside the bounds fails. */
  predicate RangeFails(f: NumField, lo: real, hi: real)
  {
    f.Num? && (f.v < lo || f.v > hi)
  }

  /** The number JavaScript compares a defined value as: null becomes 0. */
  function JsNumber(f: NumField): (r: real)
    requires !f.NumAbsent?
    ensures f.Num? ==> r == f.v
  {
    if f.Num? then f.v else 0.0
  }

  /** A custom range validator `v >= lo && v <= hi`; custom validators are skipped for undefined. */
  predicate CustomRangeFails(f: NumField, lo: real, hi: real)
  {
    !f.NumAbsent? && !(JsNumber(f) >= lo && JsNumber(f) <= hi)
  }

  /** A null value passes a custom range validator whose range holds 0. */
  lemma NullPassesCustomRange(lo: real, hi: real)
    requires lo <= 0.0 <= hi
    ensures !CustomRangeFails(NumNull, lo, hi)
  {
  }
}

/** `Instrument`: a traded security identified by name, ticker and optional ISIN. */
module InstrumentSchema {
  import opened Common
  import opened Text
  import opened Mongoose

  datatype Instrument = Instrument(name: Field, ticker: Field, isin: Field, sector: Field)

  /** `ticker` declares `uppercase` before `trim`. */
  function CastTicker(s: string): string { JsTrim(Upper(s)) }

  /** `isin` declares `trim` before `uppercase`. */
  function CastIsin(s: string): string { Upper(JsTrim(s)) }

  /** The document as stored: every string path trimmed, ticker and ISIN uppercased. */
  function Cast(d: Instrument): (c: Instrument)
    ensures c.name == MapText(d.name, JsTrim) && c.sector == MapText(d.sector, JsTrim)
    ensures c.ticker == MapText(d.ticker, CastTicker) && c.isin == MapText(d.isin, CastIsin)
  {
    Instrument(MapText(d.name, JsTrim), MapText(d.ticker, CastTicker), MapText(d.isin, CastIsin), MapText(d.sector, JsTrim))
  }

  /** `/^[A-Z0-9]{12}$/`: twelve uppercase ASCII letters or digits and nothing else. */
  predicate IsinPattern(s: string)
  {
    |s| == 12 && forall i :: 0 <= i < |s| ==> IsAsciiUpper(s[i]) || IsDigit(s[i])
  }

  /** The custom ISIN validator `!v || pattern`; it is skipped for undefined. */
  predicate IsinFails(f: Field)
  {
    f.Text? && f.s != [] && !IsinPattern(f.s)
  }

  /** The paths of a stored document that fail validation. */
  function Errors(c: Instrument): (errs: set<string>)
    ensures errs <= {"name", "ticker", "isin", "sector"}
  {
    (if RequiredStringFails(c.name) || MaxLengthFails(c.name, 200) then {"name"} else {})
    + (if RequiredStringFails(c.ticker) || MaxLengthFails(c.ticker, 20) then {"ticker"} else {})
    + (if IsinFails(c.isin) then {"isin"} else {})
    + (if MaxLengthFails(c.sector, 100) then {"sector"} else {})
  }

  function Validate(d: Instrument): set<string>
  {
    Errors(Cast(d))
  }

  /** Which validators put each path among the errors. */
  lemma ErrorPaths(c: Instrument)
    ensures "name" in Errors(c) <==> RequiredStringFails(c.name) || MaxLengthFails(c.name, 200)
    ensures "ticker" in Errors(c) <==> RequiredStringFails(c.ticker) || MaxLengthFails(c.ticker, 20)
    ensures "isin" in Errors(c) <==> IsinFails(c.isin)
    ensures "sector" in Errors(c) <==> MaxLengthFails(c.sector, 100)
  {
  }

  /** The trimmed name must have 1 to 200 characters. */
  lemma NameSpec(d: Instrument)
    ensures "name" !in Validate(d) <==> d.name.Text? && 0 < |JsTrim(d.name.s)| <= 200
  {
    ErrorPaths(Cast(d));
  }

  /** The uppercased, then trimmed ticker must have 1 to 20 characters. */
  lemma TickerSpec(d: Instrument)
    ensures "ticker" !in Validate(d) <==> d.ticker.Text? && 0 < |JsTrim(Upper(d.ticker.s))| <= 20
  {
    ErrorPaths(Cast(d));
  }

  /**
   * The ISIN is accepted exactly when it is missing or null, empty after
   * trimming, or twelve uppercase letters and digits after trimming and
   * uppercasing.
   */
  lemma IsinSpec(d: Instrument)
    ensures "isin" !in Validate(d) <==>
      !d.isin.Text? || JsTrim(d.isin.s) == [] || IsinPattern(Upper(JsTrim(d.isin.s)))
  {
    ErrorPaths(Cast(d));
  }

  /** A given sector must have at most 100 characters once trimmed. */
  lemma SectorSpec(d: Instrument)
    ensures "sector" !in Validate(d) <==> !d.sector.Text? || |JsTrim(d.sector.s)| <= 100
  {
    ErrorPaths(Cast(d));
  }

  /**
   * A stored ticker of an accepted document has no lowercase ASCII
   * letter and no surrounding whitespace, and a stored ISIN is empty or
   * matches the pattern.
   */
  lemma AcceptedShape(d: Instrument)
    requires Validate(d) == {}
    ensures var c := Cast(d);
      && c.ticker.Text? && 0 < |c.ticker.s| <= 20
      && !IsJsSpace(c.ticker.s[0]) && !IsJsSpace(c.ticker.s[|c.ticker.s| - 1])
      && (forall i :: 0 <= i < |c.ticker.s| ==> !IsAsciiLower(c.ticker.s[i]))
      && (c.isin.Text? ==> c.isin.s == [] || IsinPattern(c.isin.s))
  {
    var c := Cast(d);
    ErrorPaths(c);
    var u := Upper(d.ticker.s);
    TrimUpperCommute(d.ticker.s);
    assert c.ticker.s == Upper(JsTrim(d.ticker.s));
  }

  /**
   * The ISIN check is case-insensitive and ignores surrounding
   * whitespace: twelve ASCII letters or digits in any case, padded with
   * spaces, are accepted.
   */
  lemma IsinPaddedAnyCase(d: Instrument, pre: string, code: string, post: string)
    requires |code| == 12 && forall i :: 0 <= i < 12 ==> IsAsciiLetter(code[i]) || IsDigit(code[i])
    requires (forall i :: 0 <= i < |pre| ==> IsJsSpace(pre[i])) && (forall i :: 0 <= i < |post| ==> IsJsSpace(post[i]))
    requires d.isin == Text(pre + code + post)
    ensures "isin" !in Validate(d)
  {
    TrimPadded(pre, code, post, IsJsSpace);
    assert IsinPattern(Upper(code));
    ErrorPaths(Cast(d));
  }
}

/** `Message` with its embedded `Sentiment` subdocuments. */
module MessageSchema {
  import opened Common
  import opened Text
  import opened Mongoose

  datatype SentimentInput = SentimentInput(
    channel: Field, score: NumField, confidence: NumField, tags: Option<seq<string>>, weight: NumField)

  /** A stored sentiment subdocument, with its defaults filled in. */
  datatype Sentiment = Sentiment(
    channel: Field, score: NumField, confidence: NumField, tags: seq<string>, weight: NumField)

  datatype MessageInput = MessageInput(
    instrumentId: Field, sourceId: Field, timestamp: Field, title: Field, content: Field,
    sentiments: Option<seq<SentimentInput>>)

  datatype Message = Message(
    instrumentId: Field, sourceId: Field, timestamp: Field, title: Field, content: Field,
    sentiments: seq<Sentiment>)

  /** The channel is trimmed; undefined tags become `[]` and an undefined weight becomes 1. */
  function CastSentiment(x: SentimentInput): (s: Sentiment)
    ensures s.tags == (if x.tags.Some? then x.tags.value else [])
    ensures s.weight == (if x.weight.NumAbsent? then Num(1.0) else x.weight)
    ensures s.score == x.score && s.confidence == x.confidence
    ensures s.channel == MapText(x.channel, JsTrim)
  {
    Sentiment(
      MapText(x.channel, JsTrim), x.score, x.confidence,
      if x.tags.Some? then x.tags.value else [],
      if x.weight.NumAbsent? then Num(1.0) else x.weight)
  }

  /** The title is trimmed and an undefined sentiment list becomes `[]`. */
  function Cast(m: MessageInput): (c: Message)
    ensures |c.sentiments| == (if m.sentiments.Some? then |m.sentiments.value| else 0)
    ensures m.sentiments.Some? ==> forall i :: 0 <= i < |c.sentiments| ==>
      c.sentiments[i] == CastSentiment(m.sentiments.value[i])
  {
    var ss := if m.sentiments.Some? then m.sentiments.value else [];
    Message(m.instrumentId, m.sourceId, m.timestamp, MapText(m.title, JsTrim), m.content,
      seq(|ss|, i requires 0 <= i < |ss| => CastSentiment(ss[i])))
  }

  /** The failing paths of one subdocument, each under `prefix`. */
  function SentimentErrors(s: Sentiment, prefix: string): (errs: set<string>)
    ensures errs <= {prefix + "channel", prefix + "score", prefix + "confidence"}
  {
    (if RequiredStringFails(s.channel) then {prefix + "channel"} else {})
    + (if RequiredNumFails(s.score) || CustomRangeFails(s.score, -1.0, 1.0) then {prefix + "score"} else {})
    + (if RangeFails(s.confidence, 0.0, 1.0) then {prefix + "confidence"} else {})
  }

  /** The path prefix of subdocument `i`. */
  function Prefix(i: nat): string
  {
    "sentiments." + NatToString(i) + "."
  }

  function AllSentimentErrors(ss: seq<Sentiment>): set<string>
  {
    if ss == [] then {}
    else AllSentimentErrors(ss[..|ss| - 1]) + SentimentErrors(ss[|ss| - 1], Prefix(|ss| - 1))
  }

  function Errors(c: Message): set<string>
  {
    (if RequiredFails(c.instrumentId) then {"instrument_id"} else {})
    + (if RequiredFails(c.sourceId) then {"source_id"} else {})
    + (if RequiredFails(c.timestamp) then {"timestamp"} else {})
    + (if MaxLengthFails(c.title, 500) then {"title"} else {})
    + AllSentimentErrors(c.sentiments)
  }

  function Validate(m: MessageInput): set<string>
  {
    Errors(Cast(m))
  }

  /**
   * A sentiment score is accepted exactly when it is a number in
   * [-1, 1], both ends included; a null score passes the range validator
   * but fails `required`. Confidence is accepted when absent, null or in
   * [0, 1].
   */
  lemma SentimentSpec(x: SentimentInput, prefix: string)
    ensures prefix + "score" !in SentimentErrors(CastSentiment(x), prefix) <==>
      x.score.Num? && -1.0 <= x.score.v <= 1.0
    ensures prefix + "confidence" !in SentimentErrors(CastSentiment(x), prefix) <==>
      !x.confidence.Num? || 0.0 <= x.confidence.v <= 1.0
    ensures prefix + "channel" !in SentimentErrors(CastSentiment(x), prefix) <==>
      x.channel.Text? && JsTrim(x.channel.s) != []
  {
    var s := CastSentiment(x);
    assert prefix + "score" != prefix + "channel" && prefix + "score" != prefix + "confidence" by {
      assert |prefix + "score"| != |prefix + "channel"| && |prefix + "score"| != |prefix + "confidence"|;
    }
    assert prefix + "confidence" != prefix + "channel" by {
      assert |prefix + "confidence"| != |prefix + "channel"|;
    }
  }

  /** Every subdocument's errors are among the document's. */
  lemma {:induction false} SubdocumentErrorsReported(ss: seq<Sentiment>, i: nat)
    requires i < |ss|
    ensures SentimentErrors(ss[i], Prefix(i)) <= AllSentimentErrors(ss)
  {
    if i < |ss| - 1 {
      SubdocumentErrorsReported(ss[..|ss| - 1], i);
    }
  }

  /**
   * In an accepted message every stored sentiment carries a score in
   * [-1, 1] and a confidence in [0, 1] when it has one.
   */
  lemma AcceptedScores(m: MessageInput)
    requires Validate(m) == {}
    ensures forall i :: 0 <= i < |Cast(m).sentiments| ==>
      var s := Cast(m).sentiments[i];
      && s.score.Num? && -1.0 <= s.score.v <= 1.0
      && (s.confidence.Num? ==> 0.0 <= s.confidence.v <= 1.0)
  {
    var ss := Cast(m).sentiments;
    forall i | 0 <= i < |ss|
      ensures ss[i].score.Num? && -1.0 <= ss[i].score.v <= 1.0
      ensures ss[i].confidence.Num? ==> 0.0 <= ss[i].confidence.v <= 1.0
    {
      SubdocumentErrorsReported(ss, i);
      assert SentimentErrors(ss[i], Prefix(i)) == {};
      var p := Prefix(i);
      assert p + "score" !in SentimentErrors(ss[i], p);
      assert p + "confidence" !in SentimentErrors(ss[i], p);
    }
  }

  /** Every subdocument error path is longer than any top-level path name. */
  lemma {:induction false} SentimentPathsLong(ss: seq<Sentiment>)
    ensures forall e :: e in AllSentimentErrors(ss) ==> |e| > 13
  {
    if ss != [] {
      SentimentPathsLong(ss[..|ss| - 1]);
    }
  }

  /** The title is accepted exactly when it is not a string or has at most 500 characters after trimming. */
  lemma TitleSpec(m: MessageInput)
    ensures "title" !in Validate(m) <==> !m.title.Text? || |JsTrim(m.title.s)| <= 500
  {
    var c := Cast(m);
    SentimentPathsLong(c.sentiments);
    assert "title" !in AllSentimentErrors(c.sentiments) by { assert |"title"| == 5; }
    assert "title" !in {"instrument_id", "source_id", "timestamp"};
  }

  /** Without sentiments the list defaults to empty, and a message needs only its three references. */
  lemma DefaultsAndRequired(m: MessageInput)
    requires m.sentiments.None? && !MaxLengthFails(MapText(m.title, JsTrim), 500)
    ensures Cast(m).sentiments == []
    ensures Validate(m) == {} <==> m.instrumentId.Text? && m.sourceId.Text? && m.timestamp.Text?
  {
  }
}

/** `AggregatedSentiment`: the score of one instrument over one period. */
module AggregatedSentimentSchema {
  import opened Common
  import opened Mongoose

  datatype AggregatedInput = AggregatedInput(
    instrumentId: Field, periodStart: Field, periodEnd: Field,
    scores: Option<map<string, real>>, aggregatedScore: NumField, rating: NumField)

  datatype Aggregated = Aggregated(
    instrumentId: Field, periodStart: Field, periodEnd: Field,
    scores: map<string, real>, aggregatedScore: NumField, rating: NumField)

  /** An undefined score map defaults to the empty map. */
  function Cast(a: AggregatedInput): (c: Aggregated)
    ensures c.scores == (if a.scores.Some? then a.scores.value else map[])
    ensures c.aggregatedScore == a.aggregatedScore && c.rating == a.rating
  {
    Aggregated(a.instrumentId, a.periodStart, a.periodEnd,
      if a.scores.Some? then a.scores.value else map[], a.aggregatedScore, a.rating)
  }

  /** `v === undefined || (v >= -1 && v <= 1)`, run on defined values only. */
  predicate AggregatedScoreFails(f: NumField)
  {
    CustomRangeFails(f, -1.0, 1.0)
  }

  function Errors(c: Aggregated): set<string>
  {
    (if RequiredFails(c.instrumentId) then {"instrument_id"} else {})
    + (if RequiredFails(c.periodStart) then {"period_start"} else {})
    + (if RequiredFails(c.periodEnd) then {"period_end"} else {})
    + (if AggregatedScoreFails(c.aggregatedScore) then {"aggregated_score"} else {})
    + (if RangeFails(c.rating, 1.0, 5.0) then {"rating"} else {})
  }

  function Validate(a: AggregatedInput): set<string>
  {
    Errors(Cast(a))
  }

  /**
   * The aggregated score is rejected exactly when it is a number outside
   * [-1, 1]: undefined passes, and so does null, which compares as 0. The
   * rating is rejected exactly when it is a number outside [1, 5]. The
   * document is accepted exactly when the three references are set and
   * neither of those fails.
   */
  lemma ValidateSpec(a: AggregatedInput)
    ensures "aggregated_score" in Validate(a) <==>
      a.aggregatedScore.Num? && !(-1.0 <= a.aggregatedScore.v <= 1.0)
    ensures "rating" in Validate(a) <==> a.rating.Num? && !(1.0 <= a.rating.v <= 5.0)
    ensures Validate(a) == {} <==>
      && a.instrumentId.Text? && a.periodStart.Text? && a.periodEnd.Text?
      && (a.aggregatedScore.Num? ==> -1.0 <= a.aggregatedScore.v <= 1.0)
      && (a.rating.Num? ==> 1.0 <= a.rating.v <= 5.0)
  {
  }
}

=== FILE: sentiment_api.dfy ===
/**
 * The backend API object: the daily sentiment trend, the current
 * sentiment with its one-slot cache and CSV fallback, the latest news with
 * POS/NEG labels, the word cloud and the recommendation endpoint. The CSV
 * file is given as rows already sorted by time, together with its per-day
 * mean sentiment; times are microseconds since an arbitrary epoch.
 */
module SentimentApi {
  import opened Numeric
  import opened Text
  import opened Common
  import opened Recommendation
  import WordCloud
  import LiveData
  import MlPredictor

  datatype SentimentData = SentimentData(overall: real, social: real, news: real, econ: real)

  /** One row of the sentiment CSV; `minute` is its timestamp formatted to the minute. */
  datatype CsvRow = CsvRow(
    kind: string, title: string, source: string, minute: string,
    sentiment: real, cpi: real, unemployment: real)

  /** The mean sentiment of one calendar day. */
  datatype DailyRow = DailyRow(date: string, sentiment: real)

  datatype TrendPoint = TrendPoint(date: string, score: real)

  datatype NewsItem = NewsItem(
    id: int, title: Field, source: Field, time: string,
    sentiment: string, sentimentScore: real, snippet: string)

  // ---------------------------------------------------------------------
  // Sequence helpers with pandas and Python semantics
  // ---------------------------------------------------------------------

  /** pandas `tail(n)`: the last `n` rows, or all but the first `-n` rows when `n` is negative. */
  function Tail<T>(s: seq<T>, n: int): (r: seq<T>)
    ensures n >= 0 ==> |r| == (if n < |s| then n else |s|)
    ensures n < 0 ==> |r| == (if |s| + n > 0 then |s| + n else 0)
    ensures r == s[|s| - |r|..]
  {
    if n >= 0 then (if n < |s| then s[|s| - n..] else s)
    else (if -n < |s| then s[-n..] else [])
  }

  /** Python's `s[:n]`, where a negative `n` drops that many items from the end. */
  function SliceTo<T>(s: seq<T>, n: int): (r: seq<T>)
    ensures r <= s
    ensures n >= 0 ==> |r| == (if n < |s| then n else |s|)
    ensures n < 0 ==> |r| == (if |s| + n > 0 then |s| + n else 0)
  {
    if n >= 0 then (if n < |s| then s[..n] else s)
    else (if |s| + n > 0 then s[..|s| + n] else [])
  }

  // ---------------------------------------------------------------------
  // Trend
  // ---------------------------------------------------------------------

  /** A [-1, 1] sentiment on the 0-100 chart scale, clamped and rounded. */
  function TrendScore(sentiment: real): (r: real)
    ensures 0.0 <= r <= 100.0
    ensures -1.0 <= sentiment <= 1.0 ==>
      (sentiment + 1.0) * 50.0 - 0.005 < r <= (sentiment + 1.0) * 50.0 + 0.005
    ensures sentiment < -1.0 ==> r == 0.0
    ensures sentiment > 1.0 ==> r == 100.0
  {
    var scaled := Clamp((sentiment + 1.0) * 50.0, 0.0, 100.0);
    Round2Within(scaled, 0, 10000);
    Round2(scaled)
  }

  /** The chart score is monotone and maps -1, 0 and 1 to 0, 50 and 100. */
  lemma TrendScoreSpec(a: real, b: real)
    ensures a <= b ==> TrendScore(a) <= TrendScore(b)
    ensures TrendScore(-1.0) == 0.0 && TrendScore(0.0) == 50.0 && TrendScore(1.0) == 100.0
  {
    if a <= b {
      ClampMonotone((a + 1.0) * 50.0, (b + 1.0) * 50.0, 0.0, 100.0);
      Round2Monotone(Clamp((a + 1.0) * 50.0, 0.0, 100.0), Clamp((b + 1.0) * 50.0, 0.0, 100.0));
    }
    RoundHalfUpOfInt(0);
    RoundHalfUpOfInt(5000);
    RoundHalfUpOfInt(10000);
  }

  /** Week and year views get noise added to every score, then clamped again. */
  predicate Jittered(days: int)
  {
    days <= 7 || days >= 365
  }

  /** The trend series: the last `days` daily rows, scored, with noise `noise(i)` on point `i` when jittered. */
  function TrendSeries(daily: seq<DailyRow>, days: int, noise: nat -> real): (points: seq<TrendPoint>)
    ensures |points| == |Tail(daily, days)|
  {
    var rows := Tail(daily, days);
    seq(|rows|, i requires 0 <= i < |rows| =>
      TrendPoint(rows[i].date,
        if Jittered(days) then Clamp(TrendScore(rows[i].sentiment) + noise(i), 0.0, 100.0)
        else TrendScore(rows[i].sentiment)))
  }

  /**
   * The series keeps the dates of the last min(days, n) rows in order,
   * every score lies in [0, 100], and without jitter each score is exactly
   * the chart score of its day.
   */
  lemma TrendSeriesSpec(daily: seq<DailyRow>, days: int, noise: nat -> real)
    ensures var points := TrendSeries(daily, days, noise);
      && (days >= 0 ==> |points| == (if days < |daily| then days else |daily|))
      && (forall i :: 0 <= i < |points| ==> points[i].date == daily[|daily| - |points| + i].date)
      && (forall i :: 0 <= i < |points| ==> 0.0 <= points[i].score <= 100.0)
      && (!Jittered(days) ==> forall i :: 0 <= i < |points| ==>
            points[i].score == TrendScore(daily[|daily| - |points| + i].sentiment))
  {
    var points := TrendSeries(daily, days, noise);
    forall i | 0 <= i < |points|
      ensures 0.0 <= points[i].score <= 100.0
    {
      var t := TrendScore(Tail(daily, days)[i].sentiment);
      if Jittered(days) {
        assert points[i].score == Clamp(t + noise(i), 0.0, 100.0);
      }
    }
  }

  /** The scores of a trend series, in order. */
  function Scores(points: seq<TrendPoint>): (r: seq<real>)
    ensures |r| == |points| && forall i :: 0 <= i < |r| ==> r[i] == points[i].score
  {
    seq(|points|, i requires 0 <= i < |points| => points[i].score)
  }

  // ---------------------------------------------------------------------
  // Current sentiment and its cache
  // ---------------------------------------------------------------------

  /** How long, in seconds, a cached sentiment stays fresh. */
  const CacheDuration: int := 60

  /**
   * `timedelta.seconds` of a difference given in microseconds: the
   * seconds-within-the-day component, with days and microseconds dropped.
   */
  function TimedeltaSeconds(micros: int): (s: int)
    ensures 0 <= s < 86400
  {
    (micros / 1000000) % 86400
  }

  /**
   * Seconds-within-the-day under a minute means the difference, taken
   * modulo whole days, is under a minute.
   */
  lemma TimedeltaUnderMinute(micros: int)
    ensures TimedeltaSeconds(micros) < 60 <==> micros % 86400000000 < 60000000
  {
    var q := micros / 86400000000;
    var rest := micros % 86400000000;
    var d := rest / 1000000;
    assert micros == (q * 86400 + d) * 1000000 + rest % 1000000;
    assert micros / 1000000 == q * 86400 + d;
    assert (q * 86400 + d) % 86400 == d;
  }

  /**
   * A cache entry is fresh when there is data and a timestamp and the
   * time since it, modulo whole days, is under a minute: an entry a whole
   * number of days off, in either direction, counts as fresh again.
   */
  predicate Fresh(data: Option<SentimentData>, timestamp: Option<int>, now: int)
    ensures Fresh(data, timestamp, now) <==>
      data.Some? && timestamp.Some? && (now - timestamp.value) % 86400000000 < 60000000
  {
    if data.Some? && timestamp.Some? then
      TimedeltaUnderMinute(now - timestamp.value);
      TimedeltaSeconds(now - timestamp.value) < CacheDuration
    else false
  }

  /** Within a minute after it was stored, an entry is fresh. */
  lemma FreshWithinMinute(d: SentimentData, stored: int, now: int)
    requires stored <= now < stored + 60000000
    ensures Fresh(Some(d), Some(stored), now)
  {
  }

  /**
   * Only the seconds within the day are compared: an entry a whole number
   * of days off, earlier or later, plus under a minute counts as fresh (so
   * one stamped between 86340 and 86400 seconds in the future is fresh),
   * while one stored one microsecond in the future counts as stale.
   */
  lemma FreshnessIgnoresDays(d: SentimentData, stored: int, days: int, delta: int)
    requires 0 <= delta < 60000000
    ensures Fresh(Some(d), Some(stored), stored + days * 86400000000 + delta)
    ensures !Fresh(Some(d), Some(stored), stored - 1)
  {
    var m := days * 86400000000 + delta;
    assert m / 1000000 == days * 86400 + delta / 1000000;
    assert (days * 86400 + delta / 1000000) % 86400 == delta / 1000000;
  }

  /** The CSV aggregates used when the live pipeline raises (computed by pandas, not modelled). */
  datatype CsvStats = CsvStats(newsMean: real, socialMean: real, latestCpi: real)

  /**
   * The fallback scores: the news and twitter means on the 0-5 scale and
   * an economic score of 3 moved by the CPI's distance from 280, kept in
   * [1, 5]; all rounded.
   */
  function CsvFallback(stats: CsvStats): (r: SentimentData)
    ensures 1.0 <= r.econ <= 5.0
  {
    var n, s := stats.newsMean, stats.socialMean;
    var econ := Min(5.0, Max(1.0, 3.0 + (stats.latestCpi - 280.0) / 20.0));
    Round2Within(econ, 100, 500);
    SentimentData(
      Round2(((n + s) / 2.0 + 1.0) * 2.5),
      Round2((s + 1.0) * 2.5),
      Round2((n + 1.0) * 2.5),
      Round2(econ))
  }

  function Min(a: real, b: real): real { if a <= b then a else b }
  function Max(a: real, b: real): real { if a >= b then a else b }

  /**
   * For means in [-1, 1] every fallback score lies in [0, 5] (so it can
   * fall below the 2-5 scale of the live scores), and a CPI of 280 gives
   * an economic score of 3.
   */
  lemma CsvFallbackSpec(stats: CsvStats)
    ensures -1.0 <= stats.newsMean <= 1.0 && -1.0 <= stats.socialMean <= 1.0 ==>
      && 0.0 <= CsvFallback(stats).overall <= 5.0
      && 0.0 <= CsvFallback(stats).news <= 5.0
      && 0.0 <= CsvFallback(stats).social <= 5.0
    ensures stats.latestCpi == 280.0 ==> CsvFallback(stats).econ == 3.0
    ensures stats.newsMean == -1.0 && stats.socialMean == -1.0 ==> CsvFallback(stats).overall == 0.0
  {
    var n, s := stats.newsMean, stats.socialMean;
    if -1.0 <= n <= 1.0 && -1.0 <= s <= 1.0 {
      Round2Within(((n + s) / 2.0 + 1.0) * 2.5, 0, 500);
      Round2Within((s + 1.0) * 2.5, 0, 500);
      Round2Within((n + 1.0) * 2.5, 0, 500);
    }
    RoundHalfUpOfInt(300);
    RoundHalfUpOfInt(0);
  }

  /**
   * What one run of the live pipeline produced: the collector's result
   * and, when the predictor is trained, the scores it gave the collector's
   * articles, posts and indicators (`None` when it is untrained).
   */
  datatype LiveOutcome = LiveOutcome(live: LiveData.Comprehensive, ml: Option<MlPredictor.MlScores>)

  /**
   * The sentiment the live pipeline yields: every score from the trained
   * predictor when there is one, else every score from the collector, the
   * `economic` score landing under `econ` either way.
   */
  function FromLive(o: LiveOutcome): (r: SentimentData)
    ensures o.ml.Some? ==>
      && r.overall == o.ml.value.overall && r.social == o.ml.value.social
      && r.news == o.ml.value.news && r.econ == o.ml.value.economic
    ensures o.ml.None? ==>
      && r.overall == o.live.overall && r.social == o.live.social
      && r.news == o.live.news && r.econ == o.live.economic
  {
    match o.ml
    case Some(ml) => SentimentData(ml.overall, ml.social, ml.news, ml.economic)
    case None => SentimentData(o.live.overall, o.live.social, o.live.news, o.live.economic)
  }

  /** The one cache slot shared by every symbol. */
  class SentimentCache {
    var data: Option<SentimentData>
    var timestamp: Option<int>

    constructor()
      ensures data == None && timestamp == None
    {
      data := None;
      timestamp := None;
    }

    predicate IsFresh(now: int)
      reads this
    {
      Fresh(data, timestamp, now)
    }

    /** `clear_cache`: empties the slot, so the next request recomputes. */
    method Clear()
      modifies this
      ensures data == None && timestamp == None
      ensures forall now :: !IsFresh(now)
    {
      data := None;
      timestamp := None;
    }
  }

  /**
   * What `get_current_sentiment` returns for a given cache content: the
   * cached value while fresh, else the live pipeline's sentiment, else
   * (when the pipeline raises) the CSV fallback.
   */
  function CurrentSentiment(
    data: Option<SentimentData>, timestamp: Option<int>, now: int,
    pipeline: Fetch<LiveOutcome>, stats: CsvStats): (r: SentimentData)
    ensures Fresh(data, timestamp, now) ==> data.Some? && r == data.value
    ensures !Fresh(data, timestamp, now) && pipeline.Fetched? ==> r == FromLive(pipeline.value)
    ensures !Fresh(data, timestamp, now) && pipeline.Raised? ==> r == CsvFallback(stats)
  {
    if Fresh(data, timestamp, now) then data.value
    else match pipeline
      case Fetched(o) => FromLive(o)
      case Raised => CsvFallback(stats)
  }

  // ---------------------------------------------------------------------
  // Latest news
  // ---------------------------------------------------------------------

  /** "POS" exactly for a strictly positive score; zero is "NEG". */
  function NewsLabel(score: real): (l: string)
    ensures l == "POS" || l == "NEG"
    ensures l == "POS" <==> score > 0.0
  {
    if score > 0.0 then "POS" else "NEG"
  }

  /**
   * The feed entry of a stored live article, or `None` where slicing a
   * `None` publication time or description raises.
   */
  function LiveNewsItem(id: nat, a: LiveData.ProcessedArticle, nowIso: string): (r: Option<NewsItem>)
    ensures r.Some? ==> r.value.id == id && r.value.sentimentScore == a.sentimentScore
    ensures r.Some? ==> (r.value.sentiment == "POS" <==> a.sentimentScore > 0.0)
    ensures r.None? <==> a.publishedAt.Null? || a.description.Null?
  {
    var time := GetOr(a.publishedAt, nowIso);
    var description := GetOr(a.description, "No description available");
    if time.Null? || description.Null? then None
    else Some(NewsItem(id, GetOr(a.title, "No title"), GetOr(a.source, "Unknown"),
      SliceTo(time.s, 19), NewsLabel(a.sentimentScore), a.sentimentScore,
      SliceTo(description.s, 200) + "..."))
  }

  /** The feed entries of the given live articles, or `None` if building any of them raises. */
  function LiveNewsItems(arts: seq<LiveData.ProcessedArticle>, nowIso: string): (r: Option<seq<NewsItem>>)
    ensures r.Some? ==> |r.value| == |arts|
  {
    if arts == [] then Some([])
    else match LiveNewsItems(arts[..|arts| - 1], nowIso)
      case None => None
      case Some(init) =>
        match LiveNewsItem(|arts| - 1, arts[|arts| - 1], nowIso)
        case None => None
        case Some(item) => Some(init + [item])
  }

  lemma {:induction false} LiveNewsItemsSpec(arts: seq<LiveData.ProcessedArticle>, nowIso: string)
    requires LiveNewsItems(arts, nowIso).Some?
    ensures var items := LiveNewsItems(arts, nowIso).value;
      forall i :: 0 <= i < |items| ==>
        && items[i].id == i
        && items[i].sentimentScore == arts[i].sentimentScore
        && (items[i].sentiment == "POS" <==> arts[i].sentimentScore > 0.0)
  {
    if arts != [] {
      LiveNewsItemsSpec(arts[..|arts| - 1], nowIso);
    }
  }

  /** `df[df['type'] == 'news']`: the news rows, in their order. */
  function NewsRows(rows: seq<CsvRow>): (r: seq<CsvRow>)
    ensures forall i :: 0 <= i < |r| ==> r[i].kind == "news"
    ensures forall x :: x in r <==> x in rows && x.kind == "news"
    ensures |r| <= |rows|
  {
    if rows == [] then []
    else if rows[|rows| - 1].kind == "news" then NewsRows(rows[..|rows| - 1]) + [rows[|rows| - 1]]
    else NewsRows(rows[..|rows| - 1])
  }

  /** A single row is kept exactly when it is a news row. */
  lemma NewsRowsSingle(x: CsvRow)
    ensures NewsRows([x]) == (if x.kind == "news" then [x] else [])
  {
    assert [x][..0] == [];
  }

  /**
   * The selection distributes over concatenation, so it keeps every news
   * row, in order.
   */
  lemma {:induction false} NewsRowsAppend(a: seq<CsvRow>, b: seq<CsvRow>)
    ensures NewsRows(a + b) == NewsRows(a) + NewsRows(b)
  {
    if b == [] {
      assert a + b == a;
    } else {
      var b', x := b[..|b| - 1], b[|b| - 1];
      NewsRowsAppend(a, b');
      assert (a + b)[..|a + b| - 1] == a + b' && (a + b)[|a + b| - 1] == x;
      assert NewsRows(a + b) == NewsRows(a + b') + (if x.kind == "news" then [x] else []);
      assert NewsRows(b) == NewsRows(b') + (if x.kind == "news" then [x] else []);
    }
  }

  /** A run made only of news rows is kept whole. */
  lemma {:induction false} NewsRowsAllNews(b: seq<CsvRow>)
    requires forall i :: 0 <= i < |b| ==> b[i].kind == "news"
    ensures NewsRows(b) == b
  {
    if b != [] {
      NewsRowsAllNews(b[..|b| - 1]);
    }
  }

  /** The feed entries of CSV news rows, with a snippet quoting CPI and unemployment. */
  function CsvNewsItems(rows: seq<CsvRow>): (r: seq<NewsItem>)
    ensures |r| == |rows|
  {
    seq(|rows|, i requires 0 <= i < |rows| =>
      NewsItem(i, Text(rows[i].title), Text(rows[i].source), rows[i].minute,
        NewsLabel(rows[i].sentiment), rows[i].sentiment,
        "Economic indicators: CPI " + FormatOneDecimal(rows[i].cpi)
        + ", Unemployment " + FormatOneDecimal(rows[i].unemployment) + "%"))
  }

  /**
   * `get_latest_news`: the first `count` live articles when there are any
   * and none raises, otherwise the last `count` news rows of the CSV.
   */
  function LatestNews(
    liveArticles: seq<LiveData.ProcessedArticle>, rows: seq<CsvRow>, count: int, nowIso: string)
    : (r: seq<NewsItem>)
    ensures count >= 0 ==> |r| <= count
    ensures forall i :: 0 <= i < |r| ==> r[i].id == i
    ensures forall i :: 0 <= i < |r| ==> (r[i].sentiment == "POS" <==> r[i].sentimentScore > 0.0)
  {
    var live := if liveArticles != [] then LiveNewsItems(SliceTo(liveArticles, count), nowIso) else None;
    if live.Some? && live.value != [] then
      LiveNewsItemsSpec(SliceTo(liveArticles, count), nowIso);
      live.value
    else CsvNewsItems(Tail(NewsRows(rows), count))
  }

  // ---------------------------------------------------------------------
  // The API object
  // ---------------------------------------------------------------------

  /** The titles of the news rows, in order. */
  function NewsTitles(rows: seq<CsvRow>): (r: seq<string>)
    ensures |r| == |NewsRows(rows)|
    ensures forall t :: t in r <==> exists x :: x in rows && x.kind == "news" && x.title == t
  {
    var news := NewsRows(rows);
    var r := seq(|news|, i requires 0 <= i < |news| => news[i].title);
    assert forall t :: t in r ==> exists x :: x in rows && x.kind == "news" && x.title == t by {
      forall t | t in r ensures exists x :: x in rows && x.kind == "news" && x.title == t {
        var i :| 0 <= i < |r| && r[i] == t;
        assert news[i] in news;
      }
    }
    assert forall x :: x in rows && x.kind == "news" ==> x.title in r by {
      forall x | x in rows && x.kind == "news" ensures x.title in r {
        var i :| 0 <= i < |news| && news[i] == x;
        assert r[i] == x.title;
      }
    }
    r
  }

  /** The candidate words of the word cloud: those of all news titles joined by spaces. */
  function CloudCandidates(rows: seq<CsvRow>): seq<string>
  {
    WordCloud.CloudWords(Join(NewsTitles(rows), " "))
  }

  class MarketSentimentApi {
    /** The CSV rows, sorted by time. */
    var rows: seq<CsvRow>
    /** The per-day mean sentiment, in date order. */
    var daily: seq<DailyRow>
    var wordCloud: seq<string>

    constructor(rows: seq<CsvRow>, daily: seq<DailyRow>)
      ensures this.rows == rows && this.daily == daily
      ensures |wordCloud| <= 20
      ensures forall w :: w in wordCloud ==> w in CloudCandidates(rows) && WordCloud.IsCloudWord(w)
      ensures forall i, j :: 0 <= i < j < |wordCloud| ==>
        WordCloud.RanksBefore(wordCloud[i], wordCloud[j], CloudCandidates(rows))
      ensures forall w :: w in CloudCandidates(rows) && w !in wordCloud ==>
        |wordCloud| == 20 && forall t :: t in wordCloud ==> WordCloud.RanksBefore(t, w, CloudCandidates(rows))
    {
      this.rows := rows;
      this.daily := daily;
      wordCloud := [];
      new;
      GenerateWordCloud();
    }

    /**
     * `generate_word_cloud`: the twenty most common candidate words of
     * the news titles, ranked by count and then by first occurrence.
     */
    method GenerateWordCloud()
      modifies this
      ensures rows == old(rows) && daily == old(daily)
      ensures |wordCloud| <= 20
      ensures forall w :: w in wordCloud ==> w in CloudCandidates(rows) && WordCloud.IsCloudWord(w)
      ensures forall i, j :: 0 <= i < j < |wordCloud| ==>
        WordCloud.RanksBefore(wordCloud[i], wordCloud[j], CloudCandidates(rows))
      ensures forall w :: w in CloudCandidates(rows) && w !in wordCloud ==>
        |wordCloud| == 20 && forall t :: t in wordCloud ==> WordCloud.RanksBefore(t, w, CloudCandidates(rows))
    {
      var candidates := CloudCandidates(rows);
      wordCloud := WordCloud.MostCommon(candidates, 20);
    }

    /**
     * `get_sentiment_trend`: scores the last `days` daily rows and, for
     * week and year views, adds noise to each score in place and clamps it.
     */
    method GetSentimentTrend(days: int, noise: nat -> real) returns (points: seq<TrendPoint>)
      ensures points == TrendSeries(daily, days, noise)
    {
      var recent := Tail(daily, days);
      points := [];
      for i := 0 to |recent|
        invariant |points| == i
        invariant forall k :: 0 <= k < i ==>
          points[k] == TrendPoint(recent[k].date, TrendScore(recent[k].sentiment))
      {
        points := points + [TrendPoint(recent[i].date, TrendScore(recent[i].sentiment))];
      }
      if Jittered(days) {
        for i := 0 to |points|
          invariant |points| == |recent|
          invariant forall k :: 0 <= k < i ==> points[k] == TrendPoint(recent[k].date,
            Clamp(TrendScore(recent[k].sentiment) + noise(k), 0.0, 100.0))
          invariant forall k :: i <= k < |points| ==>
            points[k] == TrendPoint(recent[k].date, TrendScore(recent[k].sentiment))
        {
          points := points[i := points[i].(score := Clamp(points[i].score + noise(i), 0.0, 100.0))];
        }
      }
    }

    /**
     * `get_current_sentiment`: a fresh cached value is returned as is;
     * otherwise the live pipeline's result is stored with the current time
     * and returned, and when that pipeline raises the CSV fallback is
     * returned without touching the cache.
     */
    method GetCurrentSentiment(cache: SentimentCache, now: int, pipeline: Fetch<LiveOutcome>, stats: CsvStats)
      returns (r: SentimentData)
      modifies cache
      ensures r == CurrentSentiment(old(cache.data), old(cache.timestamp), now, pipeline, stats)
      ensures old(cache.IsFresh(now)) ==> cache.data == old(cache.data) && cache.timestamp == old(cache.timestamp)
      ensures !old(cache.IsFresh(now)) && pipeline.Fetched? ==>
        cache.data == Some(FromLive(pipeline.value)) && cache.timestamp == Some(now)
      ensures !old(cache.IsFresh(now)) && pipeline.Raised? ==>
        cache.data == old(cache.data) && cache.timestamp == old(cache.timestamp)
      ensures cache.IsFresh(now) <==> old(cache.IsFresh(now)) || pipeline.Fetched?
    {
      if cache.IsFresh(now) {
        return cache.data.value;
      }
      match pipeline
      case Fetched(o) =>
        var d := FromLive(o);
        cache.data := Some(d);
        cache.timestamp := Some(now);
        r := d;
      case Raised =>
        r := CsvFallback(stats);
    }

    /**
     * `get_recommendation`: the current sentiment (through the cache) and
     * the direction of the 7-day trend feed the recommendation table.
     */
    method GetRecommendation(
      cache: SentimentCache, now: int, pipeline: Fetch<LiveOutcome>, stats: CsvStats, noise: nat -> real)
      returns (rec: Recommendation)
      modifies cache
      ensures var s := CurrentSentiment(old(cache.data), old(cache.timestamp), now, pipeline, stats);
        rec == Recommend(s.overall, TrendDirection(Scores(TrendSeries(daily, 7, noise))),
          Components(s.news, s.social, s.econ))
      ensures old(cache.IsFresh(now)) ==> cache.data == old(cache.data) && cache.timestamp == old(cache.timestamp)
      ensures !old(cache.IsFresh(now)) && pipeline.Fetched? ==>
        cache.data == Some(FromLive(pipeline.value)) && cache.timestamp == Some(now)
      ensures !old(cache.IsFresh(now)) && pipeline.Raised? ==>
        cache.data == old(cache.data) && cache.timestamp == old(cache.timestamp)
    {
      var sentiment := GetCurrentSentiment(cache, now, pipeline, stats);
      var trend := GetSentimentTrend(7, noise);
      rec := Recommend(sentiment.overall, TrendDirection(Scores(trend)),
        Components(sentiment.news, sentiment.social, sentiment.econ));
    }
  }

  /**
   * A second request within the minute is served from the cache with the
   * value just computed, whatever the live pipeline would now yield, and
   * clearing the cache forces a recomputation.
   */
  method CacheServesRepeatRequests(
    api: MarketSentimentApi, cache: SentimentCache, now: int, d: LiveOutcome, e: LiveOutcome, stats: CsvStats)
    returns (first: SentimentData, second: SentimentData, third: SentimentData)
    modifies cache
    ensures first == FromLive(d) && second == FromLive(d) && third == FromLive(e)
    ensures cache.data == Some(FromLive(e)) && cache.timestamp == Some(now)
  {
    cache.Clear();
    first := api.GetCurrentSentiment(cache, now, Fetched(d), stats);
    second := api.GetCurrentSentiment(cache, now, Fetched(e), stats);
    cache.Clear();
    third := api.GetCurrentSentiment(cache, now, Fetched(e), stats);
  }
}

=== FILE: text.dfy ===
/**
 * Character classes and string helpers shared by the Python services and
 * the Mongoose schemas. Strings are sequences of Unicode scalar values;
 * case mapping covers the ASCII letters only.
 */
module Text {
  import opened Numeric

  predicate IsAsciiUpper(c: char) { 'A' <= c <= 'Z' }

  predicate IsAsciiLower(c: char) { 'a' <= c <= 'z' }

  predicate IsAsciiLetter(c: char) { IsAsciiUpper(c) || IsAsciiLower(c) }

  predicate IsDigit(c: char) { '0' <= c <= '9' }

  /**
   * Python's `string.punctuation`: the 32 printable ASCII characters that
   * are neither letters, digits nor space.
   */
  predicate IsPunctuation(c: char)
  {
    '!' <= c <= '/' || ':' <= c <= '@' || '[' <= c <= '`' || '{' <= c <= '~'
  }

  /** The characters for which Python's `str.isspace()` holds. */
  predicate IsPySpace(c: char)
  {
    || c == ' ' || '\t' <= c <= '\r' || '\U{1C}' <= c <= '\U{1F}'
    || c == '\U{85}' || c == '\U{A0}' || c == '\U{1680}'
    || '\U{2000}' <= c <= '\U{200A}' || c == '\U{2028}' || c == '\U{2029}'
    || c == '\U{202F}' || c == '\U{205F}' || c == '\U{3000}'
  }

  /** The characters JavaScript's `String.prototype.trim` removes. */
  predicate IsJsSpace(c: char)
  {
    || c == ' ' || '\t' <= c <= '\r' || c == '\U{A0}' || c == '\U{1680}'
    || '\U{2000}' <= c <= '\U{200A}' || c == '\U{2028}' || c == '\U{2029}'
    || c == '\U{202F}' || c == '\U{205F}' || c == '\U{3000}' || c == '\U{FEFF}'
  }

  function LowerChar(c: char): (d: char)
    ensures !IsAsciiUpper(d)
    ensures IsPySpace(c) <==> IsPySpace(d)
  {
    if IsAsciiUpper(c) then (c as int + 32) as char else c
  }

  function UpperChar(c: char): (d: char)
    ensures !IsAsciiLower(d)
    ensures IsJsSpace(c) <==> IsJsSpace(d)
  {
    if IsAsciiLower(c) then (c as int - 32) as char else c
  }

  /** `str.lower()` restricted to ASCII letters. */
  function Lower(s: string): (r: string)
    ensures |r| == |s|
    ensures forall i :: 0 <= i < |s| ==> r[i] == LowerChar(s[i])
  {
    seq(|s|, i requires 0 <= i < |s| => LowerChar(s[i]))
  }

  /** `toUpperCase()` restricted to ASCII letters. */
  function Upper(s: string): (r: string)
    ensures |r| == |s|
    ensures forall i :: 0 <= i < |s| ==> r[i] == UpperChar(s[i])
  {
    seq(|s|, i requires 0 <= i < |s| => UpperChar(s[i]))
  }

  /** Number of leading characters of `s` that satisfy `p`. */
  function LeadingRun(s: string, p: char -> bool): (k: nat)
    ensures k <= |s|
    ensures forall i :: 0 <= i < k ==> p(s[i])
    ensures k < |s| ==> !p(s[k])
  {
    if s == [] || !p(s[0]) then 0 else 1 + LeadingRun(s[1..], p)
  }

  /** Number of trailing characters of `s` that satisfy `p`. */
  function TrailingRun(s: string, p: char -> bool): (k: nat)
    ensures k <= |s|
    ensures forall i :: |s| - k <= i < |s| ==> p(s[i])
    ensures k < |s| ==> !p(s[|s| - k - 1])
  {
    if s == [] || !p(s[|s| - 1]) then 0 else 1 + TrailingRun(s[..|s| - 1], p)
  }

  /**
   * Removes the characters satisfying `p` from both ends: the result
   * starts and ends with a character outside `p`.
   */
  function TrimBy(s: string, p: char -> bool): (r: string)
    ensures r == [] || (!p(r[0]) && !p(r[|r| - 1]))
  {
    var t := s[LeadingRun(s, p)..];
    t[..|t| - TrailingRun(t, p)]
  }

  /** What `TrimBy` keeps is a slice of `s`, and everything cut away satisfies `p`. */
  lemma TrimBySlice(s: string, p: char -> bool)
    ensures exists i, j ::
              && 0 <= i <= j <= |s| && TrimBy(s, p) == s[i..j]
              && (forall k :: 0 <= k < i ==> p(s[k]))
              && (forall k :: j <= k < |s| ==> p(s[k]))
  {
    var i := LeadingRun(s, p);
    var t := s[i..];
    var j := |t| - TrailingRun(t, p);
    assert t[..j] == s[i..i + j];
    assert forall k :: i + j <= k < |s| ==> s[k] == t[k - i];
  }

  /** Python's `str.strip()`. */
  function Strip(s: string): (r: string)
    ensures r == [] || (!IsPySpace(r[0]) && !IsPySpace(r[|r| - 1]))
  {
    TrimBy(s, IsPySpace)
  }

  /** JavaScript's `String.prototype.trim()`. */
  function JsTrim(s: string): (r: string)
    ensures r == [] || (!IsJsSpace(r[0]) && !IsJsSpace(r[|r| - 1]))
  {
    TrimBy(s, IsJsSpace)
  }

  /** `s` keeps exactly the characters satisfying `keep`, in order. */
  function Filter(s: string, keep: char -> bool): (r: string)
    ensures forall i :: 0 <= i < |r| ==> keep(r[i])
    ensures IsSubseq(r, s)
    ensures (forall i :: 0 <= i < |s| ==> keep(s[i])) ==> r == s
  {
    if s == [] then []
    else if keep(s[0]) then [s[0]] + Filter(s[1..], keep)
    else Filter(s[1..], keep)
  }

  /** Filtering keeps every occurrence of a kept character and none of the others. */
  lemma {:induction false} FilterCounts(s: string, keep: char -> bool)
    ensures forall c :: keep(c) ==> multiset(Filter(s, keep))[c] == multiset(s)[c]
    ensures forall c :: !keep(c) ==> multiset(Filter(s, keep))[c] == 0
  {
    if s != [] {
      FilterCounts(s[1..], keep);
      assert s == [s[0]] + s[1..];
    }
  }

  /** `a` can be obtained from `b` by deleting characters. */
  predicate IsSubseq(a: string, b: string)
  {
    a == [] || (b != [] && (IsSubseq(a, b[1..]) || (a[0] == b[0] && IsSubseq(a[1..], b[1..]))))
  }

  lemma {:induction false} SubseqRefl(a: string)
    ensures IsSubseq(a, a)
  {
    if a != [] { SubseqRefl(a[1..]); }
  }

  lemma {:induction false} SubseqTrans(a: string, b: string, c: string)
    requires IsSubseq(a, b) && IsSubseq(b, c)
    ensures IsSubseq(a, c)
    decreases |c|
  {
    if a != [] {
      if IsSubseq(b, c[1..]) {
        SubseqTrans(a, b, c[1..]);
      } else if IsSubseq(a, b[1..]) {
        SubseqTrans(a, b[1..], c[1..]);
      } else {
        SubseqTrans(a[1..], b[1..], c[1..]);
      }
    }
  }

  /** Every suffix of `s` is a subsequence of it. */
  lemma {:induction false} SuffixSubseq(x: string, s: string, k: nat)
    requires k <= |s| && IsSubseq(x, s[k..])
    ensures IsSubseq(x, s)
    decreases k
  {
    if k > 0 {
      assert s[k - 1..][1..] == s[k..];
      SuffixSubseq(x, s, k - 1);
    }
  }

  /** Every prefix of `s` is a subsequence of it. */
  lemma {:induction false} PrefixSubseq(s: string, j: nat)
    requires j <= |s|
    ensures IsSubseq(s[..j], s)
  {
    if j > 0 {
      assert s[..j][1..] == s[1..][..j - 1];
      PrefixSubseq(s[1..], j - 1);
    }
  }

  lemma SliceSubseq(s: string, i: nat, j: nat)
    requires i <= j <= |s|
    ensures IsSubseq(s[i..j], s)
  {
    PrefixSubseq(s[i..], j - i);
    assert s[i..][..j - i] == s[i..j];
    SuffixSubseq(s[i..j], s, i);
  }

  lemma TrimBySubseq(s: string, p: char -> bool)
    ensures IsSubseq(TrimBy(s, p), s)
  {
    TrimBySlice(s, p);
    var i, j :| 0 <= i <= j <= |s| && TrimBy(s, p) == s[i..j];
    SliceSubseq(s, i, j);
  }

  /** Subsequences inherit every per-character property. */
  lemma {:induction false} SubseqKeeps(a: string, b: string, p: char -> bool)
    requires IsSubseq(a, b)
    requires forall i :: 0 <= i < |b| ==> p(b[i])
    ensures forall i :: 0 <= i < |a| ==> p(a[i])
  {
    if a != [] {
      if IsSubseq(a, b[1..]) {
        SubseqKeeps(a, b[1..], p);
      } else {
        SubseqKeeps(a[1..], b[1..], p);
        assert forall i :: 1 <= i < |a| ==> a[i] == a[1..][i - 1];
      }
    }
  }

  /** `sep.join(parts)`. */
  function Join(parts: seq<string>, sep: string): (r: string)
    ensures parts == [] ==> r == []
    ensures |parts| == 1 ==> r == parts[0]
  {
    if parts == [] then []
    else if |parts| == 1 then parts[0]
    else parts[0] + sep + Join(parts[1..], sep)
  }

  /** The decimal digits of a natural number. */
  function NatToString(n: nat): (r: string)
    ensures r != [] && forall i :: 0 <= i < |r| ==> IsDigit(r[i])
  {
    var d := ['0' + (n % 10) as char];
    if n < 10 then d else NatToString(n / 10) + d
  }

  /** `f"{x:.1f}"`, with the tenths rounded half up. */
  function FormatOneDecimal(x: real): (s: string)
    ensures s != []
  {
    var m: nat := RoundHalfUp((if x < 0.0 then -x else x) * 10.0);
    (if x < 0.0 then "-" else "") + NatToString(m / 10) + "." + NatToString(m % 10)
  }
  /** `LeadingRun` is the only count whose run satisfies `p` and is then stopped. */
  lemma {:induction false} LeadingRunIs(s: string, p: char -> bool, k: nat)
    requires k <= |s| && (forall i :: 0 <= i < k ==> p(s[i])) && (k < |s| ==> !p(s[k]))
    ensures LeadingRun(s, p) == k
  {
    if k > 0 {
      LeadingRunIs(s[1..], p, k - 1);
    }
  }

  /** `TrailingRun` is the only count whose run satisfies `p` and is then stopped. */
  lemma {:induction false} TrailingRunIs(s: string, p: char -> bool, k: nat)
    requires k <= |s| && (forall i :: |s| - k <= i < |s| ==> p(s[i])) && (k < |s| ==> !p(s[|s| - k - 1]))
    ensures TrailingRun(s, p) == k
  {
    if k > 0 {
      TrailingRunIs(s[..|s| - 1], p, k - 1);
    }
  }

  /** Trimming keeps one contiguous range of the input. */
  lemma TrimByRange(s: string, p: char -> bool)
    ensures LeadingRun(s, p) + TrailingRun(s[LeadingRun(s, p)..], p) <= |s|
    ensures TrimBy(s, p) == s[LeadingRun(s, p)..|s| - TrailingRun(s[LeadingRun(s, p)..], p)]
  {
  }

  /** Texts that agree position by position on `p` have the same leading run. */
  lemma SameLeadingRun(s: string, u: string, p: char -> bool)
    requires |u| == |s| && forall i :: 0 <= i < |s| ==> p(u[i]) == p(s[i])
    ensures LeadingRun(u, p) == LeadingRun(s, p)
  {
    LeadingRunIs(u, p, LeadingRun(s, p));
  }

  /** Texts that agree position by position on `p` have the same trailing run after any cut. */
  lemma SameTrailingRun(s: string, u: string, p: char -> bool, a: nat)
    requires |u| == |s| && forall i :: 0 <= i < |s| ==> p(u[i]) == p(s[i])
    requires a <= |s|
    ensures TrailingRun(u[a..], p) == TrailingRun(s[a..], p)
  {
    var su, uu := s[a..], u[a..];
    forall i | 0 <= i < |su|
      ensures p(uu[i]) == p(su[i])
    {
      assert uu[i] == u[a + i] && su[i] == s[a + i];
    }
    TrailingRunIs(uu, p, TrailingRun(su, p));
  }

  /**
   * Two texts of one length whose characters agree position by position on
   * `p` are trimmed to the same range.
   */
  lemma TrimBySamePattern(s: string, u: string, p: char -> bool) returns (a: nat, b: nat)
    requires |u| == |s| && forall i :: 0 <= i < |s| ==> p(u[i]) == p(s[i])
    ensures a <= b <= |s|
    ensures TrimBy(s, p) == s[a..b] && TrimBy(u, p) == u[a..b]
  {
    a := LeadingRun(s, p);
    SameLeadingRun(s, u, p);
    SameTrailingRun(s, u, p, a);
    b := |s| - TrailingRun(s[a..], p);
    TrimByRange(u, p);
    TrimByRange(s, p);
  }

  /** Uppercasing a range of a text is the range of the uppercased text. */
  lemma UpperRange(s: string, a: nat, b: nat)
    requires a <= b <= |s|
    ensures Upper(s)[a..b] == Upper(s[a..b])
  {
  }

  /** Uppercasing and trimming commute: uppercasing keeps every character's whitespace status. */
  lemma TrimUpperCommute(s: string)
    ensures JsTrim(Upper(s)) == Upper(JsTrim(s))
  {
    var u := Upper(s);
    assert forall i :: 0 <= i < |s| ==> IsJsSpace(u[i]) == IsJsSpace(s[i]);
    var a, b := TrimBySamePattern(s, u, IsJsSpace);
    UpperRange(s, a, b);
  }

  /** Trimming removes exactly the padding around a text that starts and ends with a non-space. */
  lemma TrimPadded(pre: string, s: string, post: string, p: char -> bool)
    requires s != [] && !p(s[0]) && !p(s[|s| - 1])
    requires (forall i :: 0 <= i < |pre| ==> p(pre[i])) && (forall i :: 0 <= i < |post| ==> p(post[i]))
    ensures TrimBy(pre + s + post, p) == s
  {
    var w := pre + s + post;
    LeadingRunIs(w, p, |pre|);
    var t := w[|pre|..];
    assert t == s + post;
    TrailingRunIs(t, p, |post|);
    assert t[..|t| - |post|] == s;
  }
}

=== FILE: word_cloud.dfy ===
/**
 * The word cloud of the news titles: lowercase whole words of at least
 * four letters that are not stop words, ranked by how often they occur
 * (ties in order of first occurrence) and cut to the twenty most common.
 * Word characters are the ASCII letters, digits and underscore.
 */
module WordCloud {
  import opened Text

  /** The characters of a regular-expression word (`\w`, ASCII). */
  predicate IsWordChar(c: char)
  {
    IsAsciiLetter(c) || IsDigit(c) || c == '_'
  }

  /** The maximal runs of word characters of `s`, in order. */
  function Words(s: string): (ws: seq<string>)
    ensures forall i :: 0 <= i < |ws| ==> ws[i] != []
    decreases |s|
  {
    if s == [] then []
    else if !IsWordChar(s[0]) then Words(s[1..])
    else
      var k := LeadingRun(s, IsWordChar);
      [s[..k]] + Words(s[k..])
  }

  /** Every character of every word is a word character that satisfies what all of `s` satisfies. */
  lemma {:induction false} WordsKeep(s: string, p: char -> bool)
    requires forall i :: 0 <= i < |s| ==> p(s[i])
    ensures forall w, i :: w in Words(s) && 0 <= i < |w| ==> p(w[i]) && IsWordChar(w[i])
    decreases |s|
  {
    if s != [] {
      if !IsWordChar(s[0]) {
        WordsKeep(s[1..], p);
      } else {
        var k := LeadingRun(s, IsWordChar);
        WordsKeep(s[k..], p);
      }
    }
  }

  const StopWords: set<string> := {
    "the", "a", "an", "and", "or", "but", "in", "on", "at", "to", "for", "of",
    "with", "by", "is", "are", "as", "be", "been", "have", "has", "had", "do",
    "does", "did", "will", "would", "could", "should"}

  /** A whole word of at least four ASCII letters (`\b[a-zA-Z]{4,}\b`) that is not a stop word. */
  predicate IsCloudWord(w: string)
  {
    |w| >= 4 && (forall i :: 0 <= i < |w| ==> IsAsciiLetter(w[i])) && w !in StopWords
  }

  /** The words that pass the cloud filter, each as often as it occurs, in order. */
  function FilterCloudWords(ws: seq<string>): (r: seq<string>)
    ensures forall w :: w in r ==> w in ws && IsCloudWord(w)
    ensures forall w :: IsCloudWord(w) ==> multiset(r)[w] == multiset(ws)[w]
  {
    if ws == [] then []
    else
      assert ws == [ws[0]] + ws[1..];
      if IsCloudWord(ws[0]) then [ws[0]] + FilterCloudWords(ws[1..])
      else FilterCloudWords(ws[1..])
  }

  /** A single word is kept exactly when it passes the filter. */
  lemma FilterCloudWordsSingle(w: string)
    ensures FilterCloudWords([w]) == (if IsCloudWord(w) then [w] else [])
  {
    assert [w][1..] == [];
  }

  /** Filtering distributes over concatenation, so the kept words keep their order. */
  lemma {:induction false} FilterCloudWordsAppend(a: seq<string>, b: seq<string>)
    ensures FilterCloudWords(a + b) == FilterCloudWords(a) + FilterCloudWords(b)
  {
    if a == [] {
      assert a + b == b;
    } else {
      FilterCloudWordsAppend(a[1..], b);
      assert (a + b)[0] == a[0] && (a + b)[1..] == a[1..] + b;
      if IsCloudWord(a[0]) {
        assert [a[0]] + (FilterCloudWords(a[1..]) + FilterCloudWords(b))
          == [a[0]] + FilterCloudWords(a[1..]) + FilterCloudWords(b);
      }
    }
  }

  /** The candidate words of a text: the cloud words of its lowercased form, in order. */
  function CloudWords(text: string): (r: seq<string>)
    ensures forall w :: w in r ==> IsCloudWord(w)
    ensures forall w :: IsCloudWord(w) ==> multiset(r)[w] == multiset(Words(Lower(text)))[w]
  {
    FilterCloudWords(Words(Lower(text)))
  }

  /** Every candidate is a lowercase word of at least four letters outside the stop words. */
  lemma CloudWordsLowercase(text: string)
    ensures forall w :: w in CloudWords(text) ==>
      |w| >= 4 && w !in StopWords && forall i :: 0 <= i < |w| ==> IsAsciiLower(w[i])
  {
    var lowered := Lower(text);
    var notUpper := (c: char) => !IsAsciiUpper(c);
    WordsKeep(lowered, notUpper);
    forall w | w in CloudWords(text)
      ensures forall i :: 0 <= i < |w| ==> IsAsciiLower(w[i])
    {
      assert w in Words(lowered);
      forall i | 0 <= i < |w|
        ensures IsAsciiLower(w[i])
      {
        assert notUpper(w[i]);
      }
    }
  }

  /** How often `w` occurs. */
  function Count(w: string, words: seq<string>): nat
  {
    multiset(words)[w]
  }

  /** The position of the first occurrence of `w`. */
  function FirstIndex(w: string, words: seq<string>): (k: nat)
    requires w in words
    ensures k < |words| && words[k] == w
    ensures forall j :: 0 <= j < k ==> words[j] != w
  {
    if words[0] == w then 0 else 1 + FirstIndex(w, words[1..])
  }

  /** `a` ranks before `b`: it occurs more often, or as often and first. */
  predicate RanksBefore(a: string, b: string, words: seq<string>)
    requires a in words && b in words
  {
    Count(a, words) > Count(b, words)
    || (Count(a, words) == Count(b, words) && FirstIndex(a, words) < FirstIndex(b, words))
  }

  /** Ranking is a strict total order on the distinct words. */
  lemma RanksBeforeTotal(a: string, b: string, c: string, words: seq<string>)
    requires a in words && b in words && c in words
    ensures !RanksBefore(a, a, words)
    ensures a != b ==> RanksBefore(a, b, words) || RanksBefore(b, a, words)
    ensures RanksBefore(a, b, words) && RanksBefore(b, c, words) ==> RanksBefore(a, c, words)
  {
  }

  /**
   * `Counter(words).most_common(n)`: at most `n` distinct words of the
   * input, ranked, and when a word is left out the result is full and
   * every chosen word ranks before it.
   */
  method MostCommon(words: seq<string>, n: nat) returns (top: seq<string>)
    ensures |top| <= n
    ensures forall i :: 0 <= i < |top| ==> top[i] in words
    ensures forall i, j :: 0 <= i < j < |top| ==> RanksBefore(top[i], top[j], words)
    ensures forall w :: w in words && w !in top ==>
      |top| == n && forall t :: t in top ==> RanksBefore(t, w, words)
  {
    top := [];
    while |top| < n
      invariant |top| <= n
      invariant forall i :: 0 <= i < |top| ==> top[i] in words
      invariant forall i, j :: 0 <= i < j < |top| ==> RanksBefore(top[i], top[j], words)
      invariant forall w :: w in words && w !in top ==> forall t :: t in top ==> RanksBefore(t, w, words)
      decreases n - |top|
    {
      var best: string := "";
      var found := false;
      for i := 0 to |words|
        invariant found ==> best in words && best !in top
        invariant found ==> forall j :: 0 <= j < i && words[j] !in top ==>
          words[j] == best || RanksBefore(best, words[j], words)
        invariant !found ==> forall j :: 0 <= j < i ==> words[j] in top
      {
        var w := words[i];
        if w !in top && (!found || RanksBefore(w, best, words)) {
          if found {
            forall j | 0 <= j < i && words[j] !in top && words[j] != w
              ensures RanksBefore(w, words[j], words)
            {
              RanksBeforeTotal(w, best, words[j], words);
            }
          }
          best, found := w, true;
        } else if w !in top {
          RanksBeforeTotal(best, w, w, words);
        }
      }
      if !found {
        return;
      }
      forall w | w in words && w !in top + [best]
        ensures RanksBefore(best, w, words)
      {
        var j :| 0 <= j < |words| && words[j] == w;
      }
      top := top + [best];
    }
  }
}
